=== FILE: README.md ===
# notionblog core in Dafny

A model of the logic of the notionblog site. This is a static blog whose posts are
written in a Notion database, exported to JSON by a Node script, and rendered by a
Next.js front end. The model covers six parts:

- **Ingestion.** This is scripts/fetch-notion-data.js. It flattens rich text and
  converts each content block to Markdown. It reads the database columns with their
  defaults, derives the reading time and the URL slug, and assembles the posts. It
  skips pages whose date cannot be formatted, counts categories and tags, and splits
  the export into the four artifacts.
  - scripts/fetch-single-page.js is the single-page inspector: page-id extraction,
    the people-aware property reader and the block previews.
  - src/lib/notion.ts is the server-side page formatter.
- **Data access.** This is src/lib/data.ts: lookups, latest posts, category and tag
  facets and statistics, the site search, and the 5-minute memo cache. Cached answers
  are proved equal to the uncached ones.
- **List pages.**
  - The blog index (src/app/blog/page.tsx): the filter conjunction, the two sort
    orders, six-per-page pagination, prev/next clamping and the page-number window.
  - The search page (src/app/search/page.tsx): the bounded, duplicate-free history;
    title-word suggestions; the result filter with date bounds and three sort orders;
    the URL parameters; the clear-all reset.
- **Support state.**
  - The localStorage TTL cache and the history clean-up of src/lib/performance.ts,
    over a map-modelled storage, with the `parseInt` it relies on.
  - The error classes, `handleError`, the wrappers, the linear-backoff retry and the
    cache fallback of src/lib/error-handler.ts.
  - Theme merging, validation, the loading fallback chain and the theme list of
    src/utils/themeLoader.ts.
- **Record builders.**
  - The SEO metadata, JSON-LD and breadcrumbs of src/lib/seo.ts.
  - The post card of src/components/BlogCard.tsx.

**Modelling conventions.**

- Dates are integer day numbers. An invalid date is an explicit case.
- `toLowerCase` is ASCII lower-casing.
- `localeCompare` and the default `sort()` are lexicographic order on code points.
- JavaScript's `||` on strings is modelled with `Option` plus emptiness, since both
  absent and '' are falsy.
- The Notion client, the file system, `localStorage`, the clock and dynamic `import`
  become parameters or input values.

Each source file is one module; `Wrappers`, `Seqs`, `Text`, `Posts`, `Ordering`,
`Counting` and `Notion` hold what several of them share.

## Model

| member | source | states |
|---|---|---|
| Markdown.PlainText | scripts/fetch-notion-data.js:26-29 | a missing or non-array rich text flattens to ''; an array flattens to its runs' `plain_text` in order, an absent one counting as '' |
| Markdown.RunsTextConcat | scripts/fetch-notion-data.js:28 | flattening two run arrays one after the other gives the two texts concatenated, so no separator is inserted |
| Markdown.RunsTextSingle | scripts/fetch-notion-data.js:28 | one run contributes exactly its `plain_text`, or '' when it has none |
| Markdown.MediaUrl | scripts/fetch-notion-data.js:121-147 | a media source yields a URL exactly when `file.url` or `external.url` is non-empty, prefers `file.url`, and never yields '' |
| Markdown.ConvertBlock | scripts/fetch-notion-data.js:48-180 | converting a block fails (the switch throws) exactly when it is one of the text kinds whose payload object is missing |
| Markdown.TextBlockFragment | scripts/fetch-notion-data.js:49-120 | a text block (paragraph, headings, list items, code, quote, toggle, to-do, callout) emits '' when its plain text is empty and otherwise its opener, its text and its closer |
| Markdown.HeadingAndListMarkers | scripts/fetch-notion-data.js:55-84 | headings start with '# ', '## ', '### '; bullets with '- '; numbered items always with the literal '1. ' |
| Markdown.UnconditionalFragments | scripts/fetch-notion-data.js:98-170 | the divider emits '---' and the table emits '[表格内容]' whatever their payload holds |
| Markdown.MediaFragments | scripts/fetch-notion-data.js:121-165 | image, video and file blocks link `file.url` in preference to `external.url`; every media block, embed and bookmark included, emits nothing without a URL |
| Markdown.MediaLabels | scripts/fetch-notion-data.js:121-165 | an uncaptioned image is labelled 图片, an unnamed file 文件, and an uncaptioned bookmark shows its own URL |
| Markdown.Fragments | scripts/fetch-notion-data.js:43-181 | the blocks' fragments in block order, absent exactly when some block throws |
| Markdown.FragmentsConcat | scripts/fetch-notion-data.js:45-181 | converting two runs of blocks gives the concatenation of their conversions |
| Markdown.FirstPage | scripts/fetch-notion-data.js:36-39 | only the first 100 blocks are listed, as a prefix of the page's blocks; a page of at most 100 blocks is listed whole |
| Markdown.PageContent | scripts/fetch-notion-data.js:32-192 | page content is the trimmed concatenation of the fragments; a failed fetch or any throwing block gives '' |
| Markdown.OneBadBlockEmptiesPage | scripts/fetch-notion-data.js:187-191 | one throwing block among the first hundred empties the whole page, not only its own fragment |
| Markdown.LaterBlocksIgnored | scripts/fetch-notion-data.js:36-39 | blocks after the first hundred never change the content |
| Markdown.IntroExample | scripts/fetch-notion-data.js:49-60 | a heading 'Intro' followed by a paragraph 'Hello world' becomes "# Intro\n\nHello world" |
| Ingest.FirstFileUrl | scripts/fetch-notion-data.js:220 | a files property reads as the first attachment's `file.url`, else its `external.url`, else '' |
| Ingest.GetPropertyValue | scripts/fetch-notion-data.js:195-224 | null for a missing property and for unknown types, `people` included; title and rich text flatten; select gives the name or null; multi-select gives the names in order or []; a date gives its start, and null when the start is missing or empty; files never give null |
| Ingest.MultiSelectKeepsOrder | scripts/fetch-notion-data.js:205-206 | multi-select names keep their upstream order |
| Ingest.FilesNeverNull | scripts/fetch-notion-data.js:219-220 | a files property always reads as a string, the first attachment's internal URL when present |
| Ingest.ReadingTime | scripts/fetch-notion-data.js:227-231 | the reading time is the least number of minutes covering the content at 500 characters per minute, and 0 exactly for empty content |
| Ingest.PublishDay | scripts/fetch-notion-data.js:20-23 | a falsy value gives today; any other value goes through `new Date`: a date start gives its day or throws when invalid, a string is parsed, an array is parsed as its comma-joined text, a number is a millisecond time value whose UTC day is taken and which throws beyond ±8.64e15 ms, and `true` is the first day of the epoch |
| Ingest.TextAndEmptyDates | scripts/fetch-notion-data.js:20-23 | a rich-text date column holding s is dated by parsing s, so the post is kept whenever s parses; a date column with an empty start reads as null and is dated today |
| Ingest.Field | scripts/fetch-notion-data.js:273-293 | a column missing from the page reads as null |
| Ingest.TagsOf | scripts/fetch-notion-data.js:284 | the tags are the multi-select names, or [] for anything else |
| Ingest.ContentOf | scripts/fetch-notion-data.js:276 | non-empty block content is kept; otherwise a summary gives '# ' + title + a blank line + summary, and no summary gives '' |
| Ingest.Assemble | scripts/fetch-notion-data.js:270-303 | the post literal: a page yields no post exactly when its date cannot be formatted or, with a falsy alias, its title is a truthy number, array or `true` on which `generateSlug` throws; the defaults 无标题, 未分类 and 未知作者; status published iff the column equals 已发布; reading time of the final content; slug from the alias or else derived from the title |
| Ingest.SummaryFallback | scripts/fetch-notion-data.js:273-276 | empty block content with a summary falls back to a heading plus the summary, so a post with a summary never has empty content or zero reading time |
| Ingest.SlugOfPost | scripts/fetch-notion-data.js:291 | a non-empty alias is the slug; otherwise the slug is derived from the title and has the slug shape |
| Ingest.PeopleAuthorIsUnknown | scripts/fetch-notion-data.js:221-222 | a people-typed author column is never read, so the author is always 未知作者 |
| Ingest.MissingDateIsToday | scripts/fetch-notion-data.js:21 | a page without a publish-date column is dated today, and is kept unless its slug step throws |
| Ingest.NumericTitleSkipped | scripts/fetch-notion-data.js:291-303 | a page whose title column is a non-zero number and which has no alias is skipped, because `generateSlug` throws on the number |
| Ingest.FetchPosts | scripts/fetch-notion-data.js:263-307 | every kept post comes from some page, and there are never more posts than pages |
| Ingest.FetchPostsConcat | scripts/fetch-notion-data.js:265-305 | pages are processed independently and in order: a failing page removes only its own post |
| Ingest.FetchPostsSingle | scripts/fetch-notion-data.js:265-305 | one page yields its post, or nothing when its handler throws |
| Ingest.GenerateStats | scripts/fetch-notion-data.js:315-348 | the total is the number of posts; the published and draft counts are the numbers of posts with each status, and together they make the total; category and tag counts match the multisets of occurrences |
| Ingest.StatsCountStatuses | scripts/fetch-notion-data.js:320-321 | the published and draft counts are the multiplicities of the two statuses in the list of post statuses |
| Ingest.Run | scripts/fetch-notion-data.js:358-383 | the published artifact is the published posts in order, the stats are over all posts and count exactly the published artifact as published, and the metadata counts drafts as total minus published |
| Ingest.SnapshotConsistent | scripts/fetch-notion-data.js:366-377 | the metadata's counts agree with the statistics' counts |
| Ingest.TitledPagePost | scripts/fetch-notion-data.js:279-288 | a page with just a title and a status yields a post with that title, published iff the status is 已发布 |
| Ingest.FetchPostsPair | scripts/fetch-notion-data.js:265-296 | two pages that both convert are both kept, in page order |
| Ingest.PublishedOfPair | scripts/fetch-notion-data.js:366 | of a published post followed by a draft only the first is published |
| Ingest.PublishedExample | scripts/fetch-notion-data.js:263-296 | pages "Post A" (已发布) and "Post B" (草稿) give two posts in order, only the first published |
| Notion.StringOr | scripts/fetch-notion-data.js:281 | reading a column with a string fallback: a non-empty string is kept and anything falsy gives the fallback (a truthy value of another JSON type also gives the fallback; see Left out) |
| Slug.KeepAllowed | scripts/fetch-notion-data.js:237 | removing the characters outside `[\w\s-]` never lengthens the text, keeps every ASCII letter and digit in order, and leaves only allowed characters, none of them upper case when the input had none |
| Slug.KeepAllowedChars | scripts/fetch-notion-data.js:237 | every character left is a word character, white space or '-', and a text made only of such characters is kept whole |
| Slug.KeepAllowedConcat | scripts/fetch-notion-data.js:237 | the removal works character by character: it distributes over concatenation, and one character survives exactly when it is allowed |
| Slug.CollapseSeps | scripts/fetch-notion-data.js:238 | no two hyphens end up adjacent, a leading hyphen comes only from a leading separator, the result is `[a-z0-9-]*` on cleaned input, and the letters and digits are untouched |
| Slug.CollapseWord | scripts/fetch-notion-data.js:238 | a stretch without separators passes through unchanged |
| Slug.CollapseRun | scripts/fetch-notion-data.js:238 | a maximal run of whitespace, '_' and '-' becomes exactly one hyphen |
| Slug.WordsAroundRun | scripts/fetch-notion-data.js:238 | two words separated by any non-empty run of separators come out joined by a single hyphen |
| Slug.HelloWorldSlug | scripts/fetch-notion-data.js:234-240 | the title 'Hello World' gives the slug 'hello-world' |
| Slug.SlugShape | scripts/fetch-notion-data.js:234-240 | every derived slug is `[a-z0-9-]*` with no hyphen at either end and none doubled, and holds exactly the title's ASCII letters and digits lower-cased |
| Slug.SlugFixedPoint | scripts/fetch-notion-data.js:234-240 | a string that already has the slug shape is its own slug |
| Slug.SlugIdempotent | scripts/fetch-notion-data.js:234-240 | deriving a slug from a slug changes nothing |
| Slug.SlugEmptyIff | scripts/fetch-notion-data.js:234-240 | the slug is empty exactly when the title has no ASCII letter or digit |
| Slug.CjkTitlesCollide | scripts/fetch-notion-data.js:237 | a title of only CJK characters gives the empty slug, so two such posts share it |
| Counting.CategoryCounts | scripts/fetch-notion-data.js:325-329 | each non-empty category is counted once per post that has it, and no other key appears |
| Counting.TagCounts | scripts/fetch-notion-data.js:332-338 | every tag occurrence of every post is counted |
| Counting.CategoryBagSize | scripts/fetch-notion-data.js:325-329 | the category counts add up to the number of posts that have a category |
| Counting.TagBagSize | scripts/fetch-notion-data.js:332-338 | the tag counts add up to the number of tag occurrences |
| Counting.BagsConcat | scripts/fetch-notion-data.js:325-338 | counting two runs of posts adds their counts |
| SinglePage.Hyphenate | scripts/fetch-single-page.js:16-18 | 32 hex characters are regrouped 8-4-4-4-12 with hyphens into the 36-character UUID form |
| SinglePage.ExtractPageId | scripts/fetch-single-page.js:10-22 | an id is found exactly when the URL ends in a hyphenated UUID or in 32 hex characters (either case); the result is always in UUID form, the hyphenated tail itself or the hyphenation of the 32 characters |
| SinglePage.ShapesExclusive | scripts/fetch-single-page.js:12 | the two alternatives of the end-anchored pattern never both match |
| SinglePage.HyphenateRoundTrip | scripts/fetch-single-page.js:16-18 | removing the hyphens from the regrouped id gives the 32 characters back |
| SinglePage.CompactRoundTrip | scripts/fetch-single-page.js:16-18 | a hyphenated id is the regrouping of its own 32 hex digits |
| SinglePage.ExtractAfterSlug | scripts/fetch-single-page.js:10-22 | a URL whose last 32 characters are hex after a non-hex character yields their hyphenated form |
| SinglePage.ScriptUrlExample | scripts/fetch-single-page.js:216-223 | the URL the script inspects yields the id 249c5a0e-bbe6-8017-867a-fe54d8fe8f2e |
| SinglePage.PersonLabel | scripts/fetch-single-page.js:58 | a person is shown by name, or by id when the name is empty or missing |
| SinglePage.GetPropertyValue | scripts/fetch-single-page.js:31-62 | identical to the ingestion extractor on every property type except `people`, which gives one label per person, or []; a date reads as null exactly when its start is missing or empty |
| SinglePage.PeopleExample | scripts/fetch-single-page.js:57-58 | people [Ann, an unnamed u2] read as ["Ann", "u2"] here, and as null in the ingestion script |
| SinglePage.GetPageInfo | scripts/fetch-single-page.js:80-94 | the info keeps the page id and edit time and has one extracted value per property name |
| SinglePage.PageInfoAgreesWithIngestion | scripts/fetch-single-page.js:80-85 | on every column that is not a people column, the page info shows what the ingestion script reads |
| SinglePage.Preview | scripts/fetch-single-page.js:129-199 | a block's preview is its plain text for text kinds and '---' for a divider; it is absent (the case throws) exactly for a text kind or image whose payload is missing |
| SinglePage.PreviewLabels | scripts/fetch-single-page.js:188-198 | an image previews as '[图片: caption]' or '[图片: 无标题]'; any other kind, video included, as '[kind 块]' |
| SinglePage.PreviewMatchesConverter | scripts/fetch-single-page.js:129-199 | a text block's preview is exactly the text the ingestion converter wraps; every block that makes the converter throw makes the preview throw, and an image with no payload throws only here |
| SinglePage.Info | scripts/fetch-single-page.js:116-203 | the block info keeps id and type, carries content exactly for text kinds, and an image URL only for images |
| SinglePage.FirstRecords | scripts/fetch-single-page.js:107-110 | the listing is the first 100 block records, in order |
| SinglePage.GetPageBlocks | scripts/fetch-single-page.js:103-212 | one info record per listed block, in order, each the block's own record; the whole call fails when the listing fails or any block's case throws |
| NotionPage.FirstRunText | src/lib/notion.ts:81-83 | a rich-text path reads only the first run's `plain_text`, and nothing from an empty or non-array field |
| NotionPage.FormatNotionPage | src/lib/notion.ts:76-91 | the title, content and summary are the first run's `plain_text` or their defaults (无标题, '', ''); the category is the select name or 未分类; published iff the select name is 已发布; tags are the multi-select names or []; the date is the raw start, with no default; the cover comes from a url column, or '' |
| NotionPage.GetPublishedPosts | src/lib/notion.ts:26-48 | a failed query gives []; otherwise post i is the formatted row i of the rows whose status is 已发布, in row order, none dropped |
| NotionPage.PublishedRowsServed | src/lib/notion.ts:30-44 | every row whose status is 已发布 is served, and every served post is published and is the formatting of such a row |
| NotionPage.TitleFirstRunOnly | src/lib/notion.ts:81 | the title is the first run only, where the ingestion script joins every run |
| NotionPage.TitleExample | src/lib/notion.ts:81 | a title of runs 'Hello' and ' world' reads as 'Hello' here and 'Hello world' in the ingestion script |
| NotionPage.CoverColumnKinds | src/lib/notion.ts:89 | a files-typed cover column gives '' here but its first attachment's URL in the ingestion script; a url-typed one gives its URL here |
| NotionPage.DateDefaults | src/lib/notion.ts:86 | without a date column this reader leaves the date empty, where the ingestion script uses today for every page it keeps |
| NotionPage.StatusAgrees | src/lib/notion.ts:88 | both readers give the same status for a select column |
| NotionPage.FirstRunIsAll | src/lib/notion.ts:81-83 | on a field of a single run the first-run reading and the ingestion script's joined reading agree |
| NotionPage.TitleAgrees | src/lib/notion.ts:81 | for a title of at most one run the two readers give the same title, 无标题 included |
| NotionPage.SummaryAgrees | src/lib/notion.ts:83 | for a summary of at most one run the two readers give the same summary |
| NotionPage.CategoryAndTagsAgree | src/lib/notion.ts:84-85 | for select and multi-select columns the two readers give the same category, with the same default, and the same tags |
| Data.FindById | src/lib/data.ts:73 | no post is found exactly when no post has the id; a found post is one with that id, the first such |
| Data.GetPostById | src/lib/data.ts:65-84 | an empty id gives null without searching; otherwise the first post with that id, or null |
| Data.GetLatestPosts | src/lib/data.ts:87-97 | the published posts sorted newest first and cut to `limit`: `min(limit, count)` posts for a non-negative limit and `max(count + limit, 0)` for a negative one (the `slice` end counts from the back); each post at most as often as it is published |
| Data.LatestAreNewest | src/lib/data.ts:90-92 | a published post left out of the latest ones is no newer than any post in them |
| Data.PostsByCategory | src/lib/data.ts:100-110 | an empty category gives []; otherwise exactly the published posts of that category, each as often as it is published |
| Data.PostsByTag | src/lib/data.ts:113-125 | an empty tag gives []; otherwise exactly the published posts carrying the tag, each as often as it is published |
| Data.PostsByCategoryConcat | src/lib/data.ts:105 | selecting by category keeps the posts in their published order |
| Data.PostsByTagConcat | src/lib/data.ts:118-120 | selecting by tag keeps the posts in their published order |
| Data.Categories | src/lib/data.ts:132-133 | the category list holds exactly the posts' categories |
| Data.AllTagOccurrences | src/lib/data.ts:149-150 | the flattened tag list holds exactly the posts' tags |
| Data.AllCategories | src/lib/data.ts:128-142 | the distinct non-empty categories of the published posts, strictly ascending |
| Data.AllTags | src/lib/data.ts:145-159 | the distinct non-empty tags of the published posts, strictly ascending |
| Text.DedupeOrder | src/lib/data.ts:136 | de-duplicating through a `Set` keeps the values in the order of their first occurrence |
| Data.Terms | src/lib/data.ts:171 | the search terms are non-empty, contain no space, and each occurs in the lower-cased query |
| Data.TermsOfWord | src/lib/data.ts:171 | a query that is one word has that word as its only term, and the empty query has none |
| Data.TermsAroundSpace | src/lib/data.ts:171 | the terms of two texts joined by a space are the terms of the first followed by those of the second, so every non-empty space-separated word is a term, in query order |
| Data.TermsLeadingSpace | src/lib/data.ts:171 | a leading space adds no term |
| Data.TermsOfTwoWords | src/lib/data.ts:171 | two words with a double space between them give exactly those two terms, in order |
| Data.SearchFetch | src/lib/data.ts:169-193 | the hits are exactly the published posts whose searchable text contains every term, each as often as it is published (a permutation of the filtered list), ordered title matches first and then newest first |
| Data.SearchPosts | src/lib/data.ts:162-199 | a blank query gives []; otherwise a permutation of the posts matching every lower-cased term |
| Data.SearchOrder | src/lib/data.ts:183-193 | in the results a post whose title contains the whole query never follows one whose title does not, and within each group newer posts come first |
| Data.ContentNotSearched | src/lib/data.ts:174-179 | the post's content never decides a match: only title, summary, category and tags are searched |
| Data.SearchIgnoresCase | src/lib/data.ts:166-170 | the results depend only on the lower-cased query, which is what the memo key records |
| Data.CategoryStats | src/lib/data.ts:202-220 | each non-empty category of a published post is counted once per post |
| Data.TagStats | src/lib/data.ts:223-243 | every tag occurrence of a published post is counted |
| Data.GetCachedData | src/lib/data.ts:10-21 | a fresh entry (younger than its ttl) is answered without fetching and the cache is unchanged; otherwise the fetched value is stored with the current time and ttl, and no other key changes |
| Data.ExpiryBoundary | src/lib/data.ts:14 | an entry stored at time t refetches exactly when now - t >= ttl, so an entry exactly ttl old has expired |
| Data.ClearCache | src/lib/data.ts:246-249 | clearing leaves no entry |
| Data.GetCacheStatus | src/lib/data.ts:252-257 | the status reports the cache's keys and their number |
| Data.ClearForcesFetch | src/lib/data.ts:246-257 | after a clear every memoised call fetches and the status is empty |
| Data.KeysDistinct | src/lib/data.ts:129-224 | the four fixed keys and the search keys never collide |
| Data.MemoTransparent | src/lib/data.ts:10-21 | memoising a key with the value it stands for keeps every cached entry correct and answers that value |
| Data.EmptyCacheCoherent | src/lib/data.ts:246-249 | a cleared cache holds no wrong entry |
| Data.AllCategoriesMemo | src/lib/data.ts:128-142 | from a correct cache the memoised call answers the uncached categories and leaves the cache correct |
| Data.AllTagsMemo | src/lib/data.ts:145-159 | from a correct cache the memoised call answers the uncached tags and leaves the cache correct |
| Data.CategoryStatsMemo | src/lib/data.ts:202-220 | from a correct cache the memoised call answers the uncached category counts |
| Data.TagStatsMemo | src/lib/data.ts:223-243 | from a correct cache the memoised call answers the uncached tag counts |
| Data.SearchPostsMemo | src/lib/data.ts:162-199 | a blank query answers [] without touching the memo; otherwise, from a correct cache, the memoised search answers the uncached results |
| Ordering.BeforeTotal | src/app/blog/page.tsx:60-66 | each comparator orders every pair one way or the other |
| Ordering.BeforeTransitive | src/app/blog/page.tsx:60-66 | each comparator's "may come first" relation is transitive, so the sort is well defined |
| Ordering.Insert | src/app/blog/page.tsx:60 | inserting into a sorted list keeps it sorted and adds exactly the one element |
| Ordering.Sort | src/app/blog/page.tsx:60-66 | sorting is a permutation of its input and its result is ordered by the chosen comparator |
| Ordering.SortedMembers | src/app/blog/page.tsx:60-66 | sorting neither loses nor invents a post |
| Ordering.SortStable | src/app/blog/page.tsx:60-66 | sorting is stable, as `Array.prototype.sort` is: the posts the comparator ties keep their input order |
| BlogList.Visible | src/app/blog/page.tsx:44-69 | a permutation of the posts passing the search, category and tag conditions, ordered newest first for 'date' and by title for 'title' |
| BlogList.NoFilterListsAll | src/app/blog/page.tsx:46-56 | with no term, category or tag every published post is listed |
| BlogList.TotalPages | src/app/blog/page.tsx:72 | the page count is the least number of six-post pages covering the list, 0 exactly for an empty list |
| BlogList.PageSlice | src/app/blog/page.tsx:73-74 | page k shows posts 6(k-1) up to 6k, cut at the end of the list, and never more than six |
| BlogList.PagesUpToPrefix | src/app/blog/page.tsx:73-74 | the first k pages together are the first 6k posts |
| BlogList.AllPagesReproduceList | src/app/blog/page.tsx:72-74 | reading every page in turn reproduces the filtered list, with nothing lost or repeated |
| BlogList.InnerPagesFull | src/app/blog/page.tsx:72-74 | every page before the last holds six posts |
| BlogList.Prev | src/app/blog/page.tsx:202 | the previous page never goes below 1 |
| BlogList.Next | src/app/blog/page.tsx:249 | the next page never goes beyond the last |
| BlogList.PageItemOf | src/app/blog/page.tsx:213-244 | a page number gets a button exactly inside the desktop window (first, last, current ± 2), hidden on mobile outside current ± 1; the ellipsis is never rendered |
| BlogList.EllipsisNeverRendered | src/app/blog/page.tsx:234-237 | the page three before the current one, beyond the first page, gets no ellipsis |
| BlogList.PageItemFixed | src/app/blog/page.tsx:213-244 | the corrected loop body: the same buttons, plus an ellipsis exactly at the pages three away outside the window |
| BlogList.GapsMarked | src/app/blog/page.tsx:213-244 | with the correction each gap before or after the window is marked by one ellipsis, and the buttons are those of the loop as written |
| BlogList.WindowFacts | src/app/blog/page.tsx:215-218 | the mobile window is inside the desktop one; the first, last and current pages always have a button |
| BlogList.Step | src/app/blog/page.tsx:77-87 | clearing restores the initial state; any change of filters resets the page to 1; page buttons never change the filters; the page never drops below 1 and moves forward only up to the page count |
| BlogList.StepKeepsPageInRange | src/app/blog/page.tsx:199-251 | every control keeps the current page between 1 and the page count (or at 1 for an empty list) |
| BlogList.ClearHidesButton | src/app/blog/page.tsx:81-87 | after clearing, the clear button is hidden and the page is 1 |
| SearchPage.SaveToHistory | src/app/search/page.tsx:75-81 | a blank or already recorded query leaves the history unchanged; otherwise the query goes first, followed by at most nine earlier entries, so the history never exceeds ten and stays duplicate-free |
| SearchPage.SaveIdempotent | src/app/search/page.tsx:76 | saving the same query twice is saving it once |
| SearchPage.HistoryStaysBounded | src/app/search/page.tsx:75-81 | any sequence of saves keeps a bounded, duplicate-free history bounded and duplicate-free |
| SearchPage.KeystrokesAreRecorded | src/app/search/page.tsx:143-144 | typing 'ab' after 'a' records both prefixes, the longer one first, since every keystroke of the search box (line 190) saves the current text |
| SearchPage.ShownHistory | src/app/search/page.tsx:217-229 | the history is shown only while the query is empty, at most its first eight entries |
| SearchPage.Titles | src/app/search/page.tsx:53 | one title per post, in order |
| SearchPage.PiecesOfTitles | src/app/search/page.tsx:54 | splitting the joined titles on spaces gives exactly the space-separated pieces of the individual titles |
| SearchPage.Suggestions | src/app/search/page.tsx:53-55 | at most ten distinct suggestions, each a space-free word longer than two characters taken from some title; a qualifying word is left out only when ten are already present |
| SearchPage.QualifyingWords | src/app/search/page.tsx:54 | the words longer than two characters of the titles, title by title, are exactly the qualifying words of some title |
| SearchPage.JoinedPiecesAreWords | src/app/search/page.tsx:53-54 | splitting the joined titles and dropping short pieces gives the qualifying words of the titles in order |
| SearchPage.SuggestionsAreFirstTen | src/app/search/page.tsx:53-55 | the suggestions are the first ten distinct qualifying words in order of first occurrence: they keep that order, and a qualifying word is missing only when ten words occurring before it fill the list |
| SearchPage.ShownSuggestions | src/app/search/page.tsx:196-202 | nothing without a query; otherwise at most five suggestions, each containing the query case-insensitively, and all the matching ones when there are at most five |
| SearchPage.HitsOf | src/app/search/page.tsx:201 | the matching suggestions are exactly those containing the query, ignoring case |
| SearchPage.MatchAtPosition | src/app/search/page.tsx:201 | a matching suggestion at position k is the match numbered by the count of matches before it |
| SearchPage.ShownAreFirstMatches | src/app/search/page.tsx:196-202 | with a query, there are as many buttons as matches up to five, and the match with n matches before it is button n whenever n is below five |
| SearchPage.SearchResults | src/app/search/page.tsx:90-128 | a permutation of the posts matching the query, category, tag and both date bounds, each as often as it occurs; ordered title-match-first then newest for 'relevance', newest first for 'date', by title for any other value |
| SearchPage.EmptyQueryMatchesAll | src/app/search/page.tsx:93-107 | with no query and no filter every post is a result, where the site search of the data layer answers [] to an empty query |
| SearchPage.InvalidBoundMatchesNothing | src/app/search/page.tsx:105-107 | an unparsable date bound makes every comparison false, so nothing matches |
| SearchPage.RelevanceWithoutQuery | src/app/search/page.tsx:114-119 | with an empty query every title matches, so relevance order is newest first |
| SearchPage.Get | src/app/search/page.tsx:30-35 | a parameter lookup finds nothing exactly when no pair has the key, and otherwise a value stored under it |
| SearchPage.ReadFilters | src/app/search/page.tsx:29-36 | the filters read from the URL have a non-empty sort order ('relevance' by default), and the query is empty exactly when `q` is absent or empty |
| SearchPage.NonEmptyEntries | src/app/search/page.tsx:149-151 | only the entries with a non-empty value become parameters |
| SearchPage.BuildParams | src/app/search/page.tsx:148-151 | the parameters written are the non-empty filter fields, the query under the key `query` |
| SearchPage.QueryLostInUrl | src/app/search/page.tsx:148-151 | reading back the parameters written by the builder as written always gives an empty query, since the query is written as `query` and read as `q` (line 30); with a sort order set every other field survives |
| SearchPage.BuildParamsFixed | src/app/search/page.tsx:148-151 | the corrected builder writes the query under `q` |
| SearchPage.UrlRoundTrip | src/app/search/page.tsx:148-151 | with the corrected builder, reading back the written parameters gives the filters again |
| SearchPage.UrlReadStable | src/app/search/page.tsx:29-36 | filters read from any URL are written and read back unchanged |
| SearchPage.Apply | src/app/search/page.tsx:138-145 | each field of the patch replaces the filter field and the others are kept; the history saves a non-empty patched query and is otherwise unchanged |
| SearchPage.HandleSearch | src/app/search/page.tsx:138-153 | the state is the patched filters and history; the URL holds the non-empty fields, the query under `query` as written, and reads back as the new filters with an empty query |
| SearchPage.HandleSearchFixed | src/app/search/page.tsx:138-153 | the same state with the query written under `q`: the URL reads back as the new filters |
| SearchPage.ClearAllResets | src/app/search/page.tsx:373 | the clear-all control empties every filter, restores 'relevance', keeps the history, and leaves only `sortBy=relevance` in the URL |
| LocalCache.CacheKey | src/lib/performance.ts:137 | an entry is stored under `cache_` followed by the key, which can be read back from the stored name |
| LocalCache.CacheKeyInjective | src/lib/performance.ts:137 | distinct keys are stored under distinct names |
| LocalCache.Set | src/lib/performance.ts:131-138 | the entry under the key's name becomes the data with the current time and the ttl; every other entry is kept as it was |
| LocalCache.SetDefault | src/lib/performance.ts:131 | without a ttl the entry lives one hour (3,600,000 ms) |
| LocalCache.Get | src/lib/performance.ts:141-151 | a missing key reads null and changes nothing; a live entry reads its data; an expired one reads null and is removed, and nothing else is ever removed |
| LocalCache.SetThenGet | src/lib/performance.ts:131-151 | what was set reads back while its age is at most the ttl; afterwards the read misses and removes the entry |
| LocalCache.BoundaryAgainstDataCache | src/lib/performance.ts:146 | at an age of exactly the ttl this cache still answers, while the site's data cache treats the same entry as stale |
| LocalCache.SetOtherKey | src/lib/performance.ts:137 | setting one key does not change what any other key reads |
| LocalCache.GetSettles | src/lib/performance.ts:141-151 | a second read at the same time gives the same answer and leaves the storage as the first read left it |
| LocalCache.Clear | src/lib/performance.ts:154-164 | with a non-empty key only that key's entry is removed; otherwise exactly the `cache_` entries are removed; no surviving entry changes |
| LocalCache.ClearAllMisses | src/lib/performance.ts:157-162 | after clearing everything every key reads null |
| LocalCache.EmptyKeyClearsAll | src/lib/performance.ts:155 | an empty key is falsy, so it clears every cache entry |
| LocalCache.ParseInt | src/lib/performance.ts:91 | a blank text parses to NaN |
| LocalCache.ParseDecimal | src/lib/performance.ts:91 | parsing a timestamp written in decimal gives the timestamp back |
| LocalCache.CleanupMemory | src/lib/performance.ts:84-97 | exactly the stale history entries are removed, no kept entry changes, and every key outside `search_history_` survives |
| LocalCache.CleanupIdempotent | src/lib/performance.ts:84-97 | a second cleanup at the same time removes nothing more |
| LocalCache.CleanupKeepsCache | src/lib/performance.ts:90 | cache entries survive every cleanup |
| LocalCache.HistoryStampOf | src/lib/performance.ts:91 | the timestamp of a history key is the parsed text between `search_history_` and the next underscore |
| LocalCache.HistoryKeyAge | src/lib/performance.ts:87-93 | the key for a decimal timestamp is removed exactly when it is more than seven days old |
| LocalCache.UnparsableStampKept | src/lib/performance.ts:91-92 | a history key with no timestamp after the prefix parses to NaN and is kept however old |
| Errors.NewAppError | src/lib/error-handler.ts:9-18 | the message is kept; an omitted status is 500 and an omitted operational flag is true |
| Errors.DataFetchError | src/lib/error-handler.ts:25-29 | status 500, operational, with the default message when none is given |
| Errors.PostNotFoundError | src/lib/error-handler.ts:32-36 | status 404, operational, the message ending in the post id |
| Errors.SearchError | src/lib/error-handler.ts:39-43 | status 500, operational, with the default message when none is given |
| Errors.NotFoundNamesThePost | src/lib/error-handler.ts:34 | two not-found messages are equal exactly when the ids are |
| Errors.HandleError | src/lib/error-handler.ts:46-64 | a site error passes through unchanged; anything else becomes a non-operational 500 carrying the error's message, '未知错误' for an empty one, or '系统发生未知错误' for a thrown non-error |
| Errors.HandleErrorIdempotent | src/lib/error-handler.ts:49-50 | handling the result of handling changes nothing |
| Errors.OperationalOnlyForAppErrors | src/lib/error-handler.ts:51-64 | a result is operational only for a site error, and a plain error keeps its message exactly when the message is not empty |
| Errors.WithErrorHandling | src/lib/error-handler.ts:79-91 | a result is passed through; a throw yields null |
| Errors.WithSyncErrorHandling | src/lib/error-handler.ts:94-107 | a result is passed through; a throw yields the fallback |
| Errors.WrappersAgree | src/lib/error-handler.ts:79-107 | the async wrapper yields null exactly where the sync one yields its fallback |
| Errors.FirstSuccess | src/lib/error-handler.ts:187-190 | the reference for the retry loop: the earliest call that returns, every earlier one having thrown, or none when all throw |
| Errors.Retry | src/lib/error-handler.ts:182-201 | no call for a non-positive count; otherwise the value of the first call that returns within the count, after exactly that many calls, or null after the count of failures; the wait after failure i is delay times (i + 1), with none after the last call |
| Errors.FallbackToCache | src/lib/error-handler.ts:206-214 | the parsed cached item when there is a non-empty one that parses; the fallback when storage is unavailable, the item is missing or empty, or parsing throws |
| Themes.MergeThemeConfig | src/utils/themeLoader.ts:126-135 | each scalar field comes from the overrides when given and from the base otherwise; each map field is the base map with the override's keys replacing or adding entries |
| Themes.FlatKeysMerge | src/utils/themeLoader.ts:130-133 | a colour, spacing or radius key keeps the base value unless the overrides name it |
| Themes.NestedGroupReplaced | src/utils/themeLoader.ts:131 | overriding a typography group drops every base entry of that group the override does not repeat |
| Themes.MergeNothing | src/utils/themeLoader.ts:126-135 | merging empty overrides gives the base back |
| Themes.MergeTwice | src/utils/themeLoader.ts:126-135 | merging two overrides in turn is merging their combination once, the later one winning |
| Themes.MergeIdempotent | src/utils/themeLoader.ts:126-135 | applying the same overrides a second time changes nothing |
| Themes.ValidateThemeConfig | src/utils/themeLoader.ts:116-123 | a non-object throws; an object is valid exactly when it has all nine required property names |
| Themes.ValidationFacts | src/utils/themeLoader.ts:116-123 | every config and every merge result is valid, and an object lacking a required name is not |
| Themes.LoadTheme | src/utils/themeLoader.ts:4-20 | at most two imports are attempted, and a theme that imports is used as its module exports it |
| Themes.LoadFallback | src/utils/themeLoader.ts:4-20 | a failed import other than 'default' falls back to 'default' in a second attempt; when that fails too, or 'default' itself fails, the basic theme is used; no theme comes out only when a module that imported exports none |
| Themes.AvailableThemes | src/utils/themeLoader.ts:23-27 | four distinct names, 'default' first |
| Themes.BasicIsNotOffered | src/utils/themeLoader.ts:30-34 | an example about the constants: the last-resort theme is not among the names offered |
| Seo.ArticleDescription | src/lib/seo.ts:95 | never empty; the summary exactly when the summary is non-empty, else the '阅读关于' sentence naming the title |
| Seo.ModifiedTime | src/lib/seo.ts:91 | the last edit time when there is one, else the publication day |
| Seo.PostUrlInjective | src/lib/seo.ts:89 | distinct post ids give distinct post addresses |
| Seo.ArticleMetadata | src/lib/seo.ts:88-136 | one title and one description for the page, OpenGraph and Twitter; the canonical address is the post's; the keywords are the site keywords followed by the tags; published and modified times; one image, the cover or '/og-image.png'; no robots override |
| Seo.SearchMetadata | src/lib/seo.ts:215-256 | the title and description name a non-empty query and are generic otherwise; the page is not indexed but followed |
| Seo.SearchTitleNamesQuery | src/lib/seo.ts:217 | the query can be read back from the title, and the generic title reads as no query |
| Seo.JoinedOccur | src/lib/seo.ts:285 | every joined element appears in the joined text |
| Seo.ArticleJson | src/lib/seo.ts:259-290 | the headline, description, date and address are the post's; the image is the cover or the site's default image; the word count is the content length; every tag appears among the keywords |
| Seo.JsonLdAgreesWithMetadata | src/lib/seo.ts:88-290 | the structured data and the page metadata give the same modified time, address and image |
| Seo.Breadcrumbs | src/lib/seo.ts:318-329 | one list item per crumb, in order, numbered from 1 |
| Seo.BreadcrumbsRoundTrip | src/lib/seo.ts:318-329 | the crumbs can be read back from the list in their order, and the last position is the number of crumbs |
| BlogCard.TruncateText | src/components/BlogCard.tsx:20-23 | a text within the limit is unchanged; a longer one keeps its first limit characters followed by '...' |
| BlogCard.TruncateFacts | src/components/BlogCard.tsx:20-23 | the result is at most three characters longer than the limit, starts with the text, and truncating it again at the widened limit changes nothing |
| BlogCard.ShownTags | src/components/BlogCard.tsx:91 | at most two tags, a prefix of the post's tags, all of them when there are at most two |
| BlogCard.MoreTags | src/components/BlogCard.tsx:99-103 | a positive badge exactly when more than two tags exist |
| BlogCard.TagsAccounted | src/components/BlogCard.tsx:89-103 | shown tags plus the badge count are all the tags |
| BlogCard.CardReadingTime | src/components/BlogCard.tsx:134-139 | shown exactly for non-empty content; the least number of minutes that covers the content at 500 characters a minute |
| BlogCard.CardMatchesIngestion | src/components/BlogCard.tsx:136 | the card shows the reading time the ingestion script stores |
| BlogCard.ImageHeight | src/components/BlogCard.tsx:69 | 256 exactly for featured, 160 exactly for compact, 192 exactly otherwise |
| BlogCard.Render | src/components/BlogCard.tsx:10-158 | the link, cover with the variant's height, category, tags and badge, title (truncated only in compact), summary (hidden in compact or when empty, else truncated at the variant's limit) and reading time |
| BlogCard.RenderBounds | src/components/BlogCard.tsx:112-119 | a compact title fits 53 characters, a featured summary 153 and a default one 123; the tags and the badge account for every tag |

## Left out

- The Notion client, the file system, `dotenv`, `process.exit`, the console and the 100 ms pause between pages are I/O. Upstream pages and blocks are input sequences, and the written artifacts are returned values.
- The clock is left out: dates are day numbers, and `Date.now()` and today's date are parameters. ISO time stamps and the localised card date are not modelled.
- Notion.StringOr: a truthy value of another JSON type (a number, an array, `true` or a date start) is collapsed to the fallback. The source stores the raw value, so a numeric title, summary, category, cover, alias, SEO keywords or author column keeps its number there; a numeric summary is also written into the fallback content as its decimal text. Post fields are strings in the model, so these values cannot be represented. The one place where the type changes control flow, `generateSlug` throwing on a non-string title, is modelled by Ingest.SlugThrows. A date-typed title with no alias is slugged from its start string in the source and from '' in the model.
- Ingest.TagsOf: a tags column that is not a multi-select gives []. The source stores whatever truthy value it holds (a string, a number or `true`) as the tags. Only the array case is representable in the model's list of tags.
- Ingest.PublishDay: the date-string grammar of `new Date` is the parameter `dates.parse`, from a string to an optional day number. It is not modelled, and a string it rejects counts as an Invalid Date.
- `toLowerCase` is ASCII lower-casing; Unicode case mapping is not modelled. `localeCompare` and the default `sort()` compare code points, not locale collation.
- Notion number properties are JavaScript doubles; the model takes them as integers. A fractional number reaches only the schema-mismatch paths: `new Date` on a number (where the time value is truncated toward zero) and `generateSlug`, which throws on any number.
- Lengths count characters. JavaScript counts UTF-16 code units, so texts outside the Basic Multilingual Plane differ.
- Seo.ArticleJson: the word count is the number of characters of the content, not the UTF-16 length the source reports, for the reason above.
- LocalCache.Get: text under a `cache_` name that `set` did not write reads as a miss. The source parses it with `JSON.parse`, which throws on text that is not JSON; that parse is not modelled.
- Errors.Retry: the waits are returned as a list of delays; the timers themselves are not modelled.
- Errors.FallbackToCache: `JSON.parse` is a parameter, with `None` where it throws.
- `getAllPosts` and `getPublishedPosts` of src/lib/data.ts return the imported JSON unchanged; the model takes the published list as its input. `getBlogStats` copies the stored statistics with `|| 0` defaults and a current-time fallback and is not modelled.
- `getPostById` and `getPageContent` of src/lib/notion.ts are single Notion calls with a catch; `testNotionConnection` is a probe. They are not modelled.
- NotionPage.GetPublishedPosts: the query's server-side status filter is stated as a predicate over the rows. The descending date sort and the 100-row page the query returns are the service's and are not modelled: the rows are taken in the order given, however many there are.
- The JSON key order of the `generateStats` output is not modelled. Integer-like keys come first in JavaScript.
- Counting.CategoryCounts: the counts are a map, not a plain object. A category named `constructor` or `toString` counts from the inherited function, so the source stores text such as "function Object() { [native code] }1"; a category named `__proto__` is not stored. The model counts these names like any other.
- Counting.TagCounts: the same plain-object difference as Counting.CategoryCounts, for tag names.
- Data.CategoryStats: the same plain-object difference, in the counter of src/lib/data.ts.
- Data.TagStats: the same plain-object difference, for tag names in the counter of src/lib/data.ts.
- Data.GetCacheStatus: the key list `Array.from(cache.keys())` is modelled as a set, so the insertion order of the keys is not stated.
- The in-place `.sort` in `getLatestPosts` mutates the shared imported array; the model sorts a copy.
- `highlightText` on the search page builds an unescaped regular expression from user input and is not modelled.
- `clearHistory` on the search page empties the history and its stored copy; it is a plain reset and is not modelled.
- React rendering, hooks, routing, DOM events and styling classes are not modelled. Only the predicates and the arithmetic the pages compute are kept.
- `performanceMonitor`, the preload, debounce and throttle helpers, `generateBlurDataURL`, the monitoring and logging modules, the webhook and API routes, and the sitemap and robots templates are browser, timer or HTTP code and are not modelled.
- `handleBoundaryError`, `reportErrorToService` and `setupGlobalErrorHandlers` only log and post. Logging, stack traces and error time stamps are not modelled.
- `generateBaseMetadata`, `generateCategoryMetadata`, `generateTagMetadata` and `generateWebsiteJsonLd` are constant templates over the site configuration and are not modelled.
- The theme configuration files, the Tailwind and Next configuration, the feature flags and the application of a theme to CSS variables are data or DOM code and are not modelled.
- Dynamic `import` of a theme module is the parameter `load`. A module that imports but exports neither `default` nor `theme` gives no theme, as in the source, which returns that undefined value.

## Findings

| source | as written | input that shows it | evidently intended | confidence | as-written member | corrected member |
|---|---|---|---|---|---|---|
| src/app/search/page.tsx:148-151 | the search query is written to the URL under the key `query`, but the page reads it from `q` (line 30) | any non-empty query, e.g. 'dafny': the URL reads back with an empty query | write the query under `q`, as the not-found page and the search metadata do | not executed | SearchPage.QueryLostInUrl | SearchPage.UrlRoundTrip |
| src/app/blog/page.tsx:234-237 | the ellipsis is drawn only when the page is three away from the current one AND shown on desktop, inside the branch where it is not shown on desktop, so it is never drawn | current page 5 of 20, page 2: neither a button nor an ellipsis, so the row jumps from 1 to 3 unmarked | draw the ellipsis for the page three away when it is not shown on desktop | not executed | BlogList.EllipsisNeverRendered | BlogList.GapsMarked |

=== FILE: blog_card.dfy ===
/** What a post card (src/components/BlogCard.tsx) shows: the truncated title and
    summary, at most two tags and an overflow badge, the reading time and the cover
    height of each variant. Styling classes and the localised date are left out. */
module BlogCard {
  import opened Wrappers
  import opened Posts
  import Ingest

  datatype Variant = DefaultCard | Featured | Compact

  const Ellipsis := "..."
  const CompactTitleLimit := 50
  const FeaturedSummaryLimit := 150
  const DefaultSummaryLimit := 120
  const ShownTagLimit := 2
  const CharsPerMinute := 500
  const ImageWidth := 400

  /** `truncateText(text, maxLength)` */
  function TruncateText(text: string, maxLength: nat): (r: string)
    ensures |text| <= maxLength ==> r == text
    ensures |text| > maxLength ==> |r| == maxLength + |Ellipsis| && r[..maxLength] == text[..maxLength] && r[maxLength..] == Ellipsis
  {
    if |text| <= maxLength then text else text[..maxLength] + Ellipsis
  }

  /** Truncation never lengthens a text by more than the ellipsis, keeps a prefix of
      it, and truncating the result again at the widened limit changes nothing. */
  lemma TruncateFacts(text: string, maxLength: nat)
    ensures |TruncateText(text, maxLength)| <= maxLength + |Ellipsis|
    ensures |TruncateText(text, maxLength)| <= |text| + |Ellipsis|
    ensures var n := if |text| <= maxLength then |text| else maxLength;
            TruncateText(text, maxLength)[..n] == text[..n]
    ensures TruncateText(TruncateText(text, maxLength), maxLength + |Ellipsis|) == TruncateText(text, maxLength)
  {
  }

  /** The tags rendered, `tags.slice(0, 2)` ... */
  function ShownTags(tags: seq<string>): (r: seq<string>)
    ensures |r| <= ShownTagLimit
    ensures r <= tags
    ensures |tags| <= ShownTagLimit ==> r == tags
  {
    if |tags| <= ShownTagLimit then tags else tags[..ShownTagLimit]
  }

  /** ... and the `+k` badge, rendered only when tags are hidden. */
  function MoreTags(tags: seq<string>): (r: Option<nat>)
    ensures r.Some? <==> |tags| > ShownTagLimit
    ensures r.Some? ==> r.value > 0
  {
    if |tags| > ShownTagLimit then Some(|tags| - ShownTagLimit) else None
  }

  /** The badge accounts for every tag not rendered. */
  lemma TagsAccounted(tags: seq<string>)
    ensures |ShownTags(tags)| + MoreTags(tags).GetOr(0) == |tags|
    ensures ShownTags(tags) + tags[|ShownTags(tags)|..] == tags
  {
  }

  /** `{post.content && Math.ceil(post.content.length / 500) 分钟阅读}` */
  function CardReadingTime(content: string): (r: Option<nat>)
    ensures r.None? <==> content == ""
    ensures r.Some? ==> r.value >= 1 && r.value * CharsPerMinute >= |content| && (r.value - 1) * CharsPerMinute < |content|
  {
    if content == "" then None else Some((|content| + CharsPerMinute - 1) / CharsPerMinute)
  }

  /** The card shows the same reading time the ingestion script stores. */
  lemma CardMatchesIngestion(content: string)
    requires content != ""
    ensures CardReadingTime(content) == Some(Ingest.ReadingTime(content))
  {
  }

  /** `height={variant === 'featured' ? 256 : variant === 'compact' ? 160 : 192}` */
  function ImageHeight(v: Variant): (r: int)
    ensures v.Featured? <==> r == 256
    ensures v.Compact? <==> r == 160
    ensures v.DefaultCard? <==> r == 192
  {
    match v
    case Featured => 256
    case Compact => 160
    case DefaultCard => 192
  }

  /** What one card renders. */
  datatype Card = Card(
    href: string,
    cover: Option<(string, int)>,
    category: Option<string>,
    tags: seq<string>,
    moreTags: Option<nat>,
    title: string,
    summary: Option<string>,
    readingTime: Option<nat>)

  function SummaryLimit(v: Variant): nat {
    if v.Featured? then FeaturedSummaryLimit else DefaultSummaryLimit
  }

  /** `BlogCard({ post, variant })` */
  function Render(p: Post, v: Variant): (r: Card)
    ensures r.href == "/blog/" + p.id
    ensures r.cover.Some? <==> p.coverImage != ""
    ensures r.cover.Some? ==> r.cover.value == (p.coverImage, ImageHeight(v))
    ensures r.category.Some? <==> p.category != ""
    ensures r.tags == ShownTags(p.tags) && r.moreTags == MoreTags(p.tags)
    ensures r.title == if v.Compact? then TruncateText(p.title, CompactTitleLimit) else p.title
    ensures r.summary.None? <==> v.Compact? || p.summary == ""
    ensures r.summary.Some? ==> r.summary.value == TruncateText(p.summary, SummaryLimit(v))
    ensures r.readingTime == CardReadingTime(p.content)
  {
    Card(
      "/blog/" + p.id,
      if p.coverImage != "" then Some((p.coverImage, ImageHeight(v))) else None,
      if p.category != "" then Some(p.category) else None,
      ShownTags(p.tags),
      MoreTags(p.tags),
      if v.Compact? then TruncateText(p.title, CompactTitleLimit) else p.title,
      if p.summary != "" && !v.Compact? then Some(TruncateText(p.summary, SummaryLimit(v))) else None,
      CardReadingTime(p.content))
  }

  /** The bounds each variant keeps: compact titles fit 53 characters, summaries 153
      (featured) or 123 (default); the full title is shown outside the compact card. */
  lemma RenderBounds(p: Post, v: Variant)
    ensures v.Compact? ==> |Render(p, v).title| <= CompactTitleLimit + |Ellipsis|
    ensures !v.Compact? ==> Render(p, v).title == p.title
    ensures Render(p, v).summary.Some? && v.Featured? ==> |Render(p, v).summary.value| <= FeaturedSummaryLimit + |Ellipsis|
    ensures Render(p, v).summary.Some? && v.DefaultCard? ==> |Render(p, v).summary.value| <= DefaultSummaryLimit + |Ellipsis|
    ensures |Render(p, v).tags| + Render(p, v).moreTags.GetOr(0) == |p.tags|
  {
    TruncateFacts(p.title, CompactTitleLimit);
    TruncateFacts(p.summary, SummaryLimit(v));
    TagsAccounted(p.tags);
  }
}

=== FILE: blog_list.dfy ===
/** The blog index page (src/app/blog/page.tsx) without React: the filter conjunction,
    the two sort orders, six-per-page pagination, the page-number window and the page
    state's reactions to the controls. */
module BlogList {
  import opened Seqs
  import opened Text
  import opened Posts
  import opened Ordering

  datatype SortBy = ByDate | ByTitle

  /** The state hooks that decide what is listed ... */
  datatype Filters = Filters(term: string, category: string, tag: string, sortBy: SortBy)

  /** ... and the current page. */
  datatype ListState = ListState(filters: Filters, page: int)

  const PostsPerPage := 6

  /** The initial state, which `clearFilters` restores. */
  const Initial := ListState(Filters("", "", "", ByDate), 1)

  function KeyOf(s: SortBy): SortKey {
    match s
    case ByDate => NewestFirst
    case ByTitle => TitleAscending
  }

  /** `matchesSearch`: the term is empty or the lower-cased title, summary or content
      contains it lower-cased. (An empty summary or content contains no non-empty term,
      so the source's truthiness guards change nothing.) */
  predicate MatchesSearch(p: Post, term: string) {
    term == ""
    || Contains(Lower(p.title), Lower(term))
    || Contains(Lower(p.summary), Lower(term))
    || Contains(Lower(p.content), Lower(term))
  }

  predicate Keep(st: Filters, p: Post) {
    MatchesSearch(p, st.term)
    && (st.category == "" || p.category == st.category)
    && (st.tag == "" || st.tag in p.tags)
  }

  /** The filter callback of `filteredAndSortedPosts`. */
  function KeepOf(st: Filters): Post -> bool {
    p => Keep(st, p)
  }

  /** `filteredAndSortedPosts` */
  function Visible(posts: seq<Post>, st: Filters): (r: seq<Post>)
    ensures forall x :: x in r <==> x in posts && Keep(st, x)
    ensures multiset(r) == multiset(Filter(KeepOf(st), posts))
    ensures Sorted(KeyOf(st.sortBy), r)
    ensures |r| <= |posts|
  {
    var kept := Filter(KeepOf(st), posts);
    var r := Sort(KeyOf(st.sortBy), kept);
    forall x ensures x in r <==> x in kept {
      SortedMembers(KeyOf(st.sortBy), kept, x);
    }
    assert |r| == |multiset(r)| == |kept|;
    r
  }

  /** With no term, category or tag every published post is listed. */
  lemma NoFilterListsAll(posts: seq<Post>, st: Filters)
    requires st.term == "" && st.category == "" && st.tag == ""
    ensures multiset(Visible(posts, st)) == multiset(posts)
  {
    FilterAll(KeepOf(st), posts);
  }

  // ---------------------------------------------------------------- pagination

  /** `Math.ceil(n / postsPerPage)` */
  function TotalPages(n: nat): (r: nat)
    ensures r * PostsPerPage >= n
    ensures n > 0 ==> (r - 1) * PostsPerPage < n
    ensures r == 0 <==> n == 0
  {
    (n + PostsPerPage - 1) / PostsPerPage
  }

  /** `list.slice((page - 1) * postsPerPage, (page - 1) * postsPerPage + postsPerPage)` */
  function PageSlice<T>(list: seq<T>, page: int): (r: seq<T>)
    ensures |r| <= PostsPerPage
    ensures 1 <= page ==>
              var lo := (page - 1) * PostsPerPage;
              var hi := if page * PostsPerPage < |list| then page * PostsPerPage else |list|;
              r == if lo < |list| then list[lo..hi] else []
  {
    var start := (page - 1) * PostsPerPage;
    JsSlice(list, start, start + PostsPerPage)
  }

  /** Pages 1 to k concatenated. */
  function PagesUpTo<T>(list: seq<T>, k: nat): seq<T> {
    if k == 0 then [] else PagesUpTo(list, k - 1) + PageSlice(list, k)
  }

  /** The first k pages are the first 6k posts. */
  lemma {:induction false} PagesUpToPrefix<T>(list: seq<T>, k: nat)
    ensures PagesUpTo(list, k) == list[..if k * PostsPerPage < |list| then k * PostsPerPage else |list|]
  {
    if k > 0 {
      PagesUpToPrefix(list, k - 1);
      var lo := (k - 1) * PostsPerPage;
      if lo < |list| {
        var hi := if k * PostsPerPage < |list| then k * PostsPerPage else |list|;
        assert list[..lo] + list[lo..hi] == list[..hi];
      }
    }
  }

  /** Reading every page in turn reproduces the filtered list: nothing is lost or
      repeated. */
  lemma AllPagesReproduceList<T>(list: seq<T>)
    ensures PagesUpTo(list, TotalPages(|list|)) == list
  {
    PagesUpToPrefix(list, TotalPages(|list|));
  }

  /** Every page before the last is full. */
  lemma InnerPagesFull<T>(list: seq<T>, page: int)
    requires 1 <= page < TotalPages(|list|)
    ensures |PageSlice(list, page)| == PostsPerPage
  {
  }

  // ---------------------------------------------------------------- navigation

  /** `Math.max(prev - 1, 1)` */
  function Prev(page: int): (r: int)
    ensures r >= 1
    ensures page > 1 ==> r == page - 1
  {
    if page - 1 > 1 then page - 1 else 1
  }

  /** `Math.min(prev + 1, totalPages)` */
  function Next(page: int, total: int): (r: int)
    ensures r <= total
    ensures page < total ==> r == page + 1
  {
    if page + 1 < total then page + 1 else total
  }

  /** `totalPages > 1 && ...`: the navigation is rendered only with two pages or more. */
  predicate NavigationShown(total: int) { total > 1 }

  predicate ShowOnMobile(page: int, current: int, total: int) {
    page == 1 || page == total || (current - 1 <= page <= current + 1)
  }

  predicate ShowOnDesktop(page: int, current: int, total: int) {
    page == 1 || page == total || (current - 2 <= page <= current + 2)
  }

  /** What the page-number loop renders for one page number. */
  datatype PageItem = Button(mobile: bool) | Ellipsis | Nothing

  /** The `if / else if` of the page-number loop. */
  function PageItemOf(page: int, current: int, total: int): (r: PageItem)
    ensures r.Button? <==> ShowOnDesktop(page, current, total)
    ensures r.Button? ==> (r.mobile <==> ShowOnMobile(page, current, total))
    ensures !r.Ellipsis?
  {
    var desktop := ShowOnDesktop(page, current, total);
    if desktop then Button(ShowOnMobile(page, current, total))
    else if (page == current - 3 || page == current + 3) && desktop then Ellipsis
    else Nothing
  }

  /** The ellipsis branch repeats `showOnDesktop`, which is false in the `else`, so no
      page number is ever rendered as an ellipsis, not even the ones next to a gap. */
  lemma EllipsisNeverRendered(current: int, total: int)
    requires current - 3 > 1
    ensures !ShowOnDesktop(current - 3, current, total) || current - 3 == total
    ensures PageItemOf(current - 3, current, total) != Ellipsis
  {
  }

  /** The page-number loop with the ellipsis condition as evidently intended: a page
      three away from the current one, outside the desktop window, marks the gap. */
  function PageItemFixed(page: int, current: int, total: int): (r: PageItem)
    ensures r.Button? <==> ShowOnDesktop(page, current, total)
    ensures r.Button? ==> (r.mobile <==> ShowOnMobile(page, current, total))
    ensures r.Ellipsis? <==> !ShowOnDesktop(page, current, total) && (page == current - 3 || page == current + 3)
  {
    var desktop := ShowOnDesktop(page, current, total);
    if desktop then Button(ShowOnMobile(page, current, total))
    else if page == current - 3 || page == current + 3 then Ellipsis
    else Nothing
  }

  /** With the corrected condition every gap between the first page and the window, and
      between the window and the last page, is marked by exactly one ellipsis. */
  lemma GapsMarked(current: int, total: int)
    requires 1 <= current <= total
    ensures current - 3 > 1 ==> PageItemFixed(current - 3, current, total) == Ellipsis
    ensures current + 3 < total ==> PageItemFixed(current + 3, current, total) == Ellipsis
    ensures forall p | 1 < p < current - 3 || current + 3 < p < total :: PageItemFixed(p, current, total) == Nothing
    ensures forall p :: PageItemFixed(p, current, total).Button? == PageItemOf(p, current, total).Button?
  {
  }

  /** The mobile window is inside the desktop one, and the first, last and current
      pages always have a button. */
  lemma WindowFacts(page: int, current: int, total: int)
    ensures ShowOnMobile(page, current, total) ==> ShowOnDesktop(page, current, total)
    ensures PageItemOf(1, current, total).Button? && PageItemOf(total, current, total).Button?
    ensures PageItemOf(current, current, total) == Button(true)
  {
  }

  // ---------------------------------------------------------------- state

  datatype Event =
    | SetTerm(term: string)
    | SetCategory(category: string)
    | SetTag(tag: string)
    | SetSort(sortBy: SortBy)
    | GoTo(target: int)
    | GoPrev
    | GoNext
    | ClearFilters

  /** The state after one control is used. Changing the term, category, tag or sort
      resets the page to 1 (the effect only runs when the value really changes); page
      buttons exist only while the navigation is shown and are ignored when disabled. */
  function Step(posts: seq<Post>, st: ListState, e: Event): (r: ListState)
    ensures e.ClearFilters? ==> r == Initial
    ensures r.filters != st.filters ==> r.page == 1
    ensures (e.GoTo? || e.GoPrev? || e.GoNext?) ==> r.filters == st.filters
    ensures st.page >= 1 ==> r.page >= 1
    ensures r.page > st.page && r.page != 1 ==> r.filters == st.filters && r.page <= TotalPages(|Visible(posts, st.filters)|)
  {
    var f := st.filters;
    var total := TotalPages(|Visible(posts, f)|);
    match e
    case SetTerm(t) => if t == f.term then st else ListState(f.(term := t), 1)
    case SetCategory(c) => if c == f.category then st else ListState(f.(category := c), 1)
    case SetTag(t) => if t == f.tag then st else ListState(f.(tag := t), 1)
    case SetSort(s) => if s == f.sortBy then st else ListState(f.(sortBy := s), 1)
    case GoTo(p) =>
      if NavigationShown(total) && 1 <= p <= total && PageItemFixed(p, st.page, total).Button? then st.(page := p)
      else st
    case GoPrev => if NavigationShown(total) && st.page != 1 then st.(page := Prev(st.page)) else st
    case GoNext => if NavigationShown(total) && st.page != total then st.(page := Next(st.page, total)) else st
    case ClearFilters => Initial
  }

  /** The current page is a page of the list, or 1 when the list is empty. */
  predicate PageInRange(posts: seq<Post>, st: ListState) {
    var total := TotalPages(|Visible(posts, st.filters)|);
    1 <= st.page && (st.page <= total || st.page == 1)
  }

  /** Every control keeps the current page in range. */
  lemma StepKeepsPageInRange(posts: seq<Post>, st: ListState, e: Event)
    requires PageInRange(posts, st)
    ensures PageInRange(posts, Step(posts, st, e))
  {
    var r := Step(posts, st, e);
    assert r.filters == st.filters || r.page == 1;
  }

  /** `clearFilters` hides the clear button again. */
  predicate ClearButtonShown(st: ListState) {
    st.filters.term != "" || st.filters.category != "" || st.filters.tag != "" || st.filters.sortBy != ByDate
  }

  lemma ClearHidesButton(posts: seq<Post>, st: ListState)
    ensures !ClearButtonShown(Step(posts, st, ClearFilters))
    ensures Step(posts, st, ClearFilters).page == 1
  {
  }
}

=== FILE: counting.dfy ===
/** Category and tag counting, shared by the ingestion statistics (over all posts) and the
    query layer's `getCategoryStats`/`getTagStats` (over published posts). A count map is
    checked against the multiset of occurrences it tallies. */
module Counting {
  import opened Seqs
  import opened Posts

  /** The non-empty categories of `posts`, one occurrence per post. */
  function CategoryBag(posts: seq<Post>): multiset<string> {
    if |posts| == 0 then multiset{}
    else
      var last := posts[|posts| - 1];
      CategoryBag(posts[..|posts| - 1]) + (if last.category != "" then multiset{last.category} else multiset{})
  }

  /** Every tag occurrence of `posts`, the empty tag included. */
  function TagBag(posts: seq<Post>): multiset<string> {
    if |posts| == 0 then multiset{}
    else TagBag(posts[..|posts| - 1]) + multiset(posts[|posts| - 1].tags)
  }

  /** `m` maps exactly the members of `bag` to their multiplicities. */
  ghost predicate CountsOf(m: map<string, nat>, bag: multiset<string>) {
    forall k :: (k in m <==> k in bag) && (k in m ==> m[k] == bag[k])
  }

  /** `stats[k] = (stats[k] || 0) + 1` */
  function Bump(m: map<string, nat>, k: string): (r: map<string, nat>)
    ensures forall b: multiset<string> :: CountsOf(m, b) ==> CountsOf(r, b + multiset{k})
  {
    m[k := (if k in m then m[k] else 0) + 1]
  }

  /** Bumps every element of `ks`, left to right. */
  function BumpAll(m: map<string, nat>, ks: seq<string>): (r: map<string, nat>)
    ensures forall b: multiset<string> :: CountsOf(m, b) ==> CountsOf(r, b + multiset(ks))
  {
    if |ks| == 0 then m
    else
      var init := ks[..|ks| - 1];
      assert ks == init + [ks[|ks| - 1]];
      Bump(BumpAll(m, init), ks[|ks| - 1])
  }

  /** The category loop: `if (post.category) stats[post.category]++`. */
  function CategoryCounts(posts: seq<Post>): (r: map<string, nat>)
    ensures CountsOf(r, CategoryBag(posts))
  {
    if |posts| == 0 then map[]
    else
      var init := CategoryCounts(posts[..|posts| - 1]);
      var last := posts[|posts| - 1];
      if last.category != "" then Bump(init, last.category) else init
  }

  /** The tag loop: every tag of every post bumps its count. */
  function TagCounts(posts: seq<Post>): (r: map<string, nat>)
    ensures CountsOf(r, TagBag(posts))
  {
    if |posts| == 0 then map[]
    else BumpAll(TagCounts(posts[..|posts| - 1]), posts[|posts| - 1].tags)
  }

  predicate HasCategory(p: Post) { p.category != "" }

  /** The category counts add up to the number of posts that have a category. */
  lemma {:induction false} CategoryBagSize(posts: seq<Post>)
    ensures |CategoryBag(posts)| == |Filter(HasCategory, posts)|
    decreases |posts|
  {
    if |posts| > 0 {
      var init := posts[..|posts| - 1];
      var last := posts[|posts| - 1];
      CategoryBagSize(init);
      assert posts == init + [last];
      FilterConcat(HasCategory, init, [last]);
      assert |Filter(HasCategory, [last])| == if HasCategory(last) then 1 else 0;
    }
  }

  /** The number of tag occurrences. */
  function TagTotal(posts: seq<Post>): nat {
    if |posts| == 0 then 0 else TagTotal(posts[..|posts| - 1]) + |posts[|posts| - 1].tags|
  }

  /** The tag counts add up to the number of tag occurrences: none is skipped. */
  lemma {:induction false} TagBagSize(posts: seq<Post>)
    ensures |TagBag(posts)| == TagTotal(posts)
    decreases |posts|
  {
    if |posts| > 0 {
      TagBagSize(posts[..|posts| - 1]);
    }
  }

  /** Counting two runs of posts adds their occurrences. */
  lemma {:induction false} BagsConcat(a: seq<Post>, b: seq<Post>)
    ensures CategoryBag(a + b) == CategoryBag(a) + CategoryBag(b)
    ensures TagBag(a + b) == TagBag(a) + TagBag(b)
    decreases |b|
  {
    if |b| == 0 {
      assert a + b == a;
    } else {
      var init := b[..|b| - 1];
      assert (a + b)[..|a + b| - 1] == a + init;
      BagsConcat(a, init);
    }
  }
}

=== FILE: data.dfy ===
/** The query layer of src/lib/data.ts over the two generated post lists, and its
    in-memory TTL memo. The imported JSON arrays are parameters (`all`, `pub`); the
    module-level `Map` is an explicit `Cache` value threaded through the memoised
    queries, and `Date.now()` is the parameter `now`. */
module Data {
  import opened Wrappers
  import opened Seqs
  import opened Text
  import opened Posts
  import opened Ordering
  import opened Counting

  // ---------------------------------------------------------------- lookups

  /** `posts.find(post => post.id === id) || null` */
  function FindById(posts: seq<Post>, id: string): (r: Option<Post>)
    ensures r.None? <==> forall i | 0 <= i < |posts| :: posts[i].id != id
    ensures r.Some? ==> exists i | 0 <= i < |posts| ::
              posts[i] == r.value && r.value.id == id && forall j | 0 <= j < i :: posts[j].id != id
  {
    if |posts| == 0 then None
    else if posts[0].id == id then Some(posts[0])
    else
      var r := FindById(posts[1..], id);
      assert forall i | 1 <= i < |posts| :: posts[i] == posts[1..][i - 1];
      if r.Some? then
        var i :| 0 <= i < |posts[1..]| && posts[1..][i] == r.value && r.value.id == id
                 && forall j | 0 <= j < i :: posts[1..][j].id != id;
        assert forall j | 1 <= j < i + 1 :: posts[j] == posts[1..][j - 1];
        assert posts[i + 1] == r.value;
        r
      else r
  }

  /** `getPostById(id)`: null for an empty id, else the first post with that id. */
  function GetPostById(all: seq<Post>, id: string): (r: Option<Post>)
    ensures id == "" ==> r.None?
    ensures id != "" ==> r == FindById(all, id)
  {
    if id == "" then None else FindById(all, id)
  }

  const DefaultLatest := 5

  /** `getLatestPosts(limit)`: the published posts newest first, cut to `limit`. */
  function GetLatestPosts(pub: seq<Post>, limit: int): (r: seq<Post>)
    ensures limit >= 0 ==> |r| == if limit < |pub| then limit else |pub|
    ensures limit < 0 ==> |r| == if |pub| + limit > 0 then |pub| + limit else 0
    ensures Sorted(NewestFirst, r)
    ensures multiset(r) <= multiset(pub)
    ensures forall x | x in r :: x in pub
  {
    var sorted := Sort(NewestFirst, pub);
    var r := JsSlice(sorted, 0, limit);
    assert |sorted| == |multiset(sorted)| == |pub|;
    var b := SliceIndex(limit, |sorted|);
    assert r == sorted[..b];
    TakeMultiset(sorted, b);
    forall x | x in r ensures x in pub {
      SortedMembers(NewestFirst, pub, x);
    }
    r
  }

  /** A post left out of the latest ones is no newer than any post in them. */
  lemma LatestAreNewest(pub: seq<Post>, limit: nat, y: Post)
    requires y in pub && y !in GetLatestPosts(pub, limit)
    ensures forall x | x in GetLatestPosts(pub, limit) :: x.publishDate >= y.publishDate
  {
    var sorted := Sort(NewestFirst, pub);
    var k := if limit < |sorted| then limit else |sorted|;
    TakeSlice(sorted, limit);
    var r := GetLatestPosts(pub, limit);
    assert r == sorted[..k];
    SortedMembers(NewestFirst, pub, y);
    var m :| 0 <= m < |sorted| && sorted[m] == y;
    assert m >= k;
    forall x | x in r ensures x.publishDate >= y.publishDate {
      var i :| 0 <= i < k && sorted[i] == x;
      assert Before(NewestFirst, sorted[i], sorted[m]);
    }
  }

  /** The filter callback of `getPostsByCategory`. */
  function InCategory(category: string): Post -> bool {
    (p: Post) => p.category == category
  }

  /** The filter callback of `getPostsByTag`. */
  function WithTag(tag: string): Post -> bool {
    (p: Post) => tag in p.tags
  }

  /** `getPostsByCategory(category)`: every copy of a post in the category, none of the
      others. */
  function PostsByCategory(pub: seq<Post>, category: string): (r: seq<Post>)
    ensures category == "" ==> r == []
    ensures category != "" ==> forall x :: x in r <==> x in pub && x.category == category
    ensures category != "" ==>
              forall x :: multiset(r)[x] == if x.category == category then multiset(pub)[x] else 0
    ensures multiset(r) <= multiset(pub)
  {
    if category == "" then []
    else
      FilterCount(InCategory(category), pub);
      Filter(InCategory(category), pub)
  }

  /** `getPostsByTag(tag)`: every copy of a post carrying the tag, none of the others. */
  function PostsByTag(pub: seq<Post>, tag: string): (r: seq<Post>)
    ensures tag == "" ==> r == []
    ensures tag != "" ==> forall x :: x in r <==> x in pub && tag in x.tags
    ensures tag != "" ==> forall x :: multiset(r)[x] == if tag in x.tags then multiset(pub)[x] else 0
    ensures multiset(r) <= multiset(pub)
  {
    if tag == "" then []
    else
      FilterCount(WithTag(tag), pub);
      Filter(WithTag(tag), pub)
  }

  /** Selecting by category keeps the published order: it distributes over a split of
      the list. */
  lemma PostsByCategoryConcat(a: seq<Post>, b: seq<Post>, category: string)
    ensures PostsByCategory(a + b, category) == PostsByCategory(a, category) + PostsByCategory(b, category)
  {
    if category != "" {
      FilterConcat(InCategory(category), a, b);
    }
  }

  /** Selecting by tag keeps the published order: it distributes over a split of the
      list. */
  lemma PostsByTagConcat(a: seq<Post>, b: seq<Post>, tag: string)
    ensures PostsByTag(a + b, tag) == PostsByTag(a, tag) + PostsByTag(b, tag)
  {
    if tag != "" {
      FilterConcat(WithTag(tag), a, b);
    }
  }

  // ---------------------------------------------------------------- facets

  predicate NonEmpty(s: string) { s != "" }

  /** `posts.map(post => post.category)` */
  function Categories(posts: seq<Post>): (r: seq<string>)
    ensures forall c :: c in r <==> exists p | p in posts :: p.category == c
  {
    var r := seq(|posts|, i requires 0 <= i < |posts| => posts[i].category);
    assert forall i | 0 <= i < |posts| :: r[i] == posts[i].category;
    r
  }

  /** `posts.flatMap(post => post.tags || [])` */
  function AllTagOccurrences(posts: seq<Post>): (r: seq<string>)
    ensures forall t :: t in r <==> exists p | p in posts :: t in p.tags
  {
    if |posts| == 0 then []
    else
      var init := posts[..|posts| - 1];
      var rest := AllTagOccurrences(init);
      assert posts == init + [posts[|posts| - 1]];
      rest + posts[|posts| - 1].tags
  }

  /** `getAllCategories()` uncached: the distinct non-empty categories, sorted. */
  function AllCategories(pub: seq<Post>): (r: seq<string>)
    ensures StrictlyAscending(r)
    ensures forall c :: c in r <==> c != "" && exists p | p in pub :: p.category == c
  {
    var r := SortStrings(Dedupe(Filter(NonEmpty, Categories(pub))));
    AscendingNoDup(r);
    r
  }

  /** `getAllTags()` uncached: the distinct non-empty tags, sorted. */
  function AllTags(pub: seq<Post>): (r: seq<string>)
    ensures StrictlyAscending(r)
    ensures forall t :: t in r <==> t != "" && exists p | p in pub :: t in p.tags
  {
    var r := SortStrings(Dedupe(Filter(NonEmpty, AllTagOccurrences(pub))));
    AscendingNoDup(r);
    r
  }

  // ---------------------------------------------------------------- search

  /** `[title, summary || '', category || '', ...tags].join(' ').toLowerCase()`; the
      content is not searched. */
  function Searchable(p: Post): string {
    Lower(Join([p.title, p.summary, p.category] + p.tags, ' '))
  }

  /** `lowercaseQuery.split(' ').filter(term => term.length > 0)` */
  function Terms(lq: string): (r: seq<string>)
    ensures forall t | t in r :: t != "" && ' ' !in t && Contains(lq, t)
  {
    var pieces := Split(lq, ' ');
    forall k | 0 <= k < |pieces| ensures Contains(lq, pieces[k]) {
      SplitPiecesOccur(lq, ' ', k);
    }
    Filter(NonEmpty, pieces)
  }

  /** A query that is one word is that single term; a blank query has none. */
  lemma TermsOfWord(w: string)
    requires ' ' !in w
    ensures w != "" ==> Terms(w) == [w]
    ensures w == "" ==> Terms(w) == []
  {
    SplitNoSep(w, ' ');
    assert Split(w, ' ')[1..] == [];
  }

  /** Cutting the query at a space cuts its terms there: the terms are the non-empty
      space-separated words of the query, each once per occurrence, in query order. */
  lemma TermsAroundSpace(a: string, b: string)
    ensures Terms(a + " " + b) == Terms(a) + Terms(b)
  {
    SplitAround(a, b, ' ');
    FilterConcat(NonEmpty, Split(a, ' '), Split(b, ' '));
  }

  /** A leading space adds no term. */
  lemma TermsLeadingSpace(b: string)
    ensures Terms(" " + b) == Terms(b)
  {
    var s := " " + b;
    assert s[0] == ' ' && s[1..] == b;
    assert Split(s, ' ') == [""] + Split(b, ' ');
    assert ([""] + Split(b, ' '))[1..] == Split(b, ' ');
  }

  /** Two words with a double space between them are two terms: the empty piece
      between the spaces is dropped. */
  lemma TermsOfTwoWords(a: string, b: string)
    requires a != "" && b != "" && ' ' !in a && ' ' !in b
    ensures Terms(a + " " + (" " + b)) == [a, b]
  {
    TermsAroundSpace(a, " " + b);
    TermsLeadingSpace(b);
    TermsOfWord(a);
    TermsOfWord(b);
  }

  /** `searchTerms.every(term => searchableText.includes(term))` */
  predicate MatchesAll(p: Post, terms: seq<string>) {
    forall t | t in terms :: Contains(Searchable(p), t)
  }

  /** The filter callback of the search. */
  function MatchesTerms(terms: seq<string>): Post -> bool {
    p => MatchesAll(p, terms)
  }

  /** The body of the memoised search, for the lower-cased query `lq`: every copy of a
      matching post, reordered. */
  function SearchFetch(pub: seq<Post>, lq: string): (r: seq<Post>)
    ensures forall x :: x in r <==> x in pub && MatchesAll(x, Terms(lq))
    ensures multiset(r) == multiset(Filter(MatchesTerms(Terms(lq)), pub))
    ensures forall x :: multiset(r)[x] == if MatchesAll(x, Terms(lq)) then multiset(pub)[x] else 0
    ensures Sorted(TitleMatchFirst(lq), r)
  {
    var terms := Terms(lq);
    var hits := Filter(MatchesTerms(terms), pub);
    FilterCount(MatchesTerms(terms), pub);
    var r := Sort(TitleMatchFirst(lq), hits);
    forall x ensures x in r <==> x in hits {
      SortedMembers(TitleMatchFirst(lq), hits, x);
    }
    r
  }

  /** `searchPosts(query)` without the memo. */
  function SearchPosts(pub: seq<Post>, query: string): (r: seq<Post>)
    ensures Trim(query) == "" ==> r == []
    ensures Trim(query) != "" ==> forall x :: x in r <==> x in pub && MatchesAll(x, Terms(Lower(query)))
    ensures Trim(query) != "" ==> multiset(r) == multiset(Filter(MatchesTerms(Terms(Lower(query))), pub))
  {
    if Trim(query) == "" then [] else SearchFetch(pub, Lower(query))
  }

  /** Search results put the posts whose lower-cased title contains the whole query
      first; within each group the newer post comes first. */
  lemma SearchOrder(pub: seq<Post>, query: string, i: int, j: int)
    requires Trim(query) != ""
    requires 0 <= i < j < |SearchPosts(pub, query)|
    ensures var r := SearchPosts(pub, query);
      && (TitleMatches(r[j], Lower(query)) ==> TitleMatches(r[i], Lower(query)))
      && (TitleMatches(r[i], Lower(query)) == TitleMatches(r[j], Lower(query)) ==> r[i].publishDate >= r[j].publishDate)
  {
    var r := SearchPosts(pub, query);
    assert Before(TitleMatchFirst(Lower(query)), r[i], r[j]);
  }

  /** The post's content never decides a match. */
  lemma ContentNotSearched(p: Post, content: string, terms: seq<string>)
    ensures MatchesAll(p.(content := content), terms) == MatchesAll(p, terms)
  {
  }

  /** The query only matters lower-cased, which is why the memo keys on it. */
  lemma SearchIgnoresCase(pub: seq<Post>, query: string)
    ensures SearchPosts(pub, Lower(query)) == SearchPosts(pub, query)
  {
    LowerIdempotent(query);
    LowerBlank(query);
    if Trim(Lower(query)) == "" && Trim(query) != "" {
      LowerBlankIff(query);
    }
  }

  /** Lower-casing keeps and creates no whitespace. */
  lemma LowerBlankIff(s: string)
    ensures Blank(Lower(s)) == Blank(s)
  {
    LowerBlank(s);
    forall i | 0 <= i < |s| ensures IsSpace(Lower(s)[i]) == IsSpace(s[i]) {
      LowerKeepsSpace(s[i]);
    }
  }

  // ---------------------------------------------------------------- aggregates

  /** `getCategoryStats()` uncached: published posts only, empty categories skipped. */
  function CategoryStats(pub: seq<Post>): (r: map<string, nat>)
    ensures CountsOf(r, CategoryBag(pub))
  {
    CategoryCounts(pub)
  }

  /** `getTagStats()` uncached: every tag occurrence of a published post. */
  function TagStats(pub: seq<Post>): (r: map<string, nat>)
    ensures CountsOf(r, TagBag(pub))
  {
    TagCounts(pub)
  }

  // ---------------------------------------------------------------- the memo

  /** What the memo stores: the results of the five memoised queries. */
  datatype CacheValue = Names(names: seq<string>) | Hits(posts: seq<Post>) | Counts(counts: map<string, nat>)

  datatype Entry = Entry(data: CacheValue, timestamp: int, ttl: int)

  type Cache = map<string, Entry>

  /** The default time to live, in milliseconds. */
  const DefaultTtl := 300000
  /** Categories, tags and both statistics: ten minutes. */
  const FacetTtl := 600000
  /** Search results: one minute. */
  const SearchTtl := 60000

  const CategoriesKey := "all_categories"
  const TagsKey := "all_tags"
  const CategoryStatsKey := "category_stats"
  const TagStatsKey := "tag_stats"
  const SearchPrefix := "search_"

  /** `cached && (now - cached.timestamp) < cached.ttl` */
  predicate Fresh(e: Entry, now: int) {
    now - e.timestamp < e.ttl
  }

  /** The answer of a memoised call, the cache after it, and whether `fetchFn` ran. */
  datatype Memo = Memo(value: CacheValue, cache: Cache, fetched: bool)

  /** `getCachedData(key, fetchFn, ttl)`, with `fetch` the value `fetchFn()` returns. */
  function GetCachedData(cache: Cache, key: string, fetch: CacheValue, ttl: int, now: int): (r: Memo)
    ensures !r.fetched <==> key in cache && Fresh(cache[key], now)
    ensures !r.fetched ==> r.value == cache[key].data && r.cache == cache
    ensures r.fetched ==> r.value == fetch && key in r.cache && r.cache[key] == Entry(fetch, now, ttl)
    ensures r.cache.Keys == cache.Keys + {key}
    ensures forall k | k in cache && k != key :: r.cache[k] == cache[k]
  {
    if key in cache && Fresh(cache[key], now) then Memo(cache[key].data, cache, false)
    else Memo(fetch, cache[key := Entry(fetch, now, ttl)], true)
  }

  /** An entry stored at `stamp` answers while it is younger than the ttl it was stored
      with, whatever ttl the later call passes; at exactly that age it is refetched. */
  lemma ExpiryBoundary(cache: Cache, key: string, stored: CacheValue, stamp: int, ttl: int,
                       fetch: CacheValue, ttl2: int, now: int)
    ensures var c := cache[key := Entry(stored, stamp, ttl)];
      && (GetCachedData(c, key, fetch, ttl2, now).fetched <==> now - stamp >= ttl)
      && (now - stamp < ttl ==> GetCachedData(c, key, fetch, ttl2, now).value == stored)
  {
  }

  /** `clearCache()` */
  function ClearCache(cache: Cache): (r: Cache)
    ensures |r| == 0
  {
    map[]
  }

  datatype CacheStatus = CacheStatus(size: nat, keys: set<string>)

  /** `getCacheStatus()`; the key list is modelled as a set. */
  function GetCacheStatus(cache: Cache): (r: CacheStatus)
    ensures r.size == |r.keys| && r.keys == cache.Keys
  {
    CacheStatus(|cache.Keys|, cache.Keys)
  }

  /** After a clear every memoised call fetches, and the status is empty. */
  lemma ClearForcesFetch(cache: Cache, key: string, fetch: CacheValue, ttl: int, now: int)
    ensures GetCachedData(ClearCache(cache), key, fetch, ttl, now).fetched
    ensures GetCacheStatus(ClearCache(cache)).size == 0
  {
  }

  predicate SearchKey(key: string) {
    |key| >= |SearchPrefix| && key[..|SearchPrefix|] == SearchPrefix
  }

  /** The five kinds of key never collide. */
  lemma KeysDistinct()
    ensures CategoriesKey != TagsKey && CategoriesKey != CategoryStatsKey && CategoriesKey != TagStatsKey
    ensures TagsKey != CategoryStatsKey && TagsKey != TagStatsKey && CategoryStatsKey != TagStatsKey
    ensures !SearchKey(CategoriesKey) && !SearchKey(TagsKey)
    ensures !SearchKey(CategoryStatsKey) && !SearchKey(TagStatsKey)
  {
    assert CategoriesKey[0] == 'a' && CategoriesKey[4] == 'c';
    assert TagsKey[0] == 'a' && TagsKey[4] == 't';
    assert CategoryStatsKey[0] == 'c' && TagStatsKey[0] == 't';
    assert SearchPrefix[0] == 's';
  }

  /** The value every key the queries use stands for, given the published posts. */
  function Expected(pub: seq<Post>, key: string): Option<CacheValue> {
    if key == CategoriesKey then Some(Names(AllCategories(pub)))
    else if key == TagsKey then Some(Names(AllTags(pub)))
    else if key == CategoryStatsKey then Some(Counts(CategoryStats(pub)))
    else if key == TagStatsKey then Some(Counts(TagStats(pub)))
    else if SearchKey(key) then
      Some(Hits(SearchFetch(pub, key[|SearchPrefix|..])))
    else None
  }

  /** Every cached entry holds what its key stands for. */
  predicate Coherent(pub: seq<Post>, cache: Cache) {
    forall k | k in cache :: Expected(pub, k) == Some(cache[k].data)
  }

  /** Memoising a key with the value it stands for keeps the cache coherent, and a
      coherent cache answers with that value whether it hits or not. */
  lemma MemoTransparent(pub: seq<Post>, cache: Cache, key: string, v: CacheValue, ttl: int, now: int)
    requires Expected(pub, key) == Some(v)
    ensures var r := GetCachedData(cache, key, v, ttl, now);
      Coherent(pub, cache) ==> Coherent(pub, r.cache) && r.value == v
  {
  }

  lemma EmptyCacheCoherent(pub: seq<Post>, cache: Cache)
    ensures Coherent(pub, ClearCache(cache))
  {
  }

  /** `getAllCategories()` */
  function AllCategoriesMemo(pub: seq<Post>, cache: Cache, now: int): (r: Memo)
    ensures Coherent(pub, cache) ==> Coherent(pub, r.cache) && r.value == Names(AllCategories(pub))
  {
    KeysDistinct();
    MemoTransparent(pub, cache, CategoriesKey, Names(AllCategories(pub)), FacetTtl, now);
    GetCachedData(cache, CategoriesKey, Names(AllCategories(pub)), FacetTtl, now)
  }

  /** `getAllTags()` */
  function AllTagsMemo(pub: seq<Post>, cache: Cache, now: int): (r: Memo)
    ensures Coherent(pub, cache) ==> Coherent(pub, r.cache) && r.value == Names(AllTags(pub))
  {
    KeysDistinct();
    MemoTransparent(pub, cache, TagsKey, Names(AllTags(pub)), FacetTtl, now);
    GetCachedData(cache, TagsKey, Names(AllTags(pub)), FacetTtl, now)
  }

  /** `getCategoryStats()` */
  function CategoryStatsMemo(pub: seq<Post>, cache: Cache, now: int): (r: Memo)
    ensures Coherent(pub, cache) ==> Coherent(pub, r.cache) && r.value == Counts(CategoryStats(pub))
  {
    KeysDistinct();
    MemoTransparent(pub, cache, CategoryStatsKey, Counts(CategoryStats(pub)), FacetTtl, now);
    GetCachedData(cache, CategoryStatsKey, Counts(CategoryStats(pub)), FacetTtl, now)
  }

  /** `getTagStats()` */
  function TagStatsMemo(pub: seq<Post>, cache: Cache, now: int): (r: Memo)
    ensures Coherent(pub, cache) ==> Coherent(pub, r.cache) && r.value == Counts(TagStats(pub))
  {
    KeysDistinct();
    MemoTransparent(pub, cache, TagStatsKey, Counts(TagStats(pub)), FacetTtl, now);
    GetCachedData(cache, TagStatsKey, Counts(TagStats(pub)), FacetTtl, now)
  }

  /** `searchPosts(query)`: a blank query answers [] without touching the memo; any
      other is memoised under 'search_' + the lower-cased query. */
  function SearchPostsMemo(pub: seq<Post>, query: string, cache: Cache, now: int): (r: Memo)
    ensures Trim(query) == "" ==> r == Memo(Hits([]), cache, false)
    ensures Coherent(pub, cache) ==> Coherent(pub, r.cache) && r.value == Hits(SearchPosts(pub, query))
  {
    if Trim(query) == "" then Memo(Hits([]), cache, false)
    else
      var key := SearchPrefix + Lower(query);
      assert key[..|SearchPrefix|] == SearchPrefix && key[|SearchPrefix|..] == Lower(query);
      KeysDistinct();
      assert SearchKey(key) && key != CategoriesKey && key != TagsKey && key != CategoryStatsKey && key != TagStatsKey;
      assert Expected(pub, key) == Some(Hits(SearchFetch(pub, Lower(query))));
      MemoTransparent(pub, cache, key, Hits(SearchFetch(pub, Lower(query))), SearchTtl, now);
      GetCachedData(cache, key, Hits(SearchFetch(pub, Lower(query))), SearchTtl, now)
  }
}

=== FILE: errors.dfy ===
/** The error taxonomy and recovery helpers of src/lib/error-handler.ts: the `AppError`
    classes, `handleError`'s normalisation of anything thrown, the two wrappers, the
    retry loop and the cache fallback. Logging, stack traces and timestamps are left
    out; a call that may throw is modelled by its outcome. */
module Errors {
  import opened Wrappers

  /** The class an error was constructed by; `instanceof AppError` holds for all four. */
  datatype ErrorClass = AppErrorClass | DataFetchClass | PostNotFoundClass | SearchClass

  datatype AppError = AppError(
    kind: ErrorClass,
    message: string,
    statusCode: int,
    isOperational: bool)

  const DefaultStatus := 500
  const NotFoundStatus := 404
  const DataFetchMessage := "数据获取失败"
  const SearchMessage := "搜索功能异常"
  const NotFoundPrefix := "文章未找到: "
  const UnknownMessage := "未知错误"
  const SystemMessage := "系统发生未知错误"

  /** `new AppError(message, statusCode?, isOperational?)`: an omitted argument takes
      its default, 500 and operational. */
  function NewAppError(message: string, statusCode: Option<int>, isOperational: Option<bool>): (r: AppError)
    ensures r.kind == AppErrorClass && r.message == message
    ensures statusCode.None? ==> r.statusCode == DefaultStatus
    ensures statusCode.Some? ==> r.statusCode == statusCode.value
    ensures r.isOperational <==> isOperational != Some(false)
  {
    AppError(AppErrorClass, message, statusCode.GetOr(DefaultStatus), isOperational.GetOr(true))
  }

  /** `new DataFetchError(message?)` */
  function DataFetchError(message: Option<string>): (r: AppError)
    ensures r.statusCode == DefaultStatus && r.isOperational
    ensures r.message == message.GetOr(DataFetchMessage)
  {
    AppError(DataFetchClass, message.GetOr(DataFetchMessage), DefaultStatus, true)
  }

  /** `new PostNotFoundError(id)` */
  function PostNotFoundError(id: string): (r: AppError)
    ensures r.statusCode == NotFoundStatus && r.isOperational
    ensures |r.message| == |NotFoundPrefix| + |id| && r.message[|NotFoundPrefix|..] == id
  {
    AppError(PostNotFoundClass, NotFoundPrefix + id, NotFoundStatus, true)
  }

  /** `new SearchError(message?)` */
  function SearchError(message: Option<string>): (r: AppError)
    ensures r.statusCode == DefaultStatus && r.isOperational
    ensures r.message == message.GetOr(SearchMessage)
  {
    AppError(SearchClass, message.GetOr(SearchMessage), DefaultStatus, true)
  }

  /** Distinct ids give distinct not-found messages. */
  lemma NotFoundNamesThePost(a: string, b: string)
    ensures PostNotFoundError(a).message == PostNotFoundError(b).message <==> a == b
  {
    var ma, mb := PostNotFoundError(a).message, PostNotFoundError(b).message;
    if ma == mb {
      assert a == ma[|NotFoundPrefix|..] == mb[|NotFoundPrefix|..] == b;
    }
  }

  // ---------------------------------------------------------------- handleError

  /** What can reach a `catch`: an `AppError`, another `Error` (with its message), or
      any other value. */
  datatype Thrown = ThrownApp(error: AppError) | ThrownError(message: string) | ThrownValue

  /** `handleError(error, context)` */
  function HandleError(t: Thrown): (r: AppError)
    ensures t.ThrownApp? ==> r == t.error
    ensures !t.ThrownApp? ==> r.kind == AppErrorClass && r.statusCode == DefaultStatus && !r.isOperational
    ensures t.ThrownError? && t.message != "" ==> r.message == t.message
    ensures t.ThrownError? && t.message == "" ==> r.message == UnknownMessage
    ensures t.ThrownValue? ==> r.message == SystemMessage
  {
    match t
    case ThrownApp(e) => e
    case ThrownError(m) => NewAppError(if m != "" then m else UnknownMessage, Some(DefaultStatus), Some(false))
    case ThrownValue => NewAppError(SystemMessage, Some(DefaultStatus), Some(false))
  }

  /** Handling an already handled error changes nothing. */
  lemma HandleErrorIdempotent(t: Thrown)
    ensures HandleError(ThrownApp(HandleError(t))) == HandleError(t)
  {
  }

  /** Only the site's own errors come out operational, and a plain error's message
      survives exactly when it is not empty. */
  lemma OperationalOnlyForAppErrors(t: Thrown)
    ensures HandleError(t).isOperational ==> t.ThrownApp?
    ensures t.ThrownError? ==> (HandleError(t).message == t.message <==> t.message != "")
  {
    assert UnknownMessage != "";
  }

  // ---------------------------------------------------------------- wrappers

  /** The outcome of one call of a function that may throw. */
  datatype Outcome<T> = Returned(value: T) | Threw(thrown: Thrown)

  /** `withErrorHandling(fn)(...)`: the result, or null after a throw. */
  function WithErrorHandling<T>(o: Outcome<T>): (r: Option<T>)
    ensures o.Returned? ==> r == Some(o.value)
    ensures o.Threw? ==> r == None
  {
    match o
    case Returned(v) => Some(v)
    case Threw(_) => None
  }

  /** `withSyncErrorHandling(fn, context, fallback)(...)`: the result, or the fallback
      after a throw. */
  function WithSyncErrorHandling<T>(o: Outcome<T>, fallback: T): (r: T)
    ensures o.Returned? ==> r == o.value
    ensures o.Threw? ==> r == fallback
  {
    match o
    case Returned(v) => v
    case Threw(_) => fallback
  }

  /** The two wrappers agree: the async one yields null exactly where the sync one
      yields its fallback. */
  lemma WrappersAgree<T>(o: Outcome<T>, fallback: T)
    ensures WithErrorHandling(o).GetOr(fallback) == WithSyncErrorHandling(o, fallback)
  {
  }

  // ---------------------------------------------------------------- retry

  const DefaultMaxRetries := 3
  const DefaultDelay := 1000

  /** The first success among the first `n` calls, as a reference for the loop. */
  function FirstSuccess<T>(call: nat -> Outcome<T>, n: nat): (r: Option<nat>)
    ensures r.Some? ==> r.value < n && call(r.value).Returned? && forall j | 0 <= j < r.value :: call(j).Threw?
    ensures r.None? ==> forall j | 0 <= j < n :: call(j).Threw?
  {
    if n == 0 then None
    else
      var earlier := FirstSuccess(call, n - 1);
      if earlier.Some? then earlier
      else if call(n - 1).Returned? then Some(n - 1)
      else None
  }

  /** The reference picks the call that succeeds after only failures. */
  lemma {:induction false} FirstSuccessIs<T>(call: nat -> Outcome<T>, n: nat, k: nat)
    requires k < n && call(k).Returned? && forall j | 0 <= j < k :: call(j).Threw?
    ensures FirstSuccess(call, n) == Some(k)
    decreases n
  {
    if n - 1 > k {
      FirstSuccessIs(call, n - 1, k);
    } else {
      assert FirstSuccess(call, n - 1).None?;
    }
  }

  /** With every call failing there is no first success. */
  lemma {:induction false} NoSuccess<T>(call: nat -> Outcome<T>, n: nat)
    requires forall j | 0 <= j < n :: call(j).Threw?
    ensures FirstSuccess(call, n).None?
    decreases n
  {
    if n > 0 {
      NoSuccess(call, n - 1);
    }
  }

  function Attempts(maxRetries: int): nat {
    if maxRetries > 0 then maxRetries else 0
  }

  /** `errorRecoveryStrategies.dataFetch.retry(fn, maxRetries, delay)`. The `i`-th call
      of `fn` yields `call(i)`; the method returns the value of the first call that
      does not throw (null when all fail), how many calls were made, and the waits
      made between them: `delay * (i + 1)` after failure `i`, none after the last. */
  method Retry<T>(call: nat -> Outcome<T>, maxRetries: int, delay: int) returns (r: Option<T>, calls: nat, waits: seq<int>)
    ensures maxRetries <= 0 ==> r.None? && calls == 0 && waits == []
    ensures r.None? <==> FirstSuccess(call, Attempts(maxRetries)).None?
    ensures r.Some? ==> FirstSuccess(call, Attempts(maxRetries)) == Some(calls - 1) && call(calls - 1) == Returned(r.value)
    ensures r.None? ==> calls == Attempts(maxRetries)
    ensures |waits| == (if calls > 0 then calls - 1 else 0)
    ensures forall j | 0 <= j < |waits| :: waits[j] == delay * (j + 1)
  {
    r, calls, waits := None, 0, [];
    var i := 0;
    while i < maxRetries
      invariant 0 <= i && (maxRetries > 0 ==> i < maxRetries) && (maxRetries <= 0 ==> i == 0)
      invariant calls == i
      invariant forall j | 0 <= j < i :: call(j).Threw?
      invariant |waits| == i
      invariant forall j | 0 <= j < |waits| :: waits[j] == delay * (j + 1)
    {
      calls := calls + 1;
      if call(i).Returned? {
        r := Some(call(i).value);
        FirstSuccessIs(call, Attempts(maxRetries), i);
        return;
      }
      if i == maxRetries - 1 {
        NoSuccess(call, Attempts(maxRetries));
        return;
      }
      waits := waits + [delay * (i + 1)];
      i := i + 1;
    }
  }

  // ---------------------------------------------------------------- cache fallback

  /** `localStorage.getItem(key)`: a value or null, or a throw when storage is
      unavailable. */
  datatype StorageRead = Unavailable | Got(item: Option<string>)

  /** `errorRecoveryStrategies.cache.fallbackToCache(key, fallback)`. `parse` is
      `JSON.parse`, `None` where it throws. An empty string is falsy and yields the
      fallback like a missing item. */
  function FallbackToCache<T>(read: StorageRead, parse: string -> Option<T>, fallback: T): (r: T)
    ensures read.Unavailable? || !Present(read.item) ==> r == fallback
    ensures read.Got? && Present(read.item) && parse(read.item.value).Some? ==> r == parse(read.item.value).value
    ensures read.Got? && Present(read.item) && parse(read.item.value).None? ==> r == fallback
  {
    match read
    case Unavailable => fallback
    case Got(item) =>
      if Present(item) then parse(item.value).GetOr(fallback) else fallback
  }
}

=== FILE: ingest.dfy ===
/** The ingestion script (scripts/fetch-notion-data.js) as pure functions: property
    extraction, reading time, post assembly, the per-page loop of `fetchPosts`, the
    statistics and the four artifacts `main` writes. The Notion client is replaced by
    the pages and block lists it would return; the clock and the
    `Date` parser by a `Dates` value. */
module Ingest {
  import opened Wrappers
  import opened Seqs
  import opened Notion
  import opened Markdown
  import opened Slug
  import opened Posts
  import opened Counting
  import opened Text

  // ---------------------------------------------------------------- properties

  /** The first attachment's `file.url`, else its `external.url`, else ''. */
  function FirstFileUrl(files: Option<seq<FileRef>>): (r: string)
    ensures files.None? || |files.value| == 0 ==> r == ""
    ensures files.Some? && |files.value| > 0 ==> r == MediaUrl(files.value[0]).GetOr("")
  {
    if files.None? || |files.value| == 0 then "" else MediaUrl(files.value[0]).GetOr("")
  }

  /** `getPropertyValue(property)` of the ingestion script. */
  function GetPropertyValue(p: Option<Property>): (r: Value)
    ensures p.None? ==> r == Null
    ensures p.Some? && (p.value.PeopleProp? || p.value.OtherProp?) ==> r == Null
    ensures p.Some? && p.value.TitleProp? ==> r == Text(PlainText(p.value.title))
    ensures p.Some? && p.value.RichTextProp? ==> r == Text(PlainText(p.value.richText))
    ensures p.Some? && p.value.SelectProp? ==>
              (r == Null <==> !Present(p.value.selectName))
              && (r != Null ==> r == Text(p.value.selectName.value))
    ensures p.Some? && p.value.MultiSelectProp? ==> r == Texts(p.value.options.GetOr([]))
    ensures p.Some? && p.value.DateProp? ==>
              (r == Null <==> p.value.start.None? || p.value.start.value == Invalid(""))
              && (r != Null ==> r == DateValue(p.value.start.value))
    ensures p.Some? && p.value.FilesProp? ==> r == Text(FirstFileUrl(p.value.files))
  {
    if p.None? then Null
    else match p.value
      case TitleProp(t) => Text(PlainText(t))
      case RichTextProp(t) => Text(PlainText(t))
      case SelectProp(name) => if Present(name) then Text(name.value) else Null
      case MultiSelectProp(options) => Texts(options.GetOr([]))
      case DateProp(start) => if start.Some? && start.value != Invalid("") then DateValue(start.value) else Null
      case CheckboxProp(c) => Flag(c)
      case NumberProp(n) => if n.Some? then Number(n.value) else Null
      case UrlProp(u) => if u.Some? then Text(u.value) else Null
      case EmailProp(e) => if e.Some? then Text(e.value) else Null
      case PhoneProp(ph) => if ph.Some? then Text(ph.value) else Null
      case FilesProp(files) => Text(FirstFileUrl(files))
      case PeopleProp(_) => Null
      case OtherProp(_) => Null
  }

  /** Multi-select names come out in upstream order: ["go", "rust"] stays ["go", "rust"]. */
  lemma MultiSelectKeepsOrder()
    ensures GetPropertyValue(Some(MultiSelectProp(Some(["go", "rust"])))) == Texts(["go", "rust"])
  {
  }

  /** A files property never yields null, even without attachments. */
  lemma FilesNeverNull(files: Option<seq<FileRef>>)
    ensures GetPropertyValue(Some(FilesProp(files))).Text?
    ensures files.Some? && |files.value| > 0 && Present(files.value[0].file) ==>
              GetPropertyValue(Some(FilesProp(files))) == Text(files.value[0].file.value)
  {
  }

  // ---------------------------------------------------------------- derived fields

  const CharsPerMinute := 500

  /** `estimateReadingTime(content)`: `Math.ceil(content.length / 500)`. */
  function ReadingTime(content: string): (r: nat)
    ensures r * CharsPerMinute >= |content|
    ensures r > 0 ==> (r - 1) * CharsPerMinute < |content|
    ensures r == 0 <==> content == ""
  {
    (|content| + CharsPerMinute - 1) / CharsPerMinute
  }

  /** What `formatDate` depends on besides its argument: the current UTC day, and how
      `new Date` parses a string (the UTC day, or `None` for an Invalid Date). */
  datatype Dates = Dates(today: int, parse: string -> Option<int>)

  const MsPerDay := 86_400_000
  /** The largest time value a `Date` can hold, in milliseconds either side of the epoch. */
  const MaxTimeValue := 8_640_000_000_000_000

  /** `formatDate(value)`: today for a falsy value, otherwise the UTC day of
      `new Date(value)`, `None` when `toISOString` throws on an Invalid Date. A date
      column's start is already classified; a string is parsed; an array is parsed as
      its comma-joined string; a number is a time value in milliseconds; `true` is the
      time value 1. */
  function PublishDay(v: Value, dates: Dates): (r: Option<int>)
    ensures !Truthy(v) ==> r == Some(dates.today)
    ensures v.DateValue? && v.start.Valid? ==> r == Some(v.start.day)
    ensures v.DateValue? && v.start.Invalid? ==> r.None?
    ensures v.Text? && v.text != "" ==> r == dates.parse(v.text)
    ensures v.Texts? ==> r == dates.parse(Join(v.items, ','))
    ensures v.Number? && v.number != 0 ==> (r.Some? <==> -MaxTimeValue <= v.number <= MaxTimeValue)
    ensures v.Number? && v.number != 0 && r.Some? ==>
              r.value * MsPerDay <= v.number < (r.value + 1) * MsPerDay
    ensures v == Flag(true) ==> r == Some(0)
  {
    if !Truthy(v) then Some(dates.today)
    else match v
      case DateValue(start) => if start.Valid? then Some(start.day) else None
      case Text(s) => dates.parse(s)
      case Texts(items) => dates.parse(Join(items, ','))
      case Number(n) => if -MaxTimeValue <= n <= MaxTimeValue then Some(n / MsPerDay) else None
      case Flag(_) => Some(0)
      case Null => Some(dates.today)
  }

  /** A text-typed date column holding a date string dates the post by that string,
      and an empty date start counts as no date, so the post is dated today. */
  lemma TextAndEmptyDates(dates: Dates, s: string)
    requires s != ""
    ensures PublishDay(GetPropertyValue(Some(RichTextProp(Runs([TextRun(Some(s))])))), dates) == dates.parse(s)
    ensures PublishDay(GetPropertyValue(Some(DateProp(Some(Invalid(""))))), dates) == Some(dates.today)
  {
    assert RunsText([TextRun(Some(s))]) == s + RunsText([]);
    assert PlainText(Runs([TextRun(Some(s))])) == s;
    assert GetPropertyValue(Some(RichTextProp(Runs([TextRun(Some(s))])))) == Text(s);
  }

  // ---------------------------------------------------------------- pages

  /** A database row as `databases.query` returns it, with the blocks of the page. */
  datatype Page = Page(
    id: string,
    properties: map<string, Property>,
    lastEditedTime: string,
    children: Fetch)

  /** The database's column names. */
  const TitleField := "标题"
  const SummaryField := "摘要"
  const TagsField := "标签"
  const CategoryField := "分类"
  const DateField := "发布日期"
  const StatusField := "发布状态"
  const CoverField := "封面图片"
  const SlugField := "URL别名"
  const KeywordsField := "SEO关键词"
  const AuthorField := "作者"

  const PublishedSentinel := "已发布"
  const DefaultTitle := "无标题"
  const DefaultCategory := "未分类"
  const DefaultAuthor := "未知作者"

  /** `getPropertyValue(page.properties[name])` */
  function Field(page: Page, name: string): (r: Value)
    ensures name !in page.properties ==> r == Null
  {
    GetPropertyValue(if name in page.properties then Some(page.properties[name]) else None)
  }

  /** `getPropertyValue(page.properties.标签) || []` */
  function TagsOf(v: Value): (r: seq<string>)
    ensures v.Texts? ==> r == v.items
    ensures !v.Texts? ==> r == []
  {
    if v.Texts? then v.items else []
  }

  /** The ten columns of one row, as extracted values. */
  datatype Row = Row(
    title: Value, summary: Value, tags: Value, category: Value, date: Value,
    status: Value, cover: Value, alias: Value, keywords: Value, author: Value)

  function ReadRow(page: Page): Row {
    Row(Field(page, TitleField), Field(page, SummaryField), Field(page, TagsField),
        Field(page, CategoryField), Field(page, DateField), Field(page, StatusField),
        Field(page, CoverField), Field(page, SlugField), Field(page, KeywordsField),
        Field(page, AuthorField))
  }

  /** `content || (summary ? '# ' + title + '\n\n' + summary : '')` */
  function ContentOf(blocks: string, title: string, summary: string): (r: string)
    ensures blocks != "" ==> r == blocks
    ensures blocks == "" && summary != "" ==> r == "# " + title + "\n\n" + summary
    ensures blocks == "" && summary == "" ==> r == ""
  {
    if blocks != "" then blocks else if summary != "" then "# " + title + "\n\n" + summary else ""
  }

  /** `generateSlug` runs only when the alias is falsy, and calls `toLowerCase` on the
      title value: a truthy number, array or `true` has no such method, so it throws. A
      date value is its start string and does not. */
  predicate SlugThrows(row: Row) {
    !Truthy(row.alias) && Truthy(row.title) && (row.title.Number? || row.title.Texts? || row.title.Flag?)
  }

  /** The post object literal of `fetchPosts`, from the row's values and the page
      content; `None` when `formatDate` or `generateSlug` throws. */
  function Assemble(id: string, lastEdited: string, row: Row, blocks: string, dates: Dates): (r: Option<Post>)
    ensures r.None? <==> PublishDay(row.date, dates).None? || SlugThrows(row)
    ensures r.Some? ==>
      && r.value.id == id
      && r.value.lastEditTime == lastEdited
      && r.value.title == StringOr(row.title, DefaultTitle)
      && r.value.summary == StringOr(row.summary, "")
      && r.value.category == StringOr(row.category, DefaultCategory)
      && r.value.tags == TagsOf(row.tags)
      && Some(r.value.publishDate) == PublishDay(row.date, dates)
      && r.value.content == ContentOf(blocks, r.value.title, r.value.summary)
      && r.value.readingTime == ReadingTime(r.value.content)
      && (r.value.status == Published <==> row.status == Text(PublishedSentinel))
      && r.value.urlSlug == StringOr(row.alias, GenerateSlug(StringOr(row.title, "")))
      && r.value.author == StringOr(row.author, DefaultAuthor)
  {
    var day := PublishDay(row.date, dates);
    if day.None? || SlugThrows(row) then None
    else
      var title := StringOr(row.title, DefaultTitle);
      var summary := StringOr(row.summary, "");
      var content := ContentOf(blocks, title, summary);
      Some(Post(
        id := id,
        title := title,
        content := content,
        summary := summary,
        tags := TagsOf(row.tags),
        category := StringOr(row.category, DefaultCategory),
        publishDate := day.value,
        lastEditTime := lastEdited,
        status := if row.status == Text(PublishedSentinel) then Published else Draft,
        coverImage := StringOr(row.cover, ""),
        readingTime := ReadingTime(content),
        urlSlug := StringOr(row.alias, GenerateSlug(StringOr(row.title, ""))),
        seoKeywords := StringOr(row.keywords, ""),
        author := StringOr(row.author, DefaultAuthor)))
  }

  /** One iteration of the page loop: the post built from one page, or `None` when the
      page's handler throws and the page is skipped. */
  function NormalizePage(page: Page, dates: Dates): Option<Post> {
    Assemble(page.id, page.lastEditedTime, ReadRow(page), PageContent(page.children), dates)
  }

  /** Empty block content with a summary falls back to a heading of the title followed by
      the summary, so a post with a summary always has content and a reading time. */
  lemma SummaryFallback(id: string, lastEdited: string, row: Row, blocks: string, dates: Dates)
    requires Assemble(id, lastEdited, row, blocks, dates).Some?
    ensures var post := Assemble(id, lastEdited, row, blocks, dates).value;
      && (blocks != "" ==> post.content == blocks)
      && (blocks == "" && post.summary != "" ==> post.content == "# " + post.title + "\n\n" + post.summary)
      && (post.summary != "" ==> post.content != "" && post.readingTime > 0)
  {
  }

  /** Without an alias the slug is derived from the title (or '' when there is none), so
      it has the slug shape; an alias is taken verbatim. */
  lemma SlugOfPost(id: string, lastEdited: string, row: Row, blocks: string, dates: Dates)
    requires Assemble(id, lastEdited, row, blocks, dates).Some?
    ensures var post := Assemble(id, lastEdited, row, blocks, dates).value;
      && (row.alias.Text? && row.alias.text != "" ==> post.urlSlug == row.alias.text)
      && (!(row.alias.Text? && row.alias.text != "") ==>
            post.urlSlug == GenerateSlug(StringOr(row.title, "")) && IsSlug(post.urlSlug))
  {
    var post := Assemble(id, lastEdited, row, blocks, dates).value;
    var slug := GenerateSlug(StringOr(row.title, ""));
    assert post.urlSlug == StringOr(row.alias, slug);
    SlugShape(StringOr(row.title, ""));
  }

  /** A people-typed author column is never read: the extractor returns null for it. */
  lemma PeopleAuthorIsUnknown(page: Page, dates: Dates, people: Option<seq<Person>>)
    requires AuthorField in page.properties && page.properties[AuthorField] == PeopleProp(people)
    requires NormalizePage(page, dates).Some?
    ensures NormalizePage(page, dates).value.author == DefaultAuthor
  {
    assert ReadRow(page).author == Null;
  }

  /** A page without a publish date gets today's date rather than being skipped; only a
      throwing `generateSlug` can still skip it. */
  lemma MissingDateIsToday(page: Page, dates: Dates)
    requires DateField !in page.properties
    ensures NormalizePage(page, dates).Some? <==> !SlugThrows(ReadRow(page))
    ensures NormalizePage(page, dates).Some? ==> NormalizePage(page, dates).value.publishDate == dates.today
  {
    assert ReadRow(page).date == Null;
  }

  /** A page whose title column is a non-zero number and that has no alias column is
      skipped: `generateSlug` throws on the number. */
  lemma NumericTitleSkipped(page: Page, dates: Dates, n: int)
    requires TitleField in page.properties && page.properties[TitleField] == NumberProp(Some(n))
    requires n != 0 && SlugField !in page.properties
    ensures NormalizePage(page, dates).None?
  {
    var row := ReadRow(page);
    assert row.title == Field(page, TitleField) == Number(n);
    assert row.alias == Field(page, SlugField) == Null;
    assert SlugThrows(row);
  }

  // ---------------------------------------------------------------- the run

  /** The `for` loop of `fetchPosts`: pages whose handler throws are skipped, the others
      keep the upstream order. */
  function FetchPosts(pages: seq<Page>, dates: Dates): (r: seq<Post>)
    ensures |r| <= |pages|
    ensures forall i | 0 <= i < |r| :: exists j | 0 <= j < |pages| :: NormalizePage(pages[j], dates) == Some(r[i])
  {
    FilterMapFrom(p => NormalizePage(p, dates), pages);
    FilterMap(p => NormalizePage(p, dates), pages)
  }

  /** Processing two runs of pages is processing each: a failing page removes only its own
      post and the survivors stay in order. */
  lemma FetchPostsConcat(a: seq<Page>, b: seq<Page>, dates: Dates)
    ensures FetchPosts(a + b, dates) == FetchPosts(a, dates) + FetchPosts(b, dates)
  {
    FilterMapConcat(p => NormalizePage(p, dates), a, b);
  }

  /** One page yields its post, or nothing when it fails. */
  lemma FetchPostsSingle(page: Page, dates: Dates)
    ensures FetchPosts([page], dates) == (if NormalizePage(page, dates).Some? then [NormalizePage(page, dates).value] else [])
  {
    FilterMapSingle(p => NormalizePage(p, dates), page);
  }

  /** The aggregate statistics object: counts are over all posts, drafts included. */
  datatype Stats = Stats(
    categories: map<string, nat>,
    tags: map<string, nat>,
    totalPosts: nat,
    publishedPosts: nat,
    draftPosts: nat)

  predicate IsDraft(p: Post) { p.status == Draft }

  /** `generateStats(posts)` */
  function GenerateStats(posts: seq<Post>): (r: Stats)
    ensures r.totalPosts == |posts|
    ensures r.publishedPosts == |Filter(IsPublished, posts)|
    ensures r.draftPosts == |Filter(IsDraft, posts)|
    ensures r.publishedPosts + r.draftPosts == r.totalPosts
    ensures CountsOf(r.categories, CategoryBag(posts))
    ensures CountsOf(r.tags, TagBag(posts))
  {
    FilterComplement(IsPublished, IsDraft, posts);
    Stats(CategoryCounts(posts), TagCounts(posts), |posts|,
          |Filter(IsPublished, posts)|, |Filter(IsDraft, posts)|)
  }

  /** The status of each post, in order. */
  function Statuses(posts: seq<Post>): (r: seq<Status>)
    ensures |r| == |posts| && forall i | 0 <= i < |posts| :: r[i] == posts[i].status
  {
    seq(|posts|, i requires 0 <= i < |posts| => posts[i].status)
  }

  /** The published and draft counts are how often each status occurs among the posts. */
  lemma StatsCountStatuses(posts: seq<Post>)
    ensures GenerateStats(posts).publishedPosts == multiset(Statuses(posts))[Published]
    ensures GenerateStats(posts).draftPosts == multiset(Statuses(posts))[Draft]
  {
    StatusCount(IsPublished, posts, Published);
    StatusCount(IsDraft, posts, Draft);
  }

  lemma {:induction false} StatusCount(keep: Post -> bool, posts: seq<Post>, st: Status)
    requires forall p :: keep(p) == (p.status == st)
    ensures |Filter(keep, posts)| == multiset(Statuses(posts))[st]
    decreases |posts|
  {
    if |posts| > 0 {
      var rest := posts[1..];
      StatusCount(keep, rest, st);
      assert Statuses(posts) == [posts[0].status] + Statuses(rest);
    }
  }

  datatype Metadata = Metadata(lastUpdated: int, totalPosts: nat, publishedPosts: nat, draftPosts: int)

  /** The four files `main` writes, as one value. */
  datatype Snapshot = Snapshot(
    posts: seq<Post>,
    publishedPosts: seq<Post>,
    stats: Stats,
    metadata: Metadata)

  /** `main()`: fetch, partition, count; `now` is the run's timestamp. */
  function Run(pages: seq<Page>, dates: Dates, now: int): (r: Snapshot)
    ensures r.publishedPosts == Filter(IsPublished, r.posts)
    ensures r.stats == GenerateStats(r.posts)
    ensures r.stats.publishedPosts == |r.publishedPosts|
    ensures r.metadata.totalPosts == |r.posts| && r.metadata.lastUpdated == now
    ensures r.metadata.publishedPosts == |r.publishedPosts|
    ensures r.metadata.draftPosts == r.metadata.totalPosts - r.metadata.publishedPosts
  {
    var all := FetchPosts(pages, dates);
    var published := Filter(IsPublished, all);
    Snapshot(all, published, GenerateStats(all),
             Metadata(now, |all|, |published|, |all| - |published|))
  }

  /** The four artifacts agree: metadata's draft count (total minus published) equals the
      statistics' draft count (posts whose status is draft), and no count is negative. */
  lemma SnapshotConsistent(pages: seq<Page>, dates: Dates, now: int)
    ensures var s := Run(pages, dates, now);
      && s.metadata.draftPosts == s.stats.draftPosts
      && s.metadata.publishedPosts == s.stats.publishedPosts
      && s.metadata.totalPosts == s.stats.totalPosts
      && s.metadata.draftPosts >= 0
  {
  }

  /** A page with only a title and a status column, and no blocks. */
  function TitledPage(id: string, title: string, status: string): Page {
    Page(id, map[TitleField := TitleProp(Runs([TextRun(Some(title))])), StatusField := SelectProp(Some(status))],
         "", FetchFailed)
  }

  lemma TitledPagePost(id: string, title: string, status: string, dates: Dates)
    requires title != "" && status != ""
    ensures NormalizePage(TitledPage(id, title, status), dates).Some?
    ensures NormalizePage(TitledPage(id, title, status), dates).value.title == title
    ensures NormalizePage(TitledPage(id, title, status), dates).value.status
            == (if status == PublishedSentinel then Published else Draft)
  {
    var page := TitledPage(id, title, status);
    assert TitleField != StatusField;
    assert RunsText([TextRun(Some(title))]) == title + RunsText([]);
    assert Field(page, TitleField) == Text(title);
    assert Field(page, StatusField) == Text(status);
    assert DateField !in page.properties;
    assert ReadRow(page).date == Null;
  }

  /** Two pages that both convert are both kept, in page order. */
  lemma FetchPostsPair(pa: Page, pb: Page, dates: Dates)
    requires NormalizePage(pa, dates).Some? && NormalizePage(pb, dates).Some?
    ensures FetchPosts([pa, pb], dates) == [NormalizePage(pa, dates).value, NormalizePage(pb, dates).value]
  {
    FilterMapPair(p => NormalizePage(p, dates), pa, pb);
  }

  /** Of a published post followed by a draft, only the first is published. */
  lemma PublishedOfPair(a: Post, b: Post)
    requires a.status == Published && b.status == Draft
    ensures Filter(IsPublished, [a, b]) == [a]
  {
    FilterConcat(IsPublished, [a], [b]);
    assert [a] + [b] == [a, b];
    assert Filter(IsPublished, [a]) == [a];
    assert Filter(IsPublished, [b]) == [];
  }

  /** A page "Post A" marked 已发布 next to a page "Post B" marked 草稿: both posts are
      kept, in that order, and only "Post A" is published. */
  lemma PublishedExample(idA: string, idB: string, dates: Dates)
    ensures var all := FetchPosts([TitledPage(idA, "Post A", PublishedSentinel), TitledPage(idB, "Post B", "草稿")], dates);
            && |all| == 2 && all[0].title == "Post A" && all[1].title == "Post B"
            && Filter(IsPublished, all) == [all[0]]
  {
    var pa := TitledPage(idA, "Post A", PublishedSentinel);
    var pb := TitledPage(idB, "Post B", "草稿");
    assert "草稿" != PublishedSentinel;
    TitledPagePost(idA, "Post A", PublishedSentinel, dates);
    TitledPagePost(idB, "Post B", "草稿", dates);
    FetchPostsPair(pa, pb, dates);
    PublishedOfPair(NormalizePage(pa, dates).value, NormalizePage(pb, dates).value);
  }
}

=== FILE: local_cache.dfy ===
/** The browser-side helpers of src/lib/performance.ts that keep state in `localStorage`:
    `cacheManager` (time-limited entries under `cache_` keys) and `cleanupMemory`
    (removal of week-old `search_history_` keys). The storage is a map from keys to
    stored values and the clock reading `now` is a parameter. */
module LocalCache {
  import opened Wrappers
  import opened Text
  import Data

  /** A stored value: an item `cacheManager.set` wrote, or any other text. */
  datatype Stored = Item(data: string, timestamp: int, ttl: int) | Raw(text: string)

  type Storage = map<string, Stored>

  const CachePrefix := "cache_"
  const HistoryPrefix := "search_history_"

  /** One hour, in milliseconds. */
  const DefaultCacheTtl := 3600000

  /** Seven days, in milliseconds. */
  const MaxHistoryAge := 7 * 24 * 60 * 60 * 1000

  predicate HasPrefix(s: string, p: string) {
    |p| <= |s| && s[..|p|] == p
  }

  /** `` `cache_${key}` `` */
  function CacheKey(key: string): (k: string)
    ensures HasPrefix(k, CachePrefix) && k[|CachePrefix|..] == key
  {
    CachePrefix + key
  }

  lemma CacheKeyInjective(a: string, b: string)
    ensures CacheKey(a) == CacheKey(b) <==> a == b
  {
    if CacheKey(a) == CacheKey(b) {
      assert a == CacheKey(a)[|CachePrefix|..] == CacheKey(b)[|CachePrefix|..] == b;
    }
  }

  // ---------------------------------------------------------------- cacheManager

  /** `cacheManager.set(key, data, ttl)` at time `now`. */
  function Set(store: Storage, key: string, data: string, now: int, ttl: int): (r: Storage)
    ensures r.Keys == store.Keys + {CacheKey(key)}
    ensures r[CacheKey(key)] == Item(data, now, ttl)
    ensures forall k | k in store && k != CacheKey(key) :: r[k] == store[k]
  {
    store[CacheKey(key) := Item(data, now, ttl)]
  }

  /** `cacheManager.set(key, data)` with the default hour. */
  function SetDefault(store: Storage, key: string, data: string, now: int): (r: Storage)
    ensures CacheKey(key) in r && r[CacheKey(key)] == Item(data, now, DefaultCacheTtl)
  {
    Set(store, key, data, now, DefaultCacheTtl)
  }

  /** What a read returns, and the storage after it. */
  datatype Read = Read(value: Option<string>, store: Storage)

  predicate Expired(s: Stored, now: int)
    requires s.Item?
  {
    now - s.timestamp > s.ttl
  }

  /** `cacheManager.get(key)` at time `now`: a missing key reads null; an item older
      than its ttl is removed and reads null; any other item reads its data. */
  function Get(store: Storage, key: string, now: int): (r: Read)
    ensures CacheKey(key) !in store ==> r == Read(None, store)
    ensures r.value.Some? ==>
              CacheKey(key) in store && store[CacheKey(key)].Item? && store[CacheKey(key)].data == r.value.value
              && !Expired(store[CacheKey(key)], now) && r.store == store
    ensures CacheKey(key) in store && store[CacheKey(key)].Item? && !Expired(store[CacheKey(key)], now) ==> r.value.Some?
    ensures r.store != store ==> r.value.None? && r.store == store - {CacheKey(key)}
  {
    var k := CacheKey(key);
    if k !in store then Read(None, store)
    else match store[k]
      case Raw(_) => Read(None, store)
      case Item(data, timestamp, ttl) =>
        if now - timestamp > ttl then Read(None, store - {k}) else Read(Some(data), store)
  }

  /** A set item reads back until its ttl has passed, an age equal to the ttl
      included; after that the read removes it. */
  lemma SetThenGet(store: Storage, key: string, data: string, stamp: int, ttl: int, now: int)
    ensures now - stamp <= ttl ==> Get(Set(store, key, data, stamp, ttl), key, now) == Read(Some(data), Set(store, key, data, stamp, ttl))
    ensures now - stamp > ttl ==> Get(Set(store, key, data, stamp, ttl), key, now) == Read(None, store - {CacheKey(key)})
  {
    var s := Set(store, key, data, stamp, ttl);
    if now - stamp > ttl {
      assert s - {CacheKey(key)} == store - {CacheKey(key)};
    }
  }

  /** At an age of exactly the ttl this cache still answers, where the site's data
      cache (`Data.Fresh`) already counts the entry as stale. */
  lemma BoundaryAgainstDataCache(store: Storage, key: string, data: string, stamp: int, ttl: int, v: Data.CacheValue)
    ensures Get(Set(store, key, data, stamp, ttl), key, stamp + ttl).value == Some(data)
    ensures !Data.Fresh(Data.Entry(v, stamp, ttl), stamp + ttl)
  {
    SetThenGet(store, key, data, stamp, ttl, stamp + ttl);
  }

  /** Writing one key does not change what another key reads. */
  lemma SetOtherKey(store: Storage, key: string, other: string, data: string, stamp: int, ttl: int, now: int)
    requires other != key
    ensures Get(Set(store, key, data, stamp, ttl), other, now).value == Get(store, other, now).value
  {
    CacheKeyInjective(key, other);
  }

  /** After a read, reading again at the same time gives the same answer and changes
      nothing more. */
  lemma GetSettles(store: Storage, key: string, now: int)
    ensures var r := Get(store, key, now);
            Get(r.store, key, now) == Read(r.value, r.store)
  {
  }

  /** `cacheManager.clear(key)`: a present key removes its one entry; without a key (or
      with '', which is falsy) every `cache_` key goes and nothing else. */
  function Clear(store: Storage, key: Option<string>): (r: Storage)
    ensures Present(key) ==> r == store - {CacheKey(key.value)}
    ensures !Present(key) ==> r.Keys == set k | k in store && !HasPrefix(k, CachePrefix)
    ensures forall k | k in r :: k in store && r[k] == store[k]
  {
    if Present(key) then store - {CacheKey(key.value)}
    else map k | k in store && !HasPrefix(k, CachePrefix) :: store[k]
  }

  /** Clearing everything leaves no key to read. */
  lemma ClearAllMisses(store: Storage, key: Option<string>, other: string, now: int)
    requires !Present(key)
    ensures Get(Clear(store, key), other, now) == Read(None, Clear(store, key))
  {
    assert CacheKey(other) !in Clear(store, key);
  }

  /** `clear('')` is `clear()`: the empty key is falsy. */
  lemma EmptyKeyClearsAll(store: Storage)
    ensures Clear(store, Some("")) == Clear(store, None)
    ensures forall k | k in store && HasPrefix(k, CachePrefix) :: k !in Clear(store, Some(""))
  {
  }

  // ---------------------------------------------------------------- parseInt

  function DigitOf(c: char, radix: nat): (r: Option<nat>)
    ensures r.Some? ==> r.value < radix
  {
    if '0' <= c <= '9' && (c as int - '0' as int) < radix then Some(c as int - '0' as int)
    else if radix == 16 && 'a' <= c <= 'f' then Some(c as int - 'a' as int + 10)
    else if radix == 16 && 'A' <= c <= 'F' then Some(c as int - 'A' as int + 10)
    else None
  }

  predicate AllDigits(s: string, radix: nat) {
    forall i | 0 <= i < |s| :: DigitOf(s[i], radix).Some?
  }

  /** The length of the longest prefix of digits. */
  function LeadingDigits(s: string, radix: nat): (n: nat)
    ensures n <= |s| && AllDigits(s[..n], radix)
    ensures n < |s| ==> DigitOf(s[n], radix).None?
  {
    if |s| == 0 || DigitOf(s[0], radix).None? then 0
    else
      var n := 1 + LeadingDigits(s[1..], radix);
      assert forall i | 1 <= i < n :: s[..n][i] == s[1..][..n - 1][i - 1];
      n
  }

  /** The number a digit string denotes. */
  function ValueOf(s: string, radix: nat): nat
    requires AllDigits(s, radix)
  {
    if |s| == 0 then 0
    else ValueOf(s[..|s| - 1], radix) * radix + DigitOf(s[|s| - 1], radix).value
  }

  /** `parseInt(s)` without a radix, `None` for NaN: leading white space, an optional
      sign, a `0x` prefix selecting hexadecimal, then the longest run of digits, of
      which there must be at least one. */
  function ParseInt(s: string): (r: Option<int>)
    ensures Blank(s) ==> r.None?
  {
    var t := TrimStart(s);
    var sign := if |t| > 0 && t[0] == '-' then -1 else 1;
    var u := if |t| > 0 && (t[0] == '-' || t[0] == '+') then t[1..] else t;
    var hex := |u| >= 2 && u[0] == '0' && (u[1] == 'x' || u[1] == 'X');
    var radix := if hex then 16 else 10;
    var body := if hex then u[2..] else u;
    var n := LeadingDigits(body, radix);
    if n == 0 then None else Some(sign * ValueOf(body[..n], radix))
  }

  /** `String(n)` for a natural number. */
  function Decimal(n: nat): (r: string)
    ensures |r| > 0 && AllDigits(r, 10)
    ensures r[0] == '0' ==> r == "0"
  {
    var d := ['0' + (n % 10) as char];
    if n < 10 then d
    else
      var r := Decimal(n / 10) + d;
      assert r[0] == Decimal(n / 10)[0];
      r
  }

  /** The digits of `Decimal(n)` have the value n. */
  lemma {:induction false} ValueOfDecimal(n: nat)
    ensures ValueOf(Decimal(n), 10) == n
    decreases n
  {
    if n >= 10 {
      ValueOfDecimal(n / 10);
      var r := Decimal(n);
      assert r[..|r| - 1] == Decimal(n / 10);
    }
  }

  /** A digit run is read whole. */
  lemma {:induction false} LeadingAll(s: string, radix: nat)
    requires AllDigits(s, radix)
    ensures LeadingDigits(s, radix) == |s|
    decreases |s|
  {
    if |s| > 0 {
      LeadingAll(s[1..], radix);
    }
  }

  /** A decimal digit is neither white space nor a sign. */
  lemma DigitIsPlain(c: char)
    requires DigitOf(c, 10).Some?
    ensures !IsSpace(c) && c != '-' && c != '+'
  {
  }

  /** A run of decimal digits without a leading zero (or a lone 0) parses to its value. */
  lemma ParseDigits(s: string)
    requires |s| > 0 && AllDigits(s, 10) && (s[0] == '0' ==> |s| == 1)
    ensures ParseInt(s) == Some(ValueOf(s, 10))
  {
    DigitIsPlain(s[0]);
    assert TrimStart(s) == s;
    LeadingAll(s, 10);
    assert s[..|s|] == s;
  }

  /** `parseInt` reads back what `String` writes. */
  lemma ParseDecimal(n: nat)
    ensures ParseInt(Decimal(n)) == Some(n)
  {
    ParseDigits(Decimal(n));
    ValueOfDecimal(n);
  }

  // ---------------------------------------------------------------- cleanupMemory

  /** `parseInt(key.split('_')[2])`: the segment after `search_history_` up to the next
      underscore. */
  function HistoryStamp(key: string): Option<int>
    requires HasPrefix(key, HistoryPrefix)
  {
    var pieces := Split(key, '_');
    if |pieces| > 2 then ParseInt(pieces[2]) else None
  }

  /** A history key whose timestamp parses and is more than seven days old; a NaN
      timestamp makes the comparison false. */
  predicate Stale(key: string, now: int) {
    HasPrefix(key, HistoryPrefix)
    && var t := HistoryStamp(key);
       t.Some? && now - t.value > MaxHistoryAge
  }

  /** `cleanupMemory()` at time `now`. */
  function CleanupMemory(store: Storage, now: int): (r: Storage)
    ensures r.Keys == set k | k in store && !Stale(k, now)
    ensures forall k | k in r :: r[k] == store[k]
    ensures forall k | k in store && !HasPrefix(k, HistoryPrefix) :: k in r
  {
    map k | k in store && !Stale(k, now) :: store[k]
  }

  /** A second cleanup at the same time removes nothing more. */
  lemma CleanupIdempotent(store: Storage, now: int)
    ensures CleanupMemory(CleanupMemory(store, now), now) == CleanupMemory(store, now)
  {
  }

  /** Cache entries are never touched by the cleanup. */
  lemma CleanupKeepsCache(store: Storage, now: int, key: string)
    requires CacheKey(key) in store
    ensures CacheKey(key) in CleanupMemory(store, now)
  {
    assert CacheKey(key)[0] != HistoryPrefix[0];
  }

  /** A separator-free word and a separator in front split off as one piece. */
  lemma SplitWord(a: string, rest: string)
    requires '_' !in a
    ensures Split(a + ['_'] + rest, '_') == [a] + Split(rest, '_')
  {
    SplitAround(a, rest, '_');
    SplitNoSep(a, '_');
  }

  lemma HistoryPrefixWords(rest: string, w1: string, w2: string)
    requires w1 == "search" && w2 == "history"
    ensures HistoryPrefix + rest == w1 + ['_'] + (w2 + ['_'] + rest)
    ensures '_' !in w1 && '_' !in w2
  {
  }

  /** A history key splits into `search`, `history` and the pieces of the rest. */
  lemma SplitHistoryKey(rest: string)
    ensures Split(HistoryPrefix + rest, '_') == ["search", "history"] + Split(rest, '_')
  {
    var w1, w2 := "search", "history";
    HistoryPrefixWords(rest, w1, w2);
    SplitWord(w2, rest);
    SplitWord(w1, w2 + ['_'] + rest);
  }

  lemma HistoryStampOf(rest: string)
    ensures HasPrefix(HistoryPrefix + rest, HistoryPrefix)
    ensures HistoryStamp(HistoryPrefix + rest) == ParseInt(Split(rest, '_')[0])
  {
    var key := HistoryPrefix + rest;
    assert key[..|HistoryPrefix|] == HistoryPrefix;
    SplitHistoryKey(rest);
  }

  /** The key `search_history_<t>` for a timestamp `t` written in decimal goes exactly
      when it is more than seven days older than `now`. */
  lemma HistoryKeyAge(t: nat, now: int)
    ensures Stale(HistoryPrefix + Decimal(t), now) <==> now - t > MaxHistoryAge
  {
    var d := Decimal(t);
    assert '_' !in d by {
      forall i | 0 <= i < |d| ensures d[i] != '_' {
        assert DigitOf(d[i], 10).Some?;
      }
    }
    SplitNoSep(d, '_');
    HistoryStampOf(d);
    ParseDecimal(t);
  }

  /** A history key whose timestamp does not parse is kept however old. */
  lemma UnparsableStampKept(store: Storage, rest: string, now: int)
    requires HistoryPrefix + rest in store
    requires |rest| > 0 && rest[0] == '_'
    ensures HistoryPrefix + rest in CleanupMemory(store, now)
  {
    HistoryStampOf(rest);
    assert Split(rest, '_')[0] == "";
    assert ParseInt("") == None;
  }
}

=== FILE: markdown.dfy ===
/** Rich-text flattening and the block-to-Markdown switch of the ingestion script
    (`extractPlainText`, the `switch` in `getPageContent`). Headings are CommonMark ATX
    headings (section 4.2 of the CommonMark specification), the divider is a thematic
    break (section 4.1) and code blocks are backtick fences (section 4.5). */
module Markdown {
  import opened Wrappers
  import opened Text
  import opened Notion

  // ---------------------------------------------------------------- rich text

  /** The runs' `plain_text` joined with no separator; an absent one counts as ''. */
  function RunsText(runs: seq<TextRun>): string {
    if |runs| == 0 then "" else OrElse(runs[0].plainText, "") + RunsText(runs[1..])
  }

  /** `extractPlainText(richText)` */
  function PlainText(rt: RichText): (r: string)
    ensures rt.NotArray? ==> r == ""
    ensures rt.Runs? ==> r == RunsText(rt.runs)
  {
    match rt
    case NotArray => ""
    case Runs(runs) => RunsText(runs)
  }

  /** Flattening distributes over concatenation of run arrays ... */
  lemma {:induction false} RunsTextConcat(a: seq<TextRun>, b: seq<TextRun>)
    ensures RunsText(a + b) == RunsText(a) + RunsText(b)
    decreases |a|
  {
    if |a| == 0 {
      assert a + b == b;
    } else {
      assert (a + b)[1..] == a[1..] + b;
      RunsTextConcat(a[1..], b);
    }
  }

  /** ... and a single run contributes its own text, or '' when it has none, so the result
      is the in-order concatenation of every run's text. */
  lemma RunsTextSingle(run: TextRun)
    ensures RunsText([run]) == (if run.plainText.Some? then run.plainText.value else "")
  {
  }

  // ---------------------------------------------------------------- blocks

  /** The text-carrying kinds whose payload the switch dereferences unguarded. */
  const ThrowingKinds: set<string> := {
    "paragraph", "heading_1", "heading_2", "heading_3", "bulleted_list_item",
    "numbered_list_item", "code", "quote", "toggle", "to_do", "callout"
  }

  /** `file.url || external.url` */
  function MediaUrl(src: FileRef): (r: Option<string>)
    ensures r.Some? <==> Present(src.file) || Present(src.external)
    ensures Present(src.file) ==> r == src.file
    ensures r.Some? ==> r.value != ""
  {
    if Present(src.file) then src.file else if Present(src.external) then src.external else None
  }

  /** `if (text) content += prefix + text + suffix` */
  function Line(prefix: string, text: string, suffix: string): string {
    if text == "" then "" else prefix + text + suffix
  }

  /** The fragment one block appends to the page, or `None` when the switch throws. */
  function ConvertBlock(b: Block): (r: Option<string>)
    ensures r.None? <==> b.Missing? && b.kind in ThrowingKinds
  {
    match b
    case Paragraph(t) => Some(Line("", PlainText(t), "\n\n"))
    case Heading1(t) => Some(Line("# ", PlainText(t), "\n\n"))
    case Heading2(t) => Some(Line("## ", PlainText(t), "\n\n"))
    case Heading3(t) => Some(Line("### ", PlainText(t), "\n\n"))
    case BulletedItem(t) => Some(Line("- ", PlainText(t), "\n"))
    case NumberedItem(t) => Some(Line("1. ", PlainText(t), "\n"))
    case Code(t, lang) => Some(Line("```" + OrElse(lang, "") + "\n", PlainText(t), "\n```\n\n"))
    case Quote(t) => Some(Line("> ", PlainText(t), "\n\n"))
    case Divider => Some("---\n\n")
    case Toggle(t) => Some(Line("", PlainText(t), "\n\n"))
    case ToDo(t, checked) => Some(Line(if checked then "[x] " else "[ ] ", PlainText(t), "\n"))
    case Callout(t, emoji) => Some(Line("> " + OrElse(emoji, "💡") + " ", PlainText(t), "\n\n"))
    case Image(src, caption) =>
      var url := MediaUrl(src);
      Some(if url.None? then "" else "![" + OrElse(Some(PlainText(caption)), "图片") + "](" + url.value + ")\n\n")
    case Video(src) =>
      var url := MediaUrl(src);
      Some(if url.None? then "" else "[视频链接](" + url.value + ")\n\n")
    case File(src, name) =>
      var url := MediaUrl(src);
      Some(if url.None? then "" else "[" + OrElse(name, "文件") + "](" + url.value + ")\n\n")
    case Embed(url) =>
      Some(if !Present(url) then "" else "[嵌入内容](" + url.value + ")\n\n")
    case Bookmark(url, caption) =>
      Some(if !Present(url) then "" else "[" + OrElse(Some(PlainText(caption)), url.value) + "](" + url.value + ")\n\n")
    case Table => Some("[表格内容]\n\n")
    case Missing(k) =>
      if k in ThrowingKinds then None
      else if k == "divider" then Some("---\n\n")
      else if k == "table" then Some("[表格内容]\n\n")
      else Some("")
    case Other(_, rt) => Some(if rt.None? then "" else Line("", PlainText(rt.value), "\n\n"))
  }

  // ---------------------------------------------------------------- reference table

  /** The rich text of a text block. */
  predicate IsTextBlock(b: Block) {
    b.Paragraph? || b.Heading1? || b.Heading2? || b.Heading3? || b.BulletedItem?
    || b.NumberedItem? || b.Code? || b.Quote? || b.Toggle? || b.ToDo? || b.Callout?
  }

  /** What a text block writes before its text, as a table over the kinds. */
  function Opener(b: Block): string
    requires IsTextBlock(b)
  {
    if b.Heading1? then "# "
    else if b.Heading2? then "## "
    else if b.Heading3? then "### "
    else if b.BulletedItem? then "- "
    else if b.NumberedItem? then "1. "
    else if b.Code? then "```" + OrElse(b.language, "") + "\n"
    else if b.Quote? then "> "
    else if b.ToDo? then (if b.checked then "[x] " else "[ ] ")
    else if b.Callout? then "> " + OrElse(b.emoji, "💡") + " "
    else ""
  }

  /** List items and to-dos end their line densely; every other text block ends with a
      blank line. */
  function Closer(b: Block): string
    requires IsTextBlock(b)
  {
    if b.BulletedItem? || b.NumberedItem? || b.ToDo? then "\n"
    else if b.Code? then "\n```\n\n"
    else "\n\n"
  }

  /** A text block emits nothing when its plain text is empty, and otherwise its opener,
      its text and its closer. */
  lemma TextBlockFragment(b: Block)
    requires IsTextBlock(b)
    ensures PlainText(b.text) == "" ==> ConvertBlock(b) == Some("")
    ensures PlainText(b.text) != "" ==> ConvertBlock(b) == Some(Opener(b) + PlainText(b.text) + Closer(b))
  {
  }

  /** Headings are ATX headings: one to three '#' and a space; a numbered item always
      carries the literal marker '1. '. */
  lemma HeadingAndListMarkers(t: RichText)
    requires PlainText(t) != ""
    ensures ConvertBlock(Heading1(t)).value[..2] == "# "
    ensures ConvertBlock(Heading2(t)).value[..3] == "## "
    ensures ConvertBlock(Heading3(t)).value[..4] == "### "
    ensures ConvertBlock(NumberedItem(t)).value[..3] == "1. "
    ensures ConvertBlock(BulletedItem(t)).value[..2] == "- "
  {
  }

  /** The divider and the table placeholder are emitted whatever the payload holds. */
  lemma UnconditionalFragments(k: string)
    requires k == "divider" || k == "table"
    ensures ConvertBlock(Missing(k)) == ConvertBlock(if k == "divider" then Divider else Table)
    ensures ConvertBlock(Divider) == Some("---\n\n")
    ensures ConvertBlock(Table) == Some("[表格内容]\n\n")
  {
  }

  /** Image, video and file blocks link the internal file URL when there is one, else the
      external one; every media block emits nothing without a URL. */
  lemma MediaFragments(src: FileRef, caption: RichText, name: Option<string>, url: Option<string>)
    ensures Present(src.file) ==> ConvertBlock(Video(src)) == Some("[视频链接](" + src.file.value + ")\n\n")
    ensures !Present(src.file) && Present(src.external) ==>
              ConvertBlock(Video(src)) == Some("[视频链接](" + src.external.value + ")\n\n")
    ensures !Present(src.file) && !Present(src.external) ==>
              ConvertBlock(Image(src, caption)) == Some("")
              && ConvertBlock(Video(src)) == Some("")
              && ConvertBlock(File(src, name)) == Some("")
    ensures !Present(url) ==> ConvertBlock(Embed(url)) == Some("") && ConvertBlock(Bookmark(url, caption)) == Some("")
  {
    if Present(src.file) || Present(src.external) {
      VideoLink(src);
    }
    NoUrlNoMedia(src, caption, name);
    NoUrlNoLink(url, caption);
  }

  lemma VideoLink(src: FileRef)
    requires Present(src.file) || Present(src.external)
    ensures ConvertBlock(Video(src)) == Some("[视频链接](" + MediaUrl(src).value + ")\n\n")
  {
  }

  lemma NoUrlNoMedia(src: FileRef, caption: RichText, name: Option<string>)
    ensures !Present(src.file) && !Present(src.external) ==>
              ConvertBlock(Image(src, caption)) == Some("")
              && ConvertBlock(Video(src)) == Some("")
              && ConvertBlock(File(src, name)) == Some("")
  {
  }

  lemma NoUrlNoLink(url: Option<string>, caption: RichText)
    ensures !Present(url) ==> ConvertBlock(Embed(url)) == Some("") && ConvertBlock(Bookmark(url, caption)) == Some("")
  {
  }

  /** An image without a caption is labelled 图片, a file without a name 文件, and a
      bookmark without a caption shows its URL. */
  lemma MediaLabels(src: FileRef, name: Option<string>, url: string)
    requires Present(src.file) && url != ""
    ensures ConvertBlock(Image(src, NotArray)) == Some("![图片](" + src.file.value + ")\n\n")
    ensures ConvertBlock(File(src, None)) == Some("[文件](" + src.file.value + ")\n\n")
    ensures ConvertBlock(Bookmark(Some(url), NotArray)) == Some("[" + url + "](" + url + ")\n\n")
  {
    assert MediaUrl(src) == src.file;
    assert "![" + "图片" + "](" == "![图片](";
    assert "[" + "文件" + "](" == "[文件](";
  }

  // ---------------------------------------------------------------- pages

  /** Fragments concatenated in order, or `None` as soon as one is `None`. */
  function Collect(parts: seq<Option<string>>): (r: Option<string>)
    ensures r.None? <==> exists i | 0 <= i < |parts| :: parts[i].None?
  {
    if |parts| == 0 then Some("")
    else
      var rest := Collect(parts[1..]);
      assert forall i | 1 <= i < |parts| :: parts[i] == parts[1..][i - 1];
      if parts[0].None? || rest.None? then None else Some(parts[0].value + rest.value)
  }

  lemma {:induction false} CollectConcat(a: seq<Option<string>>, b: seq<Option<string>>)
    requires Collect(a).Some? && Collect(b).Some?
    ensures Collect(a + b) == Some(Collect(a).value + Collect(b).value)
    decreases |a|
  {
    if |a| == 0 {
      assert a + b == b;
      assert "" + Collect(b).value == Collect(b).value;
    } else {
      var ab := a + b;
      assert ab[1..] == a[1..] + b;
      assert ab[0] == a[0];
      CollectConcat(a[1..], b);
      var h, x, y := a[0].value, Collect(a[1..]).value, Collect(b).value;
      assert h + (x + y) == (h + x) + y;
    }
  }

  /** The block's fragments concatenated in block order, or `None` if any block throws. */
  function Fragments(blocks: seq<Block>): (r: Option<string>)
    ensures r.None? <==> exists i | 0 <= i < |blocks| :: ConvertBlock(blocks[i]).None?
  {
    var parts := seq(|blocks|, i requires 0 <= i < |blocks| => ConvertBlock(blocks[i]));
    assert forall i | 0 <= i < |blocks| :: parts[i] == ConvertBlock(blocks[i]);
    Collect(parts)
  }

  /** Converting two runs of blocks is converting each and concatenating the text. */
  lemma FragmentsConcat(a: seq<Block>, b: seq<Block>)
    requires Fragments(a).Some? && Fragments(b).Some?
    ensures Fragments(a + b) == Some(Fragments(a).value + Fragments(b).value)
  {
    var pa := seq(|a|, i requires 0 <= i < |a| => ConvertBlock(a[i]));
    var pb := seq(|b|, i requires 0 <= i < |b| => ConvertBlock(b[i]));
    var pab := seq(|a + b|, i requires 0 <= i < |a + b| => ConvertBlock((a + b)[i]));
    assert pab == pa + pb;
    CollectConcat(pa, pb);
  }

  /** The children endpoint returns at most this many blocks, and no cursor is followed. */
  const PageSize := 100

  /** The blocks the single `children.list` call returns. */
  function FirstPage(blocks: seq<Block>): (r: seq<Block>)
    ensures |r| <= PageSize && |r| <= |blocks| && r == blocks[..|r|]
    ensures |blocks| <= PageSize ==> r == blocks
  {
    if |blocks| <= PageSize then blocks else blocks[..PageSize]
  }

  /** The result of listing a page's children. */
  datatype Fetch = Fetched(blocks: seq<Block>) | FetchFailed

  /** `getPageContent(pageId)`: the trimmed concatenation of the fragments, or '' when the
      fetch fails or any block throws (the catch is around the whole loop). */
  function PageContent(f: Fetch): (r: string)
    ensures f.FetchFailed? ==> r == ""
    ensures f.Fetched? && Fragments(FirstPage(f.blocks)).None? ==> r == ""
    ensures f.Fetched? && Fragments(FirstPage(f.blocks)).Some? ==> r == Trim(Fragments(FirstPage(f.blocks)).value)
  {
    if f.FetchFailed? then ""
    else
      var frag := Fragments(FirstPage(f.blocks));
      if frag.None? then "" else Trim(frag.value)
  }

  /** One throwing block among the first hundred empties the whole page, not only its own
      fragment. */
  lemma OneBadBlockEmptiesPage(blocks: seq<Block>, i: nat)
    requires i < |blocks| && i < PageSize
    requires blocks[i].Missing? && blocks[i].kind in ThrowingKinds
    ensures PageContent(Fetched(blocks)) == ""
  {
    assert FirstPage(blocks)[i] == blocks[i];
  }

  /** Blocks after the first hundred never reach the content. */
  lemma LaterBlocksIgnored(blocks: seq<Block>, extra: seq<Block>)
    requires |blocks| == PageSize
    ensures PageContent(Fetched(blocks + extra)) == PageContent(Fetched(blocks))
  {
    assert FirstPage(blocks + extra) == blocks;
  }

  /** A heading followed by a paragraph: "# Intro\n\nHello world". */
  lemma IntroExample()
    ensures PageContent(Fetched([Heading1(Runs([TextRun(Some("Intro"))])),
                                 Paragraph(Runs([TextRun(Some("Hello world"))]))]))
            == "# Intro\n\nHello world"
  {
    var h := Heading1(Runs([TextRun(Some("Intro"))]));
    var p := Paragraph(Runs([TextRun(Some("Hello world"))]));
    IntroHeading(h);
    IntroParagraph(p);
    FragmentsSingle(h);
    FragmentsSingle(p);
    FragmentsConcat([h], [p]);
    assert [h] + [p] == [h, p];
    assert FirstPage([h, p]) == [h, p];
    assert "# Intro\n\n" + "Hello world\n\n" == "" + "# Intro\n\nHello world" + "\n\n";
    TrimPadded("", "# Intro\n\nHello world", "\n\n");
  }

  lemma IntroHeading(h: Block)
    requires h == Heading1(Runs([TextRun(Some("Intro"))]))
    ensures ConvertBlock(h) == Some("# Intro\n\n")
  {
    assert RunsText([TextRun(Some("Intro"))]) == "Intro";
    assert "# " + "Intro" + "\n\n" == "# Intro\n\n";
  }

  lemma IntroParagraph(p: Block)
    requires p == Paragraph(Runs([TextRun(Some("Hello world"))]))
    ensures ConvertBlock(p) == Some("Hello world\n\n")
  {
    assert RunsText([TextRun(Some("Hello world"))]) == "Hello world";
    assert "" + "Hello world" + "\n\n" == "Hello world\n\n";
  }

  /** A single block's fragment is the whole conversion. */
  lemma FragmentsSingle(b: Block)
    requires ConvertBlock(b).Some?
    ensures Fragments([b]) == ConvertBlock(b)
  {
    var bs := [b];
    var parts := seq(|bs|, i requires 0 <= i < |bs| => ConvertBlock(bs[i]));
    assert parts == [ConvertBlock(b)];
    assert Fragments(bs) == Collect(parts);
    assert parts[1..] == [];
    assert Collect(parts[1..]) == Some("");
    assert ConvertBlock(b).value + "" == ConvertBlock(b).value;
  }
}

=== FILE: notion.dfy ===
/** The upstream content model as the scripts see it: rich-text runs, content blocks and
    typed page properties, as closed sum types. A field the scripts read through `?.` or
    `||` is an `Option`; a block whose payload object is absent is `Missing`. */
module Notion {
  import opened Wrappers

  /** One rich-text run; its `plain_text` may be absent. */
  datatype TextRun = TextRun(plainText: Option<string>)

  /** A rich-text field: an array of runs, or anything else (absent, null, not an array). */
  datatype RichText = Runs(runs: seq<TextRun>) | NotArray

  /** The source of a media block or an attachment: `file.url` and `external.url`. */
  datatype FileRef = FileRef(file: Option<string>, external: Option<string>)

  datatype Block =
    | Paragraph(text: RichText)
    | Heading1(text: RichText)
    | Heading2(text: RichText)
    | Heading3(text: RichText)
    | BulletedItem(text: RichText)
    | NumberedItem(text: RichText)
    | Code(text: RichText, language: Option<string>)
    | Quote(text: RichText)
    | Divider
    | Toggle(text: RichText)
    | ToDo(text: RichText, checked: bool)
    | Callout(text: RichText, emoji: Option<string>)
    | Image(source: FileRef, caption: RichText)
    | Video(source: FileRef)
    | File(source: FileRef, name: Option<string>)
    | Embed(url: Option<string>)
    | Bookmark(url: Option<string>, caption: RichText)
    | Table
      /** A block of a known kind whose payload object (`block[block.type]`) is absent. */
    | Missing(kind: string)
      /** A block of any other kind, with the payload's `rich_text` when it is truthy. */
    | Other(kind: string, richText: Option<RichText>)

  /** The block type names the scripts switch on. */
  const KnownKinds: set<string> := {
    "paragraph", "heading_1", "heading_2", "heading_3", "bulleted_list_item",
    "numbered_list_item", "code", "quote", "divider", "toggle", "to_do", "callout",
    "image", "video", "file", "embed", "bookmark", "table"
  }

  /** `block.type` */
  function KindName(b: Block): string {
    match b
    case Paragraph(_) => "paragraph"
    case Heading1(_) => "heading_1"
    case Heading2(_) => "heading_2"
    case Heading3(_) => "heading_3"
    case BulletedItem(_) => "bulleted_list_item"
    case NumberedItem(_) => "numbered_list_item"
    case Code(_, _) => "code"
    case Quote(_) => "quote"
    case Divider => "divider"
    case Toggle(_) => "toggle"
    case ToDo(_, _) => "to_do"
    case Callout(_, _) => "callout"
    case Image(_, _) => "image"
    case Video(_) => "video"
    case File(_, _) => "file"
    case Embed(_) => "embed"
    case Bookmark(_, _) => "bookmark"
    case Table => "table"
    case Missing(k) => k
    case Other(k, _) => k
  }

  /** A block whose variant agrees with its type name. */
  predicate WellFormed(b: Block) {
    match b
    case Missing(k) => k in KnownKinds
    case Other(k, _) => k !in KnownKinds
    case _ => true
  }

  /** A block as listed by the children endpoint: its id and its content. */
  datatype BlockRecord = BlockRecord(id: string, block: Block)

  /** A date property's `start`: a string `new Date` accepts (as a UTC day number), or
      one it rejects. */
  datatype DateStart = Valid(day: int) | Invalid(raw: string)

  datatype Person = Person(name: Option<string>, id: string)

  /** A page property; `Option` fields are the ones that may be absent or null. */
  datatype Property =
    | TitleProp(title: RichText)
    | RichTextProp(richText: RichText)
    | SelectProp(selectName: Option<string>)
    | MultiSelectProp(options: Option<seq<string>>)
    | DateProp(start: Option<DateStart>)
    | CheckboxProp(checked: bool)
    | NumberProp(number: Option<int>)
    | UrlProp(url: Option<string>)
    | EmailProp(email: Option<string>)
    | PhoneProp(phone: Option<string>)
    | FilesProp(files: Option<seq<FileRef>>)
    | PeopleProp(people: Option<seq<Person>>)
    | OtherProp(kind: string)

  /** A property value as the extractors return it (a JSON value). */
  datatype Value =
    | Null
    | Text(text: string)
    | Texts(items: seq<string>)
    | Flag(flag: bool)
    | Number(number: int)
    | DateValue(start: DateStart)

  /** JavaScript truthiness of an extracted value: null, '', false and 0 are falsy; every
      array, even an empty one, is truthy. */
  predicate Truthy(v: Value) {
    match v
    case Null => false
    case Text(s) => s != ""
    case Flag(f) => f
    case Number(n) => n != 0
    case _ => true
  }

  /** `value || fallback` where a string is expected; a truthy value of another JSON type
      is not representable in a string field and yields the fallback too. */
  function StringOr(v: Value, fallback: string): (r: string)
    ensures v.Text? && v.text != "" ==> r == v.text
    ensures !(v.Text? && v.text != "") ==> r == fallback
  {
    if v.Text? && v.text != "" then v.text else fallback
  }
}

=== FILE: notion_page.dfy ===
/** `formatNotionPage` of src/lib/notion.ts: the site's direct reader of a database row.
    It reads each column through a fixed path (`title[0].plain_text`, `select.name`,
    `url`, ...) instead of the ingestion script's property extractor, and the lemmas at
    the end pin down where the two disagree. */
module NotionPage {
  import opened Wrappers
  import opened Notion
  import opened Markdown
  import opened Slug
  import opened Posts
  import Ingest
  import Seqs

  /** The `BlogPost` of src/lib/notion.ts; `publishDate` is the raw date start, or `None`
      for the '' the source writes when there is none. */
  datatype NotionPost = NotionPost(
    id: string,
    title: string,
    content: string,
    summary: string,
    tags: seq<string>,
    category: string,
    publishDate: Option<DateStart>,
    lastEditTime: string,
    status: Status,
    coverImage: string)

  function Prop(page: Ingest.Page, name: string): Option<Property> {
    if name in page.properties then Some(page.properties[name]) else None
  }

  /** `rt?.[0]?.plain_text`: the first run's text only. */
  function FirstRunText(rt: RichText): (r: Option<string>)
    ensures rt.NotArray? || |rt.runs| == 0 ==> r.None?
    ensures rt.Runs? && |rt.runs| > 0 ==> r == rt.runs[0].plainText
  {
    if rt.Runs? && |rt.runs| > 0 then rt.runs[0].plainText else None
  }

  /** `properties[name]?.title?.[0]?.plain_text` */
  function TitlePath(p: Option<Property>): Option<string> {
    if p.Some? && p.value.TitleProp? then FirstRunText(p.value.title) else None
  }

  /** `properties[name]?.rich_text?.[0]?.plain_text` */
  function RichTextPath(p: Option<Property>): Option<string> {
    if p.Some? && p.value.RichTextProp? then FirstRunText(p.value.richText) else None
  }

  /** `properties[name]?.select?.name` */
  function SelectPath(p: Option<Property>): Option<string> {
    if p.Some? && p.value.SelectProp? then p.value.selectName else None
  }

  /** `properties[name]?.multi_select?.map(tag => tag.name)` */
  function MultiSelectPath(p: Option<Property>): Option<seq<string>> {
    if p.Some? && p.value.MultiSelectProp? then p.value.options else None
  }

  /** `properties[name]?.date?.start || ''`, with `None` for the '' */
  function DatePath(p: Option<Property>): Option<DateStart> {
    if p.Some? && p.value.DateProp? && p.value.start != Some(Invalid("")) then p.value.start else None
  }

  /** `properties[name]?.url` */
  function UrlPath(p: Option<Property>): Option<string> {
    if p.Some? && p.value.UrlProp? then p.value.url else None
  }

  const ContentField := "内容"

  /** `formatNotionPage(page)` */
  function FormatNotionPage(page: Ingest.Page): (r: NotionPost)
    ensures r.id == page.id && r.lastEditTime == page.lastEditedTime
    ensures r.title == OrElse(TitlePath(Prop(page, Ingest.TitleField)), Ingest.DefaultTitle)
    ensures r.content == OrElse(RichTextPath(Prop(page, ContentField)), "")
    ensures r.summary == OrElse(RichTextPath(Prop(page, Ingest.SummaryField)), "")
    ensures r.category == OrElse(SelectPath(Prop(page, Ingest.CategoryField)), Ingest.DefaultCategory)
    ensures r.title != "" && r.category != ""
    ensures r.status == Published <==> SelectPath(Prop(page, Ingest.StatusField)) == Some(Ingest.PublishedSentinel)
    ensures r.tags == MultiSelectPath(Prop(page, Ingest.TagsField)).GetOr([])
    ensures r.publishDate == DatePath(Prop(page, Ingest.DateField))
    ensures r.coverImage == OrElse(UrlPath(Prop(page, Ingest.CoverField)), "")
  {
    NotionPost(
      id := page.id,
      title := OrElse(TitlePath(Prop(page, Ingest.TitleField)), Ingest.DefaultTitle),
      content := OrElse(RichTextPath(Prop(page, ContentField)), ""),
      summary := OrElse(RichTextPath(Prop(page, Ingest.SummaryField)), ""),
      tags := MultiSelectPath(Prop(page, Ingest.TagsField)).GetOr([]),
      category := OrElse(SelectPath(Prop(page, Ingest.CategoryField)), Ingest.DefaultCategory),
      publishDate := DatePath(Prop(page, Ingest.DateField)),
      lastEditTime := page.lastEditedTime,
      status := if SelectPath(Prop(page, Ingest.StatusField)) == Some(Ingest.PublishedSentinel) then Published else Draft,
      coverImage := OrElse(UrlPath(Prop(page, Ingest.CoverField)), ""))
  }

  /** The query's server-side filter: the status column is a select named 已发布. */
  predicate PublishedRow(page: Ingest.Page) {
    SelectPath(Prop(page, Ingest.StatusField)) == Some(Ingest.PublishedSentinel)
  }

  /** `getPublishedPosts`: the rows the status filter keeps, each formatted, none dropped
      (unlike the ingestion loop); `rows` is `None` when the query throws, which the
      catch turns into []. */
  function GetPublishedPosts(rows: Option<seq<Ingest.Page>>): (r: seq<NotionPost>)
    ensures rows.None? ==> r == []
    ensures rows.Some? ==>
              var kept := Seqs.Filter(PublishedRow, rows.value);
              |r| == |kept| && forall i | 0 <= i < |r| :: r[i] == FormatNotionPage(kept[i])
  {
    if rows.None? then []
    else
      var kept := Seqs.Filter(PublishedRow, rows.value);
      seq(|kept|, i requires 0 <= i < |kept| => FormatNotionPage(kept[i]))
  }

  /** Every row marked 已发布 is served, and every served post comes from such a row and
      is published. */
  lemma PublishedRowsServed(rows: seq<Ingest.Page>, page: Ingest.Page)
    ensures page in rows && PublishedRow(page) ==> FormatNotionPage(page) in GetPublishedPosts(Some(rows))
    ensures forall p | p in GetPublishedPosts(Some(rows)) ::
              exists q | q in rows :: PublishedRow(q) && p == FormatNotionPage(q)
    ensures forall p | p in GetPublishedPosts(Some(rows)) :: p.status == Published
  {
    var kept := Seqs.Filter(PublishedRow, rows);
    var r := GetPublishedPosts(Some(rows));
    if page in rows && PublishedRow(page) {
      var i :| 0 <= i < |kept| && kept[i] == page;
      assert r[i] == FormatNotionPage(page);
    }
    forall p | p in r
      ensures exists q | q in rows :: PublishedRow(q) && p == FormatNotionPage(q)
    {
      var i :| 0 <= i < |r| && r[i] == p;
      assert kept[i] in kept;
    }
  }

  // ---------------------------------------------------------------- the two readers

  /** The title is the first run only, where the ingestion script joins every run: a
      title split into the runs "Hello" and " world" reads "Hello" here and
      "Hello world" there. */
  lemma TitleFirstRunOnly(page: Ingest.Page, first: string, rest: seq<TextRun>)
    requires first != ""
    requires Ingest.TitleField in page.properties
    requires page.properties[Ingest.TitleField] == TitleProp(Runs([TextRun(Some(first))] + rest))
    ensures FormatNotionPage(page).title == first
    ensures Ingest.Field(page, Ingest.TitleField) == Text(first + RunsText(rest))
  {
    var runs := [TextRun(Some(first))] + rest;
    assert runs[1..] == rest;
  }

  lemma TitleExample(page: Ingest.Page)
    requires Ingest.TitleField in page.properties
    requires page.properties[Ingest.TitleField] == TitleProp(Runs([TextRun(Some("Hello")), TextRun(Some(" world"))]))
    ensures FormatNotionPage(page).title == "Hello"
    ensures Ingest.Field(page, Ingest.TitleField) == Text("Hello world")
  {
    assert [TextRun(Some("Hello")), TextRun(Some(" world"))] == [TextRun(Some("Hello"))] + [TextRun(Some(" world"))];
    assert RunsText([TextRun(Some(" world"))]) == " world";
    TitleFirstRunOnly(page, "Hello", [TextRun(Some(" world"))]);
    assert "Hello" + " world" == "Hello world";
  }

  /** The cover comes from a url-typed column here and from a files-typed column in the
      ingestion script: an attachment is invisible to this reader, a URL to neither. */
  lemma CoverColumnKinds(page: Ingest.Page, files: seq<FileRef>, url: string)
    requires Ingest.CoverField in page.properties
    ensures page.properties[Ingest.CoverField] == FilesProp(Some(files)) ==>
              FormatNotionPage(page).coverImage == ""
              && Ingest.Field(page, Ingest.CoverField) == Text(Ingest.FirstFileUrl(Some(files)))
    ensures page.properties[Ingest.CoverField] == UrlProp(Some(url)) ==>
              FormatNotionPage(page).coverImage == url
              && Ingest.Field(page, Ingest.CoverField) == Text(url)
  {
  }

  /** A rich-text field of at most one run, where reading the first run and joining
      every run coincide. */
  predicate SingleRun(rt: RichText) {
    rt.NotArray? || |rt.runs| <= 1
  }

  lemma FirstRunIsAll(rt: RichText)
    requires SingleRun(rt)
    ensures OrElse(FirstRunText(rt), "") == PlainText(rt)
  {
    if rt.Runs? && |rt.runs| == 1 {
      var x := OrElse(rt.runs[0].plainText, "");
      assert rt.runs[1..] == [];
      assert RunsText(rt.runs) == x + RunsText([]);
      assert x + "" == x;
    }
  }

  /** On a title column of at most one run both readers give the same title. */
  lemma TitleAgrees(page: Ingest.Page)
    requires Ingest.TitleField in page.properties ==>
               page.properties[Ingest.TitleField].TitleProp? && SingleRun(page.properties[Ingest.TitleField].title)
    ensures FormatNotionPage(page).title == StringOr(Ingest.Field(page, Ingest.TitleField), Ingest.DefaultTitle)
  {
    if Ingest.TitleField in page.properties {
      FirstRunIsAll(page.properties[Ingest.TitleField].title);
    }
  }

  /** On a summary column of at most one run both readers give the same summary. */
  lemma SummaryAgrees(page: Ingest.Page)
    requires Ingest.SummaryField in page.properties ==>
               page.properties[Ingest.SummaryField].RichTextProp? && SingleRun(page.properties[Ingest.SummaryField].richText)
    ensures FormatNotionPage(page).summary == StringOr(Ingest.Field(page, Ingest.SummaryField), "")
  {
    if Ingest.SummaryField in page.properties {
      FirstRunIsAll(page.properties[Ingest.SummaryField].richText);
    }
  }

  /** On select and multi-select columns both readers give the same category and tags. */
  lemma CategoryAndTagsAgree(page: Ingest.Page)
    requires Ingest.CategoryField in page.properties ==> page.properties[Ingest.CategoryField].SelectProp?
    requires Ingest.TagsField in page.properties ==> page.properties[Ingest.TagsField].MultiSelectProp?
    ensures FormatNotionPage(page).category == StringOr(Ingest.Field(page, Ingest.CategoryField), Ingest.DefaultCategory)
    ensures FormatNotionPage(page).tags == Ingest.TagsOf(Ingest.Field(page, Ingest.TagsField))
  {
  }

  /** Without a date this reader leaves the date empty, where the ingestion script stamps
      the day of the run (unless its slug step throws). */
  lemma DateDefaults(page: Ingest.Page, dates: Ingest.Dates)
    requires Ingest.DateField !in page.properties
    ensures FormatNotionPage(page).publishDate.None?
    ensures Ingest.NormalizePage(page, dates).Some? <==> !Ingest.SlugThrows(Ingest.ReadRow(page))
    ensures Ingest.NormalizePage(page, dates).Some? ==> Ingest.NormalizePage(page, dates).value.publishDate == dates.today
  {
    Ingest.MissingDateIsToday(page, dates);
  }

  /** Both readers agree on the status of a select column: published exactly when its
      name is 已发布. */
  lemma StatusAgrees(page: Ingest.Page, dates: Ingest.Dates, name: Option<string>)
    requires Ingest.StatusField in page.properties
    requires page.properties[Ingest.StatusField] == SelectProp(name)
    requires Ingest.NormalizePage(page, dates).Some?
    ensures FormatNotionPage(page).status == Ingest.NormalizePage(page, dates).value.status
  {
    assert Ingest.ReadRow(page).status == Ingest.GetPropertyValue(Some(SelectProp(name)));
  }
}

=== FILE: ordering.dfy ===
/** The orders the blog sorts posts by, and the stable sort used for all of them.
    Each order is the "may come first" relation of a JavaScript comparator:
    `Before(k, a, b)` holds when the comparator returns a value <= 0 for (a, b). */
module Ordering {
  import opened Seqs
  import opened Text
  import opened Posts

  datatype SortKey =
    | NewestFirst                  // (a, b) => date(b) - date(a)
    | TitleAscending               // (a, b) => a.title.localeCompare(b.title)
    | TitleMatchFirst(query: string) // lower-cased title contains `query` first, then newest first

  predicate TitleMatches(p: Post, query: string) {
    Contains(Lower(p.title), query)
  }

  predicate Before(k: SortKey, a: Post, b: Post) {
    match k
    case NewestFirst => a.publishDate >= b.publishDate
    case TitleAscending => LexLe(a.title, b.title)
    case TitleMatchFirst(q) =>
      var ma := TitleMatches(a, q);
      var mb := TitleMatches(b, q);
      (ma && !mb) || (ma == mb && a.publishDate >= b.publishDate)
  }

  lemma BeforeTotal(k: SortKey, a: Post, b: Post)
    ensures Before(k, a, b) || Before(k, b, a)
  {
    if k.TitleAscending? {
      LexLeTotal(a.title, b.title);
    }
  }

  lemma BeforeTransitive(k: SortKey, a: Post, b: Post, c: Post)
    requires Before(k, a, b) && Before(k, b, c)
    ensures Before(k, a, c)
  {
    if k.TitleAscending? {
      LexLeTransitive(a.title, b.title, c.title);
    }
  }

  predicate Sorted(k: SortKey, s: seq<Post>) {
    forall i, j | 0 <= i < j < |s| :: Before(k, s[i], s[j])
  }

  /** Inserts `x` in front of the first element it may precede. */
  function Insert(k: SortKey, x: Post, s: seq<Post>): (r: seq<Post>)
    ensures multiset(r) == multiset(s) + multiset{x}
    ensures Sorted(k, s) ==> Sorted(k, r)
  {
    if |s| == 0 then [x]
    else if Before(k, x, s[0]) then
      InsertFront(k, x, s);
      [x] + s
    else
      var t := Insert(k, x, s[1..]);
      assert s == [s[0]] + s[1..];
      assert multiset([s[0]] + t) == multiset{s[0]} + multiset(t);
      InsertBehind(k, x, s, t);
      [s[0]] + t
  }

  lemma InsertFront(k: SortKey, x: Post, s: seq<Post>)
    requires |s| > 0 && Before(k, x, s[0])
    ensures Sorted(k, s) ==> Sorted(k, [x] + s)
  {
    if Sorted(k, s) {
      var r := [x] + s;
      forall i, j | 0 <= i < j < |r|
        ensures Before(k, r[i], r[j])
      {
        if i == 0 && j > 1 {
          BeforeTransitive(k, x, s[0], s[j - 1]);
        }
      }
    }
  }

  lemma InsertBehind(k: SortKey, x: Post, s: seq<Post>, t: seq<Post>)
    requires |s| > 0 && !Before(k, x, s[0])
    requires multiset(t) == multiset(s[1..]) + multiset{x}
    requires Sorted(k, s[1..]) ==> Sorted(k, t)
    ensures Sorted(k, s) ==> Sorted(k, [s[0]] + t)
  {
    if Sorted(k, s) {
      assert Sorted(k, s[1..]);
      BeforeTotal(k, x, s[0]);
      var r := [s[0]] + t;
      forall i, j | 0 <= i < j < |r|
        ensures Before(k, r[i], r[j])
      {
        if i == 0 {
          var y := t[j - 1];
          assert y in multiset(t);
          if y != x {
            assert y in multiset(s[1..]);
            var m :| 0 <= m < |s[1..]| && s[1..][m] == y;
            assert s[m + 1] == y;
          }
        }
      }
    }
  }

  /** The stable sort `Array.prototype.sort` performs with the comparator of `k`. */
  function Sort(k: SortKey, s: seq<Post>): (r: seq<Post>)
    ensures multiset(r) == multiset(s)
    ensures Sorted(k, r)
  {
    if |s| == 0 then []
    else
      assert s == [s[0]] + s[1..];
      Insert(k, s[0], Sort(k, s[1..]))
  }

  /** The posts the comparator of `k` cannot tell apart from `x` (it returns 0 both
      ways). */
  function TiedWith(k: SortKey, x: Post): Post -> bool {
    (p: Post) => Before(k, p, x) && Before(k, x, p)
  }

  /** A post that may not precede another is not tied with it. */
  lemma NotBothTied(k: SortKey, x: Post, y: Post, z: Post)
    requires !Before(k, y, z)
    ensures !(TiedWith(k, x)(y) && TiedWith(k, x)(z))
  {
    if Before(k, y, x) && Before(k, x, z) {
      BeforeTransitive(k, y, x, z);
    }
  }

  /** Inserting `y` puts it in front of every post tied with it. */
  lemma {:induction false} InsertTied(k: SortKey, x: Post, y: Post, t: seq<Post>)
    ensures Filter(TiedWith(k, x), Insert(k, y, t))
            == (if TiedWith(k, x)(y) then [y] else []) + Filter(TiedWith(k, x), t)
    decreases |t|
  {
    var tie := TiedWith(k, x);
    if |t| == 0 {
      FilterCons(tie, y, []);
    } else if Before(k, y, t[0]) {
      FilterCons(tie, y, t);
    } else {
      InsertTied(k, x, y, t[1..]);
      InsertTiedBehind(k, x, y, t);
    }
  }

  /** The step of `InsertTied` where `y` goes behind the head of `t`. */
  lemma InsertTiedBehind(k: SortKey, x: Post, y: Post, t: seq<Post>)
    requires |t| > 0 && !Before(k, y, t[0])
    requires Filter(TiedWith(k, x), Insert(k, y, t[1..]))
             == (if TiedWith(k, x)(y) then [y] else []) + Filter(TiedWith(k, x), t[1..])
    ensures Filter(TiedWith(k, x), Insert(k, y, t))
            == (if TiedWith(k, x)(y) then [y] else []) + Filter(TiedWith(k, x), t)
  {
    InsertBehindHead(k, y, t);
    NotBothTied(k, x, y, t[0]);
    FilterPastOne(TiedWith(k, x), y, t[0], Insert(k, y, t[1..]), t[1..], Insert(k, y, t), t);
  }

  lemma InsertBehindHead(k: SortKey, y: Post, t: seq<Post>)
    requires |t| > 0 && !Before(k, y, t[0])
    ensures Insert(k, y, t) == [t[0]] + Insert(k, y, t[1..])
    ensures t == [t[0]] + t[1..]
  {
  }

  /** `Sort` is stable: the posts tied with any `x` keep their input order. */
  lemma {:induction false} SortStable(k: SortKey, s: seq<Post>, x: Post)
    ensures Filter(TiedWith(k, x), Sort(k, s)) == Filter(TiedWith(k, x), s)
    decreases |s|
  {
    if |s| > 0 {
      SortStable(k, s[1..], x);
      InsertTied(k, x, s[0], Sort(k, s[1..]));
    }
  }

  lemma SortedMembers(k: SortKey, s: seq<Post>, x: Post)
    ensures x in Sort(k, s) <==> x in s
  {
    var r := Sort(k, s);
    assert x in r <==> x in multiset(r);
    assert x in s <==> x in multiset(s);
  }
}

=== FILE: posts.dfy ===
/** The Post record every layer of the blog exchanges: the fields of `BlogPost`
    (src/lib/types.ts) plus the ones the ingestion script adds (reading time, URL
    slug, SEO keywords, author). Dates are integer day numbers. */
module Posts {

  datatype Status = Published | Draft

  datatype Post = Post(
    id: string,
    title: string,
    content: string,
    summary: string,
    tags: seq<string>,
    category: string,
    publishDate: int,
    lastEditTime: string,
    status: Status,
    coverImage: string,       // '' when there is no cover
    readingTime: nat,
    urlSlug: string,
    seoKeywords: string,
    author: string)

  predicate IsPublished(p: Post) {
    p.status == Published
  }
}

=== FILE: search_page.dfy ===
/** The search page (src/app/search/page.tsx) without React: the bounded search history,
    the title-word suggestions, the result filter and its three orders, and what one
    use of a search control does to the filters, the history and the page URL. */
module SearchPage {
  import opened Wrappers
  import opened Seqs
  import opened Text
  import opened Posts
  import opened Ordering
  import BlogList
  import Data

  /** `SearchFilters`. The sort is kept as the string it is: the URL's `sortBy` is cast,
      not checked, so any value can reach the comparator. */
  datatype SearchFilters = SearchFilters(
    query: string,
    category: string,
    tag: string,
    dateFrom: string,
    dateTo: string,
    sortBy: string)

  const Relevance := "relevance"
  const DateOrder := "date"

  // ---------------------------------------------------------------- history

  const HistoryLimit := 10
  const ShownHistoryLimit := 8

  /** `saveToHistory`: a query that is not blank and not yet recorded goes in front, and
      only the nine most recent older entries stay behind it. */
  function SaveToHistory(history: seq<string>, query: string): (r: seq<string>)
    ensures Blank(query) || query in history ==> r == history
    ensures !Blank(query) && query !in history ==>
              |r| > 0 && r[0] == query && r[1..] <= history
              && |r| == (if |history| < HistoryLimit then |history| + 1 else HistoryLimit)
    ensures r != history ==> |r| <= HistoryLimit
    ensures NoDup(history) ==> NoDup(r)
  {
    if Trim(query) != "" && query !in history then
      var kept := JsSlice(history, 0, HistoryLimit - 1);
      TakeSlice(history, HistoryLimit - 1);
      assert forall i | 0 <= i < |kept| :: kept[i] == history[i];
      [query] + kept
    else history
  }

  /** Saving the same query twice records it once. */
  lemma SaveIdempotent(history: seq<string>, query: string)
    ensures SaveToHistory(SaveToHistory(history, query), query) == SaveToHistory(history, query)
  {
  }

  /** From a history of at most ten distinct entries, any run of searches keeps it so. */
  function SaveAll(history: seq<string>, queries: seq<string>): seq<string>
    decreases |queries|
  {
    if |queries| == 0 then history else SaveAll(SaveToHistory(history, queries[0]), queries[1..])
  }

  lemma {:induction false} HistoryStaysBounded(history: seq<string>, queries: seq<string>)
    requires |history| <= HistoryLimit && NoDup(history)
    ensures |SaveAll(history, queries)| <= HistoryLimit && NoDup(SaveAll(history, queries))
    decreases |queries|
  {
    if |queries| > 0 {
      HistoryStaysBounded(SaveToHistory(history, queries[0]), queries[1..]);
    }
  }

  /** The query box saves on every keystroke, so typing a word records its prefixes:
      after `a` and then `a` plus one more character, both sit at the top. */
  lemma KeystrokesAreRecorded(history: seq<string>, a: string, c: char)
    requires !Blank(a) && a !in history && a + [c] !in history
    ensures var h := SaveToHistory(SaveToHistory(history, a), a + [c]);
            |h| >= 2 && h[0] == a + [c] && h[1] == a
  {
    var b := a + [c];
    var h1 := SaveToHistory(history, a);
    SaveAdds(history, a);
    assert b != a by { assert |b| != |a|; }
    NotInSaved(history, a, b);
    assert !Blank(b) by {
      var i :| 0 <= i < |a| && !IsSpace(a[i]);
      assert b[i] == a[i];
    }
    SaveAdds(h1, b);
  }

  /** A saved query sits in front of the older entries, in their order. */
  lemma SaveAdds(history: seq<string>, q: string)
    requires !Blank(q) && q !in history
    ensures var h := SaveToHistory(history, q);
            |h| >= 1 + (if |history| > 0 then 1 else 0) && h[0] == q && forall k | 1 <= k < |h| :: h[k] == history[k - 1]
  {
  }

  /** Saving one query adds no other. */
  lemma NotInSaved(history: seq<string>, q: string, other: string)
    requires other != q && other !in history
    ensures other !in SaveToHistory(history, q)
  {
    var h := SaveToHistory(history, q);
    if h != history {
      assert h == [q] + h[1..];
      assert other !in h[1..];
    }
  }

  /** The history panel: only while the query is empty, at most eight entries. */
  function ShownHistory(history: seq<string>, query: string): (r: seq<string>)
    ensures query != "" ==> r == []
    ensures |r| <= ShownHistoryLimit && r <= history
    ensures query == "" && |history| <= ShownHistoryLimit ==> r == history
  {
    if |history| > 0 && query == "" then
      TakeSlice(history, ShownHistoryLimit);
      JsSlice(history, 0, ShownHistoryLimit)
    else []
  }

  // ---------------------------------------------------------------- suggestions

  const SuggestionLimit := 10
  const ShownSuggestionLimit := 5

  function Titles(posts: seq<Post>): (r: seq<string>)
    ensures |r| == |posts| && forall i | 0 <= i < |posts| :: r[i] == posts[i].title
  {
    seq(|posts|, i requires 0 <= i < |posts| => posts[i].title)
  }

  /** The words of each title in turn. */
  function Words(titles: seq<string>): seq<string> {
    if |titles| == 0 then [] else Split(titles[0], ' ') + Words(titles[1..])
  }

  lemma {:induction false} SplitJoinWords(titles: seq<string>)
    requires |titles| >= 1
    ensures Split(Join(titles, ' '), ' ') == Words(titles)
    decreases |titles|
  {
    if |titles| == 1 {
      assert Words(titles[1..]) == [];
    } else {
      SplitJoinWords(titles[1..]);
      SplitAround(titles[0], Join(titles[1..], ' '), ' ');
    }
  }

  lemma {:induction false} InWords(titles: seq<string>, w: string)
    ensures w in Words(titles) <==> exists i | 0 <= i < |titles| :: w in Split(titles[i], ' ')
    decreases |titles|
  {
    if |titles| > 0 {
      InWords(titles[1..], w);
      assert forall i | 1 <= i < |titles| :: titles[1..][i - 1] == titles[i];
      if w in Split(titles[0], ' ') {
      } else if exists i | 0 <= i < |titles| :: w in Split(titles[i], ' ') {
        var i :| 0 <= i < |titles| && w in Split(titles[i], ' ');
        assert i > 0;
        assert titles[1..][i - 1] == titles[i];
      }
    }
  }

  /** A non-empty piece of the joined titles is a word of one of the titles, and back. */
  lemma PiecesOfTitles(posts: seq<Post>, w: string)
    requires |w| > 0
    ensures w in Split(Join(Titles(posts), ' '), ' ') <==>
              exists i | 0 <= i < |posts| :: w in Split(posts[i].title, ' ')
  {
    var titles := Titles(posts);
    if |titles| == 0 {
      assert Split(Join(titles, ' '), ' ') == [""];
    } else {
      SplitJoinWords(titles);
      InWords(titles, w);
    }
  }

  /** `word => word.length > 2` */
  predicate Long(w: string) { |w| > 2 }

  /** The words of the titles longer than two characters, title by title and in each
      title from left to right, repeats included. */
  function QualifyingWords(posts: seq<Post>): (r: seq<string>)
    ensures forall w :: w in r <==> |w| > 2 && exists i | 0 <= i < |posts| :: w in Split(posts[i].title, ' ')
  {
    var r := Filter(Long, Words(Titles(posts)));
    forall w ensures w in r <==> |w| > 2 && exists i | 0 <= i < |posts| :: w in Split(posts[i].title, ' ') {
      InWords(Titles(posts), w);
    }
    r
  }

  /** Splitting the joined titles at spaces yields the qualifying words of the titles. */
  lemma JoinedPiecesAreWords(posts: seq<Post>)
    ensures Filter(Long, Split(Join(Titles(posts), ' '), ' ')) == QualifyingWords(posts)
  {
    var titles := Titles(posts);
    if |titles| == 0 {
      assert Split(Join(titles, ' '), ' ') == [""];
      assert Filter(Long, [""]) == [];
    } else {
      SplitJoinWords(titles);
    }
  }

  /** The suggestion list built once the posts load: distinct words longer than two
      characters taken from the space-split titles, the first ten of them. */
  function Suggestions(posts: seq<Post>): (r: seq<string>)
    ensures |r| <= SuggestionLimit && NoDup(r)
    ensures forall w | w in r :: |w| > 2 && ' ' !in w && exists i | 0 <= i < |posts| :: w in Split(posts[i].title, ' ')
    ensures forall i, w | 0 <= i < |posts| && w in Split(posts[i].title, ' ') && |w| > 2 ::
              w in r || |r| == SuggestionLimit
  {
    var pieces := Split(Join(Titles(posts), ' '), ' ');
    var words := Filter(Long, pieces);
    var d := Dedupe(words);
    var r := JsSlice(d, 0, SuggestionLimit);
    TakeSlice(d, SuggestionLimit);
    PrefixFacts(d, SuggestionLimit);
    forall w | w in r
      ensures |w| > 2 && ' ' !in w && exists i | 0 <= i < |posts| :: w in Split(posts[i].title, ' ')
    {
      assert w in words;
      var k :| 0 <= k < |pieces| && pieces[k] == w;
      PiecesOfTitles(posts, w);
    }
    forall i, w | 0 <= i < |posts| && w in Split(posts[i].title, ' ') && |w| > 2
      ensures w in r || |r| == SuggestionLimit
    {
      PiecesOfTitles(posts, w);
      assert w in d;
    }
    r
  }

  /** A prefix of at most `k` elements of a sequence: its elements come from the
      sequence, it repeats none the sequence does not, and it misses an element only
      when it is full. */
  lemma PrefixFacts<T>(d: seq<T>, k: nat)
    ensures var r := d[..if k < |d| then k else |d|];
            && (forall x | x in r :: x in d)
            && (forall x | x in d :: x in r || |r| == k)
            && (NoDup(d) ==> NoDup(r))
  {
    var r := d[..if k < |d| then k else |d|];
    forall x | x in r ensures x in d {
      var j :| 0 <= j < |r| && r[j] == x;
      assert d[j] == x;
    }
    if |d| <= k {
      assert r == d;
    }
  }

  /** The suggestions are the first ten distinct qualifying words, in the order of
      their first occurrence in the titles: they keep that order, and a qualifying word
      is missing only when ten words that occur before it fill the list. */
  lemma {:induction false} SuggestionsAreFirstTen(posts: seq<Post>)
    ensures var w := QualifyingWords(posts); var r := Suggestions(posts);
            && (forall x | x in r :: x in w)
            && (forall i, j | 0 <= i < j < |r| :: IndexOf(w, r[i]) < IndexOf(w, r[j]))
            && (forall x | x in w && x !in r ::
                  |r| == SuggestionLimit && forall y | y in r :: IndexOf(w, y) < IndexOf(w, x))
  {
    var w := QualifyingWords(posts);
    JoinedPiecesAreWords(posts);
    TakeSlice(Dedupe(w), SuggestionLimit);
    DedupePrefix(w, SuggestionLimit);
  }

  /** The first `k` values of `Dedupe(w)` are in first-occurrence order, and a value of
      `w` outside them first occurs after all of them, with all `k` places taken. */
  lemma DedupePrefix<T(!new)>(w: seq<T>, k: nat)
    ensures var d := Dedupe(w); var r := d[..if k < |d| then k else |d|];
            && (forall x | x in r :: x in w)
            && (forall i, j | 0 <= i < j < |r| :: IndexOf(w, r[i]) < IndexOf(w, r[j]))
            && (forall x | x in w && x !in r ::
                  |r| == k && forall y | y in r :: IndexOf(w, y) < IndexOf(w, x))
  {
    var d := Dedupe(w);
    var n := if k < |d| then k else |d|;
    var r := d[..n];
    DedupeOrder(w);
    assert forall i | 0 <= i < |r| :: r[i] == d[i];
    forall x | x in w && x !in r
      ensures |r| == k && forall y | y in r :: IndexOf(w, y) < IndexOf(w, x)
    {
      var m :| 0 <= m < |d| && d[m] == x;
      assert m >= n;
      forall y | y in r ensures IndexOf(w, y) < IndexOf(w, x) {
        var l :| 0 <= l < |r| && r[l] == y;
        assert d[l] == y;
      }
    }
  }

  predicate SuggestionMatches(s: string, query: string) {
    Contains(Lower(s), Lower(query))
  }

  /** The test `filter` applies to each suggestion. */
  function MatcherOf(query: string): string -> bool {
    s => SuggestionMatches(s, query)
  }

  /** The suggestions that contain the query, ignoring case, in list order. */
  function HitsOf(suggestions: seq<string>, query: string): (r: seq<string>)
    ensures forall s :: s in r <==> s in suggestions && SuggestionMatches(s, query)
  {
    Filter(MatcherOf(query), suggestions)
  }

  /** The suggestion buttons: none without a query, else the first five suggestions
      that contain it, ignoring case. */
  function ShownSuggestions(suggestions: seq<string>, query: string): (r: seq<string>)
    ensures query == "" ==> r == []
    ensures |r| <= ShownSuggestionLimit
    ensures forall s | s in r :: s in suggestions && SuggestionMatches(s, query)
    ensures query != "" ==>
              forall s | s in suggestions && SuggestionMatches(s, query) :: s in r || |r| == ShownSuggestionLimit
  {
    if query == "" || |suggestions| == 0 then []
    else
      var hits := HitsOf(suggestions, query);
      TakeSlice(hits, ShownSuggestionLimit);
      var r := JsSlice(hits, 0, ShownSuggestionLimit);
      assert forall k | 0 <= k < |r| :: r[k] == hits[k];
      forall x | x in r ensures x in hits {
        var k :| 0 <= k < |r| && r[k] == x;
        assert hits[k] == x;
      }
      assert |hits| <= ShownSuggestionLimit ==> r == hits;
      assert |hits| > ShownSuggestionLimit ==> |r| == ShownSuggestionLimit;
      assert forall s | s in suggestions && SuggestionMatches(s, query) :: s in hits;
      r
  }

  /** With a query, the buttons are the matching suggestions in list order, cut at five:
      as many buttons as matches up to five, and the match that has `n` matches before it
      is button `n` whenever `n` is below five. */
  lemma ShownAreFirstMatches(suggestions: seq<string>, query: string)
    ensures var r := ShownSuggestions(suggestions, query); var hits := HitsOf(suggestions, query);
            query != "" ==>
              && |r| == (if |hits| < ShownSuggestionLimit then |hits| else ShownSuggestionLimit)
              && forall k | 0 <= k < |suggestions| && SuggestionMatches(suggestions[k], query)
                             && |HitsOf(suggestions[..k], query)| < ShownSuggestionLimit ::
                   |HitsOf(suggestions[..k], query)| < |r| && r[|HitsOf(suggestions[..k], query)|] == suggestions[k]
  {
    var r := ShownSuggestions(suggestions, query);
    var hits := HitsOf(suggestions, query);
    if query != "" {
      var n := if ShownSuggestionLimit < |hits| then ShownSuggestionLimit else |hits|;
      TakeSlice(hits, ShownSuggestionLimit);
      assert r == hits[..n];
      forall k | 0 <= k < |suggestions| && SuggestionMatches(suggestions[k], query)
                 && |HitsOf(suggestions[..k], query)| < ShownSuggestionLimit
        ensures |HitsOf(suggestions[..k], query)| < |r| && r[|HitsOf(suggestions[..k], query)|] == suggestions[k]
      {
        MatchAtPosition(suggestions, query, k);
      }
    }
  }

  /** A matching suggestion at position `k` is the match numbered by the matches before it. */
  lemma MatchAtPosition(suggestions: seq<string>, query: string, k: nat)
    requires k < |suggestions| && SuggestionMatches(suggestions[k], query)
    ensures var n := |HitsOf(suggestions[..k], query)|;
            n < |HitsOf(suggestions, query)| && HitsOf(suggestions, query)[n] == suggestions[k]
  {
    var a := suggestions[..k];
    var b := suggestions[k..];
    assert suggestions == a + b;
    FilterConcat(MatcherOf(query), a, b);
    assert b[0] == suggestions[k] && MatcherOf(query)(b[0]);
    assert Filter(MatcherOf(query), b)[0] == suggestions[k];
  }

  // ---------------------------------------------------------------- results

  /** One bound of the date range. `day` is `new Date(...)` on a date string, `None`
      for an Invalid Date, against which every comparison is false. */
  predicate AfterFrom(p: Post, from: string, day: string -> Option<int>) {
    from == "" || (day(from).Some? && p.publishDate >= day(from).value)
  }

  predicate BeforeTo(p: Post, to: string, day: string -> Option<int>) {
    to == "" || (day(to).Some? && p.publishDate <= day(to).value)
  }

  /** The filter callback: query in title, summary or content ignoring case, exact
      category, tag membership and the inclusive date range. */
  predicate Matches(p: Post, f: SearchFilters, day: string -> Option<int>) {
    BlogList.MatchesSearch(p, f.query)
    && (f.category == "" || p.category == f.category)
    && (f.tag == "" || f.tag in p.tags)
    && AfterFrom(p, f.dateFrom, day)
    && BeforeTo(p, f.dateTo, day)
  }

  /** The comparator's three branches; any other `sortBy` falls into the title branch. */
  function KeyOf(f: SearchFilters): SortKey {
    if f.sortBy == Relevance then TitleMatchFirst(Lower(f.query))
    else if f.sortBy == DateOrder then NewestFirst
    else TitleAscending
  }

  /** The filter callback of `searchResults`, as a value. */
  function MatchesOf(f: SearchFilters, day: string -> Option<int>): Post -> bool {
    (p: Post) => Matches(p, f, day)
  }

  /** `searchResults`: every copy of a matching post, reordered. */
  function SearchResults(posts: seq<Post>, f: SearchFilters, day: string -> Option<int>): (r: seq<Post>)
    ensures forall x :: x in r <==> x in posts && Matches(x, f, day)
    ensures multiset(r) == multiset(Filter(MatchesOf(f, day), posts))
    ensures forall x :: multiset(r)[x] == if Matches(x, f, day) then multiset(posts)[x] else 0
    ensures multiset(r) <= multiset(posts)
    ensures f.sortBy == Relevance ==> Sorted(TitleMatchFirst(Lower(f.query)), r)
    ensures f.sortBy == DateOrder ==> Sorted(NewestFirst, r)
    ensures f.sortBy != Relevance && f.sortBy != DateOrder ==> Sorted(TitleAscending, r)
  {
    var kept := Filter(MatchesOf(f, day), posts);
    FilterCount(MatchesOf(f, day), posts);
    var r := Sort(KeyOf(f), kept);
    forall x ensures x in r <==> x in kept {
      SortedMembers(KeyOf(f), kept, x);
    }
    r
  }

  /** With nothing to filter by, every post is a result; the site's `searchPosts`
      returns nothing for the same empty query. */
  lemma EmptyQueryMatchesAll(posts: seq<Post>, f: SearchFilters, day: string -> Option<int>)
    requires f.query == "" && f.category == "" && f.tag == "" && f.dateFrom == "" && f.dateTo == ""
    ensures multiset(SearchResults(posts, f, day)) == multiset(posts)
    ensures Data.SearchPosts(posts, f.query) == []
  {
    FilterAll(MatchesOf(f, day), posts);
    assert Blank(f.query);
  }

  /** A date bound that does not parse lets no post through. */
  lemma InvalidBoundMatchesNothing(posts: seq<Post>, f: SearchFilters, day: string -> Option<int>)
    requires (f.dateFrom != "" && day(f.dateFrom).None?) || (f.dateTo != "" && day(f.dateTo).None?)
    ensures SearchResults(posts, f, day) == []
  {
    var r := SearchResults(posts, f, day);
    forall x | x in posts ensures !Matches(x, f, day) {
    }
    assert forall i | 0 <= i < |r| :: r[i] in r;
  }

  /** Relevance without a query is newest first: every title contains ''. */
  lemma RelevanceWithoutQuery(posts: seq<Post>, f: SearchFilters, day: string -> Option<int>)
    requires f.sortBy == Relevance && f.query == ""
    ensures Sorted(NewestFirst, SearchResults(posts, f, day))
  {
    var r := SearchResults(posts, f, day);
    assert Lower(f.query) == "";
    forall i, j | 0 <= i < j < |r|
      ensures r[i].publishDate >= r[j].publishDate
    {
      ContainsEmpty(Lower(r[i].title));
      ContainsEmpty(Lower(r[j].title));
      assert Before(TitleMatchFirst(""), r[i], r[j]);
    }
  }

  // ---------------------------------------------------------------- URL

  /** `URLSearchParams` as its list of entries. */
  type Params = seq<(string, string)>

  /** `params.get(key)`: the first value stored under `key`. */
  function Get(params: Params, key: string): (r: Option<string>)
    ensures r.None? <==> forall i | 0 <= i < |params| :: params[i].0 != key
    ensures r.Some? ==> (key, r.value) in params
  {
    if |params| == 0 then None
    else if params[0].0 == key then Some(params[0].1)
    else Get(params[1..], key)
  }

  const QueryParam := "q"

  /** The filters the page starts from: each URL value or '', and 'relevance' for a
      missing or empty sort. */
  function ReadFilters(params: Params): (r: SearchFilters)
    ensures r.sortBy != ""
    ensures r.query == "" <==> !Present(Get(params, QueryParam))
  {
    SearchFilters(
      OrElse(Get(params, QueryParam), ""),
      OrElse(Get(params, "category"), ""),
      OrElse(Get(params, "tag"), ""),
      OrElse(Get(params, "dateFrom"), ""),
      OrElse(Get(params, "dateTo"), ""),
      OrElse(Get(params, "sortBy"), Relevance))
  }

  /** `Object.entries` of the filters, with `queryKey` as the query's name. */
  function Fields(f: SearchFilters, queryKey: string): Params {
    [(queryKey, f.query), ("category", f.category), ("tag", f.tag),
     ("dateFrom", f.dateFrom), ("dateTo", f.dateTo), ("sortBy", f.sortBy)]
  }

  /** `if (value) params.set(key, value)` over the entries. */
  function NonEmptyEntries(entries: Params): (r: Params)
    ensures forall e :: e in r <==> e in entries && e.1 != ""
  {
    if |entries| == 0 then []
    else
      var rest := NonEmptyEntries(entries[1..]);
      if entries[0].1 != "" then [entries[0]] + rest else rest
  }

  predicate DistinctKeys(entries: Params) {
    forall i, j | 0 <= i < j < |entries| :: entries[i].0 != entries[j].0
  }

  /** Dropping the empty values loses nothing a `|| default` read would see. */
  lemma {:induction false} ReadNonEmpty(entries: Params, key: string, d: string)
    requires DistinctKeys(entries)
    ensures OrElse(Get(NonEmptyEntries(entries), key), d) == OrElse(Get(entries, key), d)
    decreases |entries|
  {
    if |entries| > 0 {
      var rest := entries[1..];
      assert DistinctKeys(rest) by {
        forall i, j | 0 <= i < j < |rest| ensures rest[i].0 != rest[j].0 {
          assert rest[i] == entries[i + 1] && rest[j] == entries[j + 1];
        }
      }
      ReadNonEmpty(rest, key, d);
      var kept := NonEmptyEntries(rest);
      if entries[0].0 == key && entries[0].1 == "" {
        forall i | 0 <= i < |rest| ensures rest[i].0 != key {
          assert rest[i] == entries[i + 1];
        }
        forall i | 0 <= i < |kept| ensures kept[i].0 != key {
          assert kept[i] in rest;
        }
      }
    }
  }

  /** Under distinct keys, `get` finds each entry's own value. */
  lemma {:induction false} GetAt(entries: Params, i: int)
    requires DistinctKeys(entries) && 0 <= i < |entries|
    ensures Get(entries, entries[i].0) == Some(entries[i].1)
    decreases i
  {
    if i > 0 {
      var rest := entries[1..];
      assert DistinctKeys(rest) by {
        forall a, b | 0 <= a < b < |rest| ensures rest[a].0 != rest[b].0 {
          assert rest[a] == entries[a + 1] && rest[b] == entries[b + 1];
        }
      }
      GetAt(rest, i - 1);
      assert rest[i - 1] == entries[i];
    }
  }

  /** Reading the field stored at `i` back from the non-empty entries. */
  lemma ReadField(entries: Params, i: int, key: string, v: string, d: string)
    requires DistinctKeys(entries) && 0 <= i < |entries| && entries[i] == (key, v)
    ensures OrElse(Get(NonEmptyEntries(entries), key), d) == OrElse(Some(v), d)
  {
    ReadNonEmpty(entries, key, d);
    GetAt(entries, i);
  }

  lemma FieldsDistinct(f: SearchFilters, queryKey: string)
    requires queryKey == QueryParam || queryKey == "query"
    ensures DistinctKeys(Fields(f, queryKey))
  {
    var fs := Fields(f, queryKey);
    assert fs[0].0 == queryKey && fs[1].0 == "category" && fs[2].0 == "tag";
    assert fs[3].0 == "dateFrom" && fs[4].0 == "dateTo" && fs[5].0 == "sortBy";
    assert "category"[0] != "dateFrom"[0];
    assert "dateTo"[0] != "sortBy"[0];
    assert "query"[0] != "sortBy"[0];
  }

  /** The parameters `handleSearch` writes, as written: the query goes under `query`. */
  function BuildParams(f: SearchFilters): (r: Params)
    ensures forall e :: e in r <==> e in Fields(f, "query") && e.1 != ""
  {
    NonEmptyEntries(Fields(f, "query"))
  }

  /** The same with the query under `q`, the name the page reads it back from. */
  function BuildParamsFixed(f: SearchFilters): (r: Params)
    ensures forall e :: e in r <==> e in Fields(f, QueryParam) && e.1 != ""
  {
    NonEmptyEntries(Fields(f, QueryParam))
  }

  /** The filter stored at position `k` of `Fields`. */
  function Value(g: SearchFilters, k: int): string {
    if k == 0 then g.query
    else if k == 1 then g.category
    else if k == 2 then g.tag
    else if k == 3 then g.dateFrom
    else if k == 4 then g.dateTo
    else g.sortBy
  }

  /** One filter other than the query comes back from the URL, whatever name the
      query is written under. */
  lemma ReadOther(f: SearchFilters, queryKey: string, k: int)
    requires DistinctKeys(Fields(f, queryKey))
    requires 1 <= k < 6 && (k == 5 ==> f.sortBy != "")
    ensures Value(ReadFilters(NonEmptyEntries(Fields(f, queryKey))), k) == Value(f, k)
  {
    var fs := Fields(f, queryKey);
    ReadField(fs, k, fs[k].0, Value(f, k), if k == 5 then Relevance else "");
  }

  lemma ReadOthers(f: SearchFilters, queryKey: string)
    requires DistinctKeys(Fields(f, queryKey))
    requires f.sortBy != ""
    ensures var g := ReadFilters(NonEmptyEntries(Fields(f, queryKey)));
            g.category == f.category && g.tag == f.tag && g.dateFrom == f.dateFrom
            && g.dateTo == f.dateTo && g.sortBy == f.sortBy
  {
    ReadOther(f, queryKey, 1);
    ReadOther(f, queryKey, 2);
    ReadOther(f, queryKey, 3);
    ReadOther(f, queryKey, 4);
    ReadOther(f, queryKey, 5);
  }

  /** Reloading the URL the page pushes loses the query: it is written under `query`
      and read from `q`, while the other filters survive. */
  lemma QueryLostInUrl(f: SearchFilters)
    ensures ReadFilters(BuildParams(f)).query == ""
    ensures f.sortBy != "" ==> ReadFilters(BuildParams(f)) == f.(query := "")
  {
    NoQueryKey(f, BuildParams(f));
    if f.sortBy != "" {
      FieldsDistinct(f, "query");
      ReadOthers(f, "query");
    }
  }

  /** No key the as-written builder uses is `q`. */
  lemma NoQueryKey(f: SearchFilters, ps: Params)
    requires forall e :: e in ps <==> e in Fields(f, "query") && e.1 != ""
    ensures Get(ps, QueryParam) == None
  {
    assert forall e | e in Fields(f, "query") :: |e.0| > 1;
    forall i | 0 <= i < |ps| ensures ps[i].0 != QueryParam {
      assert ps[i] in ps;
    }
  }

  /** With the query under `q`, reading the pushed URL gives the filters back. */
  lemma UrlRoundTrip(f: SearchFilters)
    ensures f.sortBy != "" ==> ReadFilters(BuildParamsFixed(f)) == f
  {
    if f.sortBy != "" {
      FieldsDistinct(f, QueryParam);
      ReadOthers(f, QueryParam);
      ReadField(Fields(f, QueryParam), 0, QueryParam, f.query, "");
    }
  }

  /** Any URL, once read and written back, reads the same. */
  lemma UrlReadStable(params: Params)
    ensures ReadFilters(BuildParamsFixed(ReadFilters(params))) == ReadFilters(params)
  {
    UrlRoundTrip(ReadFilters(params));
  }

  // ---------------------------------------------------------------- controls

  /** `Partial<SearchFilters>`: the fields one control sets. */
  datatype Patch = Patch(
    query: Option<string>,
    category: Option<string>,
    tag: Option<string>,
    dateFrom: Option<string>,
    dateTo: Option<string>,
    sortBy: Option<string>)

  /** `{ ...filters, ...newFilters }` */
  function Merge(f: SearchFilters, p: Patch): SearchFilters {
    SearchFilters(
      p.query.GetOr(f.query),
      p.category.GetOr(f.category),
      p.tag.GetOr(f.tag),
      p.dateFrom.GetOr(f.dateFrom),
      p.dateTo.GetOr(f.dateTo),
      p.sortBy.GetOr(f.sortBy))
  }

  datatype SearchState = SearchState(filters: SearchFilters, history: seq<string>)

  datatype Update = Update(state: SearchState, params: Params)

  /** The state `handleSearch` sets: the patch merged into the filters, and a non-empty
      patched query saved to the history. */
  function Apply(st: SearchState, p: Patch): (r: SearchState)
    ensures p.query.Some? ==> r.filters.query == p.query.value
    ensures p.query.None? ==> r.filters.query == st.filters.query
    ensures p.category.Some? ==> r.filters.category == p.category.value
    ensures p.category.None? ==> r.filters.category == st.filters.category
    ensures p.tag.Some? ==> r.filters.tag == p.tag.value
    ensures p.tag.None? ==> r.filters.tag == st.filters.tag
    ensures p.dateFrom.Some? ==> r.filters.dateFrom == p.dateFrom.value
    ensures p.dateFrom.None? ==> r.filters.dateFrom == st.filters.dateFrom
    ensures p.dateTo.Some? ==> r.filters.dateTo == p.dateTo.value
    ensures p.dateTo.None? ==> r.filters.dateTo == st.filters.dateTo
    ensures p.sortBy.Some? ==> r.filters.sortBy == p.sortBy.value
    ensures p.sortBy.None? ==> r.filters.sortBy == st.filters.sortBy
    ensures !Present(p.query) ==> r.history == st.history
    ensures Present(p.query) ==> r.history == SaveToHistory(st.history, p.query.value)
  {
    var h := if Present(p.query) then SaveToHistory(st.history, p.query.value) else st.history;
    SearchState(Merge(st.filters, p), h)
  }

  /** `handleSearch` as written: the new state, and the non-empty filters pushed to the
      URL with the query under `query`, so reading the URL back yields every filter but
      the query. */
  function HandleSearch(st: SearchState, p: Patch): (r: Update)
    ensures r.state == Apply(st, p)
    ensures forall e :: e in r.params <==> e in Fields(r.state.filters, "query") && e.1 != ""
    ensures r.state.filters.sortBy != "" ==> ReadFilters(r.params) == r.state.filters.(query := "")
  {
    var s := Apply(st, p);
    QueryLostInUrl(s.filters);
    Update(s, BuildParams(s.filters))
  }

  /** `handleSearch` with the query written under `q`: reading the URL back yields the
      filters the page shows. */
  function HandleSearchFixed(st: SearchState, p: Patch): (r: Update)
    ensures r.state == Apply(st, p)
    ensures forall e :: e in r.params <==> e in Fields(r.state.filters, QueryParam) && e.1 != ""
    ensures r.state.filters.sortBy != "" ==> ReadFilters(r.params) == r.state.filters
  {
    var s := Apply(st, p);
    UrlRoundTrip(s.filters);
    Update(s, BuildParamsFixed(s.filters))
  }

  /** The "clear all filters" button. */
  const ClearAll := Patch(Some(""), Some(""), Some(""), Some(""), Some(""), Some(Relevance))

  lemma ClearAllResets(st: SearchState)
    ensures HandleSearch(st, ClearAll).state == SearchState(SearchFilters("", "", "", "", "", Relevance), st.history)
    ensures forall e :: e in HandleSearch(st, ClearAll).params <==> e == ("sortBy", Relevance)
  {
    var r := HandleSearch(st, ClearAll);
    assert r.state.filters == SearchFilters("", "", "", "", "", Relevance);
    assert Fields(r.state.filters, QueryParam)[5] == ("sortBy", Relevance);
  }
}

=== FILE: seo.dfy ===
/** The page metadata and structured data of src/lib/seo.ts: the article page's
    fallbacks for description, image and modification time, the search page's title
    and robots rule, the article JSON-LD and the breadcrumb list. The site settings,
    read from the environment in the source, are a parameter. */
module Seo {
  import opened Wrappers
  import opened Text
  import opened Posts

  /** The fields of `SITE_CONFIG` the generators read. */
  datatype SiteConfig = SiteConfig(
    name: string,
    url: string,
    keywords: seq<string>,
    authorName: string,
    authorUrl: string,
    locale: string,
    language: string)

  const DefaultImage := "/og-image.png"
  const ImageWidth := 1200
  const ImageHeight := 630
  const TwitterCard := "summary_large_image"

  /** A time the metadata reports: the edit time text, or the publication day. */
  datatype Stamp = EditStamp(text: string) | PublishDay(day: int)

  datatype Image = Image(url: string, width: int, height: int, alt: string)

  datatype OpenGraph = OpenGraph(
    kind: string,
    locale: string,
    url: string,
    title: string,
    description: string,
    siteName: string,
    publishedTime: Option<Stamp>,
    modifiedTime: Option<Stamp>,
    tags: Option<seq<string>>,
    images: seq<Image>)

  datatype Twitter = Twitter(
    card: string,
    title: string,
    description: string,
    images: seq<string>,
    creator: Option<string>)

  datatype Robots = Robots(index: bool, follow: bool)

  /** The part of Next.js `Metadata` the generators fill in. */
  datatype Metadata = Metadata(
    title: string,
    description: string,
    keywords: seq<string>,
    canonical: string,
    openGraph: OpenGraph,
    twitter: Twitter,
    robots: Option<Robots>)

  // ---------------------------------------------------------------- article page

  const ReadAboutPrefix := "阅读关于\""
  const ReadAboutSuffix := "\"的文章"

  /** `post.summary || '阅读关于"{title}"的文章'` */
  function ArticleDescription(p: Post): (r: string)
    ensures r != ""
    ensures r == p.summary <==> p.summary != ""
    ensures p.summary == "" ==> r == ReadAboutPrefix + p.title + ReadAboutSuffix
  {
    if p.summary != "" then p.summary else ReadAboutPrefix + p.title + ReadAboutSuffix
  }

  /** `post.lastEditTime || publishedTime` */
  function ModifiedTime(p: Post): (r: Stamp)
    ensures r.EditStamp? <==> p.lastEditTime != ""
    ensures r.EditStamp? ==> r.text == p.lastEditTime
    ensures r.PublishDay? ==> r.day == p.publishDate
  {
    if p.lastEditTime != "" then EditStamp(p.lastEditTime) else PublishDay(p.publishDate)
  }

  /** `${SITE_CONFIG.url}/blog/${post.id}` */
  function PostUrl(site: SiteConfig, id: string): string {
    site.url + "/blog/" + id
  }

  /** A post's address names the post: distinct ids give distinct addresses. */
  lemma PostUrlInjective(site: SiteConfig, a: string, b: string)
    ensures PostUrl(site, a) == PostUrl(site, b) <==> a == b
  {
    var n := |site.url + "/blog/"|;
    if PostUrl(site, a) == PostUrl(site, b) {
      assert a == PostUrl(site, a)[n..] == PostUrl(site, b)[n..] == b;
    }
  }

  /** `generateArticleMetadata(post)` */
  function ArticleMetadata(site: SiteConfig, p: Post): (r: Metadata)
    ensures r.title == p.title && r.openGraph.title == p.title && r.twitter.title == p.title
    ensures r.description == ArticleDescription(p)
    ensures r.openGraph.description == r.description && r.twitter.description == r.description
    ensures r.canonical == PostUrl(site, p.id) && r.openGraph.url == r.canonical
    ensures |r.keywords| == |site.keywords| + |p.tags|
    ensures r.keywords[..|site.keywords|] == site.keywords && r.keywords[|site.keywords|..] == p.tags
    ensures r.openGraph.publishedTime == Some(PublishDay(p.publishDate))
    ensures r.openGraph.modifiedTime == Some(ModifiedTime(p))
    ensures |r.openGraph.images| == 1 && |r.twitter.images| == 1
    ensures r.openGraph.images[0].url == r.twitter.images[0]
    ensures r.twitter.images[0] == if p.coverImage != "" then p.coverImage else DefaultImage
    ensures r.robots.None?
  {
    var url := PostUrl(site, p.id);
    var description := ArticleDescription(p);
    var image := if p.coverImage != "" then p.coverImage else DefaultImage;
    Metadata(
      p.title,
      description,
      site.keywords + p.tags,
      url,
      OpenGraph("article", site.locale, url, p.title, description, site.name,
                Some(PublishDay(p.publishDate)), Some(ModifiedTime(p)), Some(p.tags),
                [Image(image, ImageWidth, ImageHeight, p.title)]),
      Twitter(TwitterCard, p.title, description, [image], Some("@dreamblog")),
      None)
  }

  // ---------------------------------------------------------------- search page

  const SearchTitlePrefix := "搜索: "
  const SearchTitleDefault := "搜索文章"
  const SearchDescriptionPrefix := "搜索关于\""
  const SearchDescriptionSuffix := "\"的文章，发现相关内容"
  const SearchDescriptionDefault := "搜索博客文章，找到您感兴趣的内容"
  const SearchKeywords := ["搜索", "查找文章"]

  /** `generateSearchMetadata(query?)`: an absent or empty query gives the generic
      title and description. The page is never indexed. */
  function SearchMetadata(site: SiteConfig, query: Option<string>): (r: Metadata)
    ensures Present(query) ==> r.title == SearchTitlePrefix + query.value
    ensures !Present(query) ==> r.title == SearchTitleDefault
    ensures Present(query) ==> r.description == SearchDescriptionPrefix + query.value + SearchDescriptionSuffix
    ensures !Present(query) ==> r.description == SearchDescriptionDefault
    ensures r.keywords == site.keywords + SearchKeywords
    ensures r.canonical == site.url + "/search"
    ensures r.robots == Some(Robots(false, true))
    ensures r.openGraph.title == r.title && r.twitter.title == r.title
  {
    var url := site.url + "/search";
    var title := if Present(query) then SearchTitlePrefix + query.value else SearchTitleDefault;
    var description :=
      if Present(query) then SearchDescriptionPrefix + query.value + SearchDescriptionSuffix
      else SearchDescriptionDefault;
    Metadata(
      title,
      description,
      site.keywords + SearchKeywords,
      url,
      OpenGraph("website", site.locale, url, title, description, site.name, None, None, None,
                [Image(DefaultImage, ImageWidth, ImageHeight, title)]),
      Twitter(TwitterCard, title, description, [DefaultImage], None),
      Some(Robots(false, true)))
  }

  /** Reads the query back out of a search page title. */
  function QueryOfTitle(title: string): (r: Option<string>)
    ensures r.Some? ==> SearchTitlePrefix + r.value == title
  {
    if |title| >= |SearchTitlePrefix| && title[..|SearchTitlePrefix|] == SearchTitlePrefix
    then Some(title[|SearchTitlePrefix|..])
    else None
  }

  /** The title tells a query page from the generic one and names its query. */
  lemma SearchTitleNamesQuery(site: SiteConfig, query: Option<string>)
    ensures QueryOfTitle(SearchMetadata(site, query).title) == if Present(query) then query else None
  {
    var t := SearchMetadata(site, query).title;
    if Present(query) {
      assert t[..|SearchTitlePrefix|] == SearchTitlePrefix;
      assert t[|SearchTitlePrefix|..] == query.value;
    } else {
      assert t[2] != SearchTitlePrefix[2];
    }
  }

  // ---------------------------------------------------------------- JSON-LD

  /** `array.join(sep)` with a string separator. */
  function JoinWith(xs: seq<string>, sep: string): (r: string)
    ensures xs == [] ==> r == ""
    ensures |xs| == 1 ==> r == xs[0]
  {
    if |xs| == 0 then ""
    else if |xs| == 1 then xs[0]
    else xs[0] + sep + JoinWith(xs[1..], sep)
  }

  /** Every joined element appears in the joined text. */
  lemma {:induction false} JoinedOccur(xs: seq<string>, sep: string, k: int)
    requires 0 <= k < |xs|
    ensures Contains(JoinWith(xs, sep), xs[k])
    decreases |xs|
  {
    var s := JoinWith(xs, sep);
    if k == 0 {
      if |xs| > 1 {
        assert s[..|xs[0]|] == xs[0];
      }
      assert OccursAt(s, xs[0], 0);
    } else {
      JoinedOccur(xs[1..], sep, k - 1);
      var rest := JoinWith(xs[1..], sep);
      var i :| 0 <= i && i + |xs[k]| <= |rest| && OccursAt(rest, xs[k], i);
      var off := |xs[0]| + |sep|;
      assert s == xs[0] + sep + rest;
      assert s[off + i..off + i + |xs[k]|] == rest[i..i + |xs[k]|];
      assert OccursAt(s, xs[k], off + i);
    }
  }

  datatype ArticleJsonLd = ArticleJsonLd(
    headline: string,
    description: string,
    image: string,
    datePublished: int,
    dateModified: Stamp,
    authorName: string,
    authorUrl: string,
    publisherName: string,
    pageId: string,
    keywords: string,
    articleSection: string,
    wordCount: nat,
    inLanguage: string)

  /** `generateArticleJsonLd(post)`. The word count is the content's length in
      characters, and 0 for an empty content. */
  function ArticleJson(site: SiteConfig, p: Post): (r: ArticleJsonLd)
    ensures r.headline == p.title && r.description == p.summary
    ensures r.image == if p.coverImage != "" then p.coverImage else site.url + DefaultImage
    ensures r.datePublished == p.publishDate
    ensures r.wordCount == |p.content|
    ensures r.pageId == PostUrl(site, p.id)
    ensures forall k | 0 <= k < |p.tags| :: Contains(r.keywords, p.tags[k])
  {
    forall k | 0 <= k < |p.tags| ensures Contains(JoinWith(p.tags, ", "), p.tags[k]) {
      JoinedOccur(p.tags, ", ", k);
    }
    ArticleJsonLd(
      p.title,
      p.summary,
      if p.coverImage != "" then p.coverImage else site.url + DefaultImage,
      p.publishDate,
      ModifiedTime(p),
      site.authorName,
      site.authorUrl,
      site.name,
      PostUrl(site, p.id),
      JoinWith(p.tags, ", "),
      p.category,
      if |p.content| > 0 then |p.content| else 0,
      site.language)
  }

  /** The structured data and the page metadata describe the same article: the
      same modification time and page address, and the same image, made absolute when
      it is the site default. */
  lemma JsonLdAgreesWithMetadata(site: SiteConfig, p: Post)
    ensures ArticleJson(site, p).dateModified == ArticleMetadata(site, p).openGraph.modifiedTime.value
    ensures ArticleJson(site, p).pageId == ArticleMetadata(site, p).canonical
    ensures p.coverImage != "" ==> ArticleJson(site, p).image == ArticleMetadata(site, p).twitter.images[0]
    ensures p.coverImage == "" ==> ArticleJson(site, p).image == site.url + ArticleMetadata(site, p).twitter.images[0]
  {
  }

  // ---------------------------------------------------------------- breadcrumbs

  datatype Crumb = Crumb(name: string, url: string)

  datatype ListItem = ListItem(position: int, name: string, item: string)

  /** `generateBreadcrumbJsonLd(items).itemListElement` */
  function Breadcrumbs(items: seq<Crumb>): (r: seq<ListItem>)
    ensures |r| == |items|
    ensures forall i | 0 <= i < |r| :: r[i] == ListItem(i + 1, items[i].name, items[i].url)
  {
    seq(|items|, i requires 0 <= i < |items| => ListItem(i + 1, items[i].name, items[i].url))
  }

  /** The crumbs read back from the list, in order. */
  function Crumbs(list: seq<ListItem>): (r: seq<Crumb>)
    ensures |r| == |list|
    ensures forall i | 0 <= i < |r| :: r[i] == Crumb(list[i].name, list[i].item)
  {
    seq(|list|, i requires 0 <= i < |list| => Crumb(list[i].name, list[i].item))
  }

  /** The list keeps every crumb in its order, numbered 1, 2, ... without gaps. */
  lemma BreadcrumbsRoundTrip(items: seq<Crumb>)
    ensures Crumbs(Breadcrumbs(items)) == items
    ensures forall i | 0 <= i < |items| :: Breadcrumbs(items)[i].position == i + 1
    ensures |items| > 0 ==> Breadcrumbs(items)[|items| - 1].position == |items|
  {
  }
}

=== FILE: seqs.dfy ===
/** `Array.prototype.filter` and what it preserves. */
module Seqs {
  import opened Wrappers

  /** The elements of `s` that satisfy `keep`, in their original order. */
  function Filter<T(!new)>(keep: T -> bool, s: seq<T>): (r: seq<T>)
    ensures |r| <= |s|
    ensures forall x :: x in r <==> x in s && keep(x)
    ensures multiset(r) <= multiset(s)
  {
    if |s| == 0 then []
    else
      var rest := Filter(keep, s[1..]);
      assert s == [s[0]] + s[1..];
      if keep(s[0]) then [s[0]] + rest else rest
  }

  /** A prefix holds no more copies of anything than the whole sequence. */
  lemma TakeMultiset<T>(s: seq<T>, b: nat)
    requires b <= |s|
    ensures multiset(s[..b]) <= multiset(s)
    ensures forall x | x in s[..b] :: x in s
  {
    assert s == s[..b] + s[b..];
  }

  /** Filtering a sequence with a known head. */
  lemma FilterCons<T(!new)>(keep: T -> bool, a: T, u: seq<T>)
    ensures Filter(keep, [a] + u) == (if keep(a) then [a] else []) + Filter(keep, u)
  {
    assert ([a] + u)[1..] == u;
  }

  /** Moving `y` past an element `a` that the filter does not keep together with it
      leaves the filtered sequence unchanged but for where `y` sits. */
  lemma FilterPastOne<T(!new)>(keep: T -> bool, y: T, a: T, u: seq<T>, rest: seq<T>, au: seq<T>, arest: seq<T>)
    requires au == [a] + u && arest == [a] + rest
    requires Filter(keep, u) == (if keep(y) then [y] else []) + Filter(keep, rest)
    requires !(keep(y) && keep(a))
    ensures Filter(keep, au) == (if keep(y) then [y] else []) + Filter(keep, arest)
  {
    FilterCons(keep, a, u);
    FilterCons(keep, a, rest);
  }

  /** Filtering keeps every copy of a kept element and no copy of the others. */
  lemma {:induction false} FilterCount<T(!new)>(keep: T -> bool, s: seq<T>)
    ensures forall x :: multiset(Filter(keep, s))[x] == if keep(x) then multiset(s)[x] else 0
    decreases |s|
  {
    if |s| > 0 {
      FilterCount(keep, s[1..]);
      assert s == [s[0]] + s[1..];
    }
  }

  /** Filtering distributes over concatenation, so the kept elements keep their order. */
  lemma {:induction false} FilterConcat<T(!new)>(keep: T -> bool, a: seq<T>, b: seq<T>)
    ensures Filter(keep, a + b) == Filter(keep, a) + Filter(keep, b)
    decreases |a|
  {
    if |a| == 0 {
      assert a + b == b;
    } else {
      assert (a + b)[1..] == a[1..] + b;
      FilterConcat(keep, a[1..], b);
    }
  }

  /** A predicate and its negation split a sequence's length between them. */
  lemma {:induction false} FilterComplement<T(!new)>(keep: T -> bool, drop: T -> bool, s: seq<T>)
    requires forall x :: drop(x) == !keep(x)
    ensures |Filter(keep, s)| + |Filter(drop, s)| == |s|
    decreases |s|
  {
    if |s| > 0 {
      FilterComplement(keep, drop, s[1..]);
    }
  }

  /** Filtering with a predicate every element satisfies changes nothing. */
  lemma {:induction false} FilterAll<T(!new)>(keep: T -> bool, s: seq<T>)
    requires forall i | 0 <= i < |s| :: keep(s[i])
    ensures Filter(keep, s) == s
    decreases |s|
  {
    if |s| > 0 {
      FilterAll(keep, s[1..]);
      assert s == [s[0]] + s[1..];
    }
  }

  /** The present results of `f` over `xs`, in order: a loop that skips the items whose
      handler failed. */
  function FilterMap<A, B>(f: A -> Option<B>, xs: seq<A>): (r: seq<B>)
    ensures |r| <= |xs|
  {
    if |xs| == 0 then []
    else
      var rest := FilterMap(f, xs[..|xs| - 1]);
      var y := f(xs[|xs| - 1]);
      if y.Some? then rest + [y.value] else rest
  }

  /** Every result comes from some item. */
  lemma {:induction false} FilterMapFrom<A, B>(f: A -> Option<B>, xs: seq<A>)
    ensures forall i | 0 <= i < |FilterMap(f, xs)| :: exists j | 0 <= j < |xs| :: f(xs[j]) == Some(FilterMap(f, xs)[i])
    decreases |xs|
  {
    if |xs| > 0 {
      var init := xs[..|xs| - 1];
      FilterMapFrom(f, init);
      assert forall j | 0 <= j < |init| :: init[j] == xs[j];
      var r := FilterMap(f, xs);
      var rest := FilterMap(f, init);
      forall i | 0 <= i < |r|
        ensures exists j | 0 <= j < |xs| :: f(xs[j]) == Some(r[i])
      {
        if i < |rest| {
          assert r[i] == rest[i];
          var j :| 0 <= j < |init| && f(init[j]) == Some(rest[i]);
          assert f(xs[j]) == Some(r[i]);
        } else {
          assert f(xs[|xs| - 1]) == Some(r[i]);
        }
      }
    } else {
      assert FilterMap(f, xs) == [];
    }
  }

  lemma {:induction false} FilterMapConcat<A, B>(f: A -> Option<B>, a: seq<A>, b: seq<A>)
    ensures FilterMap(f, a + b) == FilterMap(f, a) + FilterMap(f, b)
    decreases |b|
  {
    if |b| == 0 {
      assert a + b == a;
    } else {
      var init := b[..|b| - 1];
      assert (a + b)[..|a + b| - 1] == a + init;
      assert (a + b)[|a + b| - 1] == b[|b| - 1];
      FilterMapConcat(f, a, init);
    }
  }

  lemma FilterMapSingle<A, B>(f: A -> Option<B>, x: A)
    ensures FilterMap(f, [x]) == (if f(x).Some? then [f(x).value] else [])
  {
    assert [x][..0] == [];
  }

  lemma FilterMapPair<A, B>(f: A -> Option<B>, x: A, y: A)
    requires f(x).Some? && f(y).Some?
    ensures FilterMap(f, [x, y]) == [f(x).value, f(y).value]
  {
    FilterMapConcat(f, [x], [y]);
    FilterMapSingle(f, x);
    FilterMapSingle(f, y);
    assert [x] + [y] == [x, y];
  }

  /** Every item's value when every item has one, else `None`: a loop whose first throw
      aborts the whole run. */
  function AllSome<T>(xs: seq<Option<T>>): (r: Option<seq<T>>)
    ensures r.None? <==> exists i | 0 <= i < |xs| :: xs[i].None?
    ensures r.Some? ==> |r.value| == |xs| && forall i | 0 <= i < |xs| :: xs[i] == Some(r.value[i])
  {
    if |xs| == 0 then Some([])
    else
      var init := AllSome(xs[..|xs| - 1]);
      assert forall i | 0 <= i < |xs| - 1 :: xs[..|xs| - 1][i] == xs[i];
      if init.None? || xs[|xs| - 1].None? then None else Some(init.value + [xs[|xs| - 1].value])
  }
}

=== FILE: single_page.dfy ===
/** The single-page inspection script (scripts/fetch-single-page.js): page-id extraction
    from a URL, its own property extractor (which also reads people) and the per-block
    info records of `getPageBlocks`. The Notion client is replaced by the page and the
    block listing it would return. */
module SinglePage {
  import opened Wrappers
  import opened Seqs
  import opened Notion
  import opened Markdown
  import Ingest

  // ---------------------------------------------------------------- page ids

  /** `[a-f0-9]` under the regex's `i` flag. */
  predicate IsHex(c: char) {
    ('0' <= c <= '9') || ('a' <= c <= 'f') || ('A' <= c <= 'F')
  }

  predicate AllHex(s: string) {
    forall i | 0 <= i < |s| :: IsHex(s[i])
  }

  /** The hyphen positions of the 8-4-4-4-12 form. */
  predicate HyphenSlot(i: int) {
    i == 8 || i == 13 || i == 18 || i == 23
  }

  /** The hyphenated 8-4-4-4-12 form of a UUID (section 4 of RFC 9562), either case. */
  predicate IsUuid(s: string) {
    |s| == 36 && forall i | 0 <= i < 36 :: if HyphenSlot(i) then s[i] == '-' else IsHex(s[i])
  }

  predicate NotHyphen(c: char) { c != '-' }

  /** The characters of `s` other than '-', in order. */
  function RemoveHyphens(s: string): (r: string)
    ensures |r| <= |s|
  {
    Filter(NotHyphen, s)
  }

  function Dashed(a: string, b: string, c: string, d: string, e: string): string {
    a + "-" + b + "-" + c + "-" + d + "-" + e
  }

  /** `id.replace(/(.{8})(.{4})(.{4})(.{4})(.{12})/, '$1-$2-$3-$4-$5')` on 32 characters. */
  function Hyphenate(h: string): (r: string)
    requires |h| == 32
    ensures |r| == 36
    ensures AllHex(h) ==> IsUuid(r)
  {
    var r := Dashed(h[..8], h[8..12], h[12..16], h[16..20], h[20..]);
    assert forall i | 0 <= i < 36 ::
      r[i] == (if i < 8 then h[i] else if i == 8 then '-' else if i < 13 then h[i - 1]
               else if i == 13 then '-' else if i < 18 then h[i - 2]
               else if i == 18 then '-' else if i < 23 then h[i - 3]
               else if i == 23 then '-' else h[i - 4]);
    r
  }

  predicate EndsWithUuid(url: string) {
    |url| >= 36 && IsUuid(url[|url| - 36..])
  }

  predicate EndsWithHex32(url: string) {
    |url| >= 32 && AllHex(url[|url| - 32..])
  }

  /** `extractPageId(url)`: the regex is anchored at the end, so its two alternatives can
      only match the last 32 or the last 36 characters. */
  function ExtractPageId(url: string): (r: Option<string>)
    ensures r.Some? <==> EndsWithUuid(url) || EndsWithHex32(url)
    ensures r.Some? ==> IsUuid(r.value)
    ensures EndsWithUuid(url) ==> r == Some(url[|url| - 36..])
    ensures EndsWithHex32(url) ==> r.Some? && RemoveHyphens(r.value) == url[|url| - 32..]
  {
    if EndsWithUuid(url) then
      ShapesExclusive(url);
      Some(url[|url| - 36..])
    else if EndsWithHex32(url) then
      HyphenateRoundTrip(url[|url| - 32..]);
      Some(Hyphenate(url[|url| - 32..]))
    else None
  }

  /** The two alternatives never both match: a hyphenated tail has a hyphen among its
      last 32 characters. */
  lemma ShapesExclusive(url: string)
    ensures EndsWithUuid(url) ==> !EndsWithHex32(url)
  {
    if EndsWithUuid(url) {
      var u, t := url[|url| - 36..], url[|url| - 32..];
      assert t[9] == u[13] == '-';
    }
  }

  lemma HexHasNoHyphen(s: string)
    requires AllHex(s)
    ensures RemoveHyphens(s) == s
  {
    FilterAll(NotHyphen, s);
  }

  /** Removing hyphens around one hyphen removes it and works on each side. */
  lemma RemoveHyphensAround(x: string, y: string)
    ensures RemoveHyphens(x + "-" + y) == RemoveHyphens(x) + RemoveHyphens(y)
  {
    assert Filter(NotHyphen, "-") == [];
    FilterConcat(NotHyphen, x, "-");
    FilterConcat(NotHyphen, x + "-", y);
  }

  /** Removing the hyphens of a dashed group joins its hex parts. */
  lemma RemoveHyphensDashed(a: string, b: string, c: string, d: string, e: string)
    requires AllHex(a) && AllHex(b) && AllHex(c) && AllHex(d) && AllHex(e)
    ensures RemoveHyphens(Dashed(a, b, c, d, e)) == a + b + c + d + e
  {
    HexHasNoHyphen(a);
    HexHasNoHyphen(b);
    HexHasNoHyphen(c);
    HexHasNoHyphen(d);
    HexHasNoHyphen(e);
    var ab := a + "-" + b;
    var abc := ab + "-" + c;
    var abcd := abc + "-" + d;
    RemoveHyphensAround(a, b);
    RemoveHyphensAround(ab, c);
    RemoveHyphensAround(abc, d);
    RemoveHyphensAround(abcd, e);
    assert Dashed(a, b, c, d, e) == abcd + "-" + e;
  }

  /** Hyphenating 32 hex characters and removing the hyphens again gives them back. */
  lemma HyphenateRoundTrip(h: string)
    requires |h| == 32 && AllHex(h)
    ensures RemoveHyphens(Hyphenate(h)) == h
  {
    RemoveHyphensDashed(h[..8], h[8..12], h[12..16], h[16..20], h[20..]);
    assert h[..8] + h[8..12] + h[12..16] + h[16..20] + h[20..] == h;
  }

  /** Conversely a hyphenated id is the hyphenation of its hex digits. */
  lemma CompactRoundTrip(u: string)
    requires IsUuid(u)
    ensures |RemoveHyphens(u)| == 32 && AllHex(RemoveHyphens(u))
    ensures Hyphenate(RemoveHyphens(u)) == u
  {
    var a, b, c, d, e := u[..8], u[9..13], u[14..18], u[19..23], u[24..];
    assert AllHex(a) && AllHex(b) && AllHex(c) && AllHex(d) && AllHex(e) by {
      assert forall i | 0 <= i < |b| :: b[i] == u[9 + i];
      assert forall i | 0 <= i < |c| :: c[i] == u[14 + i];
      assert forall i | 0 <= i < |d| :: d[i] == u[19 + i];
      assert forall i | 0 <= i < |e| :: e[i] == u[24 + i];
    }
    assert u == Dashed(a, b, c, d, e);
    RemoveHyphensDashed(a, b, c, d, e);
    var h := a + b + c + d + e;
    assert h[..8] == a && h[8..12] == b && h[12..16] == c && h[16..20] == d && h[20..] == e;
  }

  /** Hyphenating five hex groups of the right lengths puts a hyphen between them. */
  lemma HyphenateGroups(a: string, b: string, c: string, d: string, e: string)
    requires |a| == 8 && |b| == 4 && |c| == 4 && |d| == 4 && |e| == 12
    ensures Hyphenate(a + b + c + d + e) == Dashed(a, b, c, d, e)
  {
    var h := a + b + c + d + e;
    assert h[..8] == a && h[8..12] == b && h[12..16] == c && h[16..20] == d && h[20..] == e;
  }

  lemma AllHexConcat(a: string, b: string)
    requires AllHex(a) && AllHex(b)
    ensures AllHex(a + b)
  {
  }

  /** A URL whose 32 hex characters follow a character outside the hex class. */
  lemma ExtractAfterSlug(url: string, prefix: string, h: string)
    requires url == prefix + h
    requires |prefix| >= 4 && !IsHex(prefix[|prefix| - 4])
    requires |h| == 32 && AllHex(h)
    ensures ExtractPageId(url) == Some(Hyphenate(h))
  {
    assert url[|url| - 32..] == h;
    assert url[|url| - 36..][0] == prefix[|prefix| - 4];
  }

  /** The id in the script's own URL is 32 hex characters. */
  lemma ScriptIdIsHex()
    ensures AllHex("249c5a0e" + "bbe6" + "8017" + "867a" + "fe54d8fe8f2e")
  {
    var a, b, c, d, e := "249c5a0e", "bbe6", "8017", "867a", "fe54d8fe8f2e";
    assert AllHex(a) by {
      assert a[0] == '2' && a[1] == '4' && a[2] == '9' && a[3] == 'c';
      assert a[4] == '5' && a[5] == 'a' && a[6] == '0' && a[7] == 'e';
    }
    assert AllHex(b) by { assert b[0] == 'b' && b[1] == 'b' && b[2] == 'e' && b[3] == '6'; }
    assert AllHex(c) by { assert c[0] == '8' && c[1] == '0' && c[2] == '1' && c[3] == '7'; }
    assert AllHex(d) by { assert d[0] == '8' && d[1] == '6' && d[2] == '7' && d[3] == 'a'; }
    assert AllHex(e) by {
      assert e[0] == 'f' && e[1] == 'e' && e[2] == '5' && e[3] == '4' && e[4] == 'd' && e[5] == '8';
      assert e[6] == 'f' && e[7] == 'e' && e[8] == '8' && e[9] == 'f' && e[10] == '2' && e[11] == 'e';
    }
    AllHexConcat(a, b);
    AllHexConcat(a + b, c);
    AllHexConcat(a + b + c, d);
    AllHexConcat(a + b + c + d, e);
  }

  /** The script's id, hyphenated. */
  lemma ScriptIdHyphenated(h: string, id: string)
    requires h == "249c5a0e" + "bbe6" + "8017" + "867a" + "fe54d8fe8f2e"
    requires id == "249c5a0e" + "-" + "bbe6" + "-" + "8017" + "-" + "867a" + "-" + "fe54d8fe8f2e"
    ensures Hyphenate(h) == id
  {
    HyphenateGroups("249c5a0e", "bbe6", "8017", "867a", "fe54d8fe8f2e");
  }

  /** The URL in the script's own `main`. */
  lemma ScriptUrlExample(url: string, id: string)
    requires url == "https://www.notion.so/post-4-" + ("249c5a0e" + "bbe6" + "8017" + "867a" + "fe54d8fe8f2e")
    requires id == "249c5a0e" + "-" + "bbe6" + "-" + "8017" + "-" + "867a" + "-" + "fe54d8fe8f2e"
    ensures ExtractPageId(url) == Some(id)
  {
    var h := "249c5a0e" + "bbe6" + "8017" + "867a" + "fe54d8fe8f2e";
    var prefix := "https://www.notion.so/post-4-";
    ScriptIdIsHex();
    assert prefix[|prefix| - 4] == 't';
    ExtractAfterSlug(url, prefix, h);
    ScriptIdHyphenated(h, id);
  }

  // ---------------------------------------------------------------- properties

  /** `person.name || person.id` */
  function PersonLabel(p: Person): (r: string)
    ensures Present(p.name) ==> r == p.name.value
    ensures !Present(p.name) ==> r == p.id
  {
    OrElse(p.name, p.id)
  }

  /** `getPropertyValue(property)` of this script: the ingestion extractor plus `people`. */
  function GetPropertyValue(p: Option<Property>): (r: Value)
    ensures p.Some? && p.value.PeopleProp? ==>
              r.Texts? && |r.items| == |p.value.people.GetOr([])|
              && forall i | 0 <= i < |r.items| :: r.items[i] == PersonLabel(p.value.people.value[i])
    ensures !(p.Some? && p.value.PeopleProp?) ==> r == Ingest.GetPropertyValue(p)
    ensures p.Some? && p.value.DateProp? ==>
              (r == Null <==> p.value.start.None? || p.value.start.value == Invalid(""))
  {
    if p.Some? && p.value.PeopleProp? then
      var people := p.value.people.GetOr([]);
      Texts(seq(|people|, i requires 0 <= i < |people| => PersonLabel(people[i])))
    else Ingest.GetPropertyValue(p)
  }

  /** People come out as names, falling back to the id per person, where the ingestion
      extractor gives null. */
  lemma PeopleExample()
    ensures GetPropertyValue(Some(PeopleProp(Some([Person(Some("Ann"), "u1"), Person(None, "u2")]))))
            == Texts(["Ann", "u2"])
    ensures Ingest.GetPropertyValue(Some(PeopleProp(Some([Person(Some("Ann"), "u1")])))) == Null
  {
  }

  /** The extracted properties of `getPageInfo`. */
  datatype PageInfo = PageInfo(id: string, lastEditedTime: string, properties: map<string, Value>)

  function GetPageInfo(page: Ingest.Page): (r: PageInfo)
    ensures r.id == page.id && r.lastEditedTime == page.lastEditedTime
    ensures r.properties.Keys == page.properties.Keys
  {
    PageInfo(page.id, page.lastEditedTime,
             map k | k in page.properties :: GetPropertyValue(Some(page.properties[k])))
  }

  /** On every column that is not a people column, the page info shows exactly what the
      ingestion script reads. */
  lemma PageInfoAgreesWithIngestion(page: Ingest.Page, k: string)
    requires k in page.properties && !page.properties[k].PeopleProp?
    ensures GetPageInfo(page).properties[k] == Ingest.Field(page, k)
  {
  }

  // ---------------------------------------------------------------- blocks

  /** The kinds whose case dereferences the missing payload: the text kinds and image. */
  predicate Throws(b: Block) {
    b.Missing? && (b.kind in ThrowingKinds || b.kind == "image")
  }

  /** What the script logs for one block (its `blockContent`), or `None` when the case
      throws. */
  function Preview(b: Block): (r: Option<string>)
    ensures r.None? <==> Throws(b)
    ensures IsTextBlock(b) ==> r == Some(PlainText(b.text))
    ensures b.Divider? || b == Missing("divider") ==> r == Some("---")
  {
    if Throws(b) then None
    else if IsTextBlock(b) then Some(PlainText(b.text))
    else if b.Image? then
      Some("[图片: " + OrElse(Some(PlainText(b.caption)), "无标题") + "]")
    else if b.Divider? || b == Missing("divider") then Some("---")
    else Some("[" + KindName(b) + " 块]")
  }

  /** An image previews with its caption, or 无标题 without one; a block of any kind the
      switch does not name previews as its type name. */
  lemma PreviewLabels(src: FileRef, caption: string, k: string, rt: Option<RichText>)
    requires k !in KnownKinds
    ensures caption != "" ==> Preview(Image(src, Runs([TextRun(Some(caption))]))) == Some("[图片: " + caption + "]")
    ensures Preview(Image(src, NotArray)) == Some("[图片: 无标题]")
    ensures Preview(Other(k, rt)) == Some("[" + k + " 块]")
    ensures Preview(Video(src)) == Some("[video 块]")
  {
    assert RunsText([TextRun(Some(caption))]) == caption + RunsText([]);
    assert caption + RunsText([]) == caption;
    assert "[图片: " + "无标题" + "]" == "[图片: 无标题]";
    assert "[" + "video" + " 块]" == "[video 块]";
  }

  /** The preview of a text block is the text the Markdown converter wraps, and this
      script throws wherever the converter does (and on a missing image payload too). */
  lemma PreviewMatchesConverter(b: Block)
    ensures IsTextBlock(b) ==> ConvertBlock(b) == Some(Line(Opener(b), Preview(b).value, Closer(b)))
    ensures ConvertBlock(b).None? ==> Preview(b).None?
    ensures Preview(Missing("image")).None? && ConvertBlock(Missing("image")).Some?
  {
    if IsTextBlock(b) {
      TextBlockFragment(b);
    }
  }

  /** The info record of one block. */
  datatype BlockInfo = BlockInfo(
    id: string,
    kind: string,
    content: Option<string>,
    imageUrl: Option<string>,
    caption: Option<string>)

  /** The `blockInfo` built for one listed block, or `None` when its case throws. */
  function Info(rec: BlockRecord): (r: Option<BlockInfo>)
    ensures r.None? <==> Throws(rec.block)
    ensures r.Some? ==> r.value.id == rec.id && r.value.kind == KindName(rec.block)
    ensures r.Some? && IsTextBlock(rec.block) ==> r.value.content == Preview(rec.block)
    ensures r.Some? && !IsTextBlock(rec.block) ==> r.value.content.None?
    ensures r.Some? ==> (r.value.imageUrl.Some? ==> rec.block.Image?)
  {
    var b := rec.block;
    if Throws(b) then None
    else
      Some(BlockInfo(
        id := rec.id,
        kind := KindName(b),
        content := if IsTextBlock(b) then Some(PlainText(b.text)) else None,
        imageUrl := if b.Image? then MediaUrl(b.source) else None,
        caption := if b.Image? then Some(PlainText(b.caption)) else None))
  }

  /** The first (and only) page of the children listing. */
  function FirstRecords(recs: seq<BlockRecord>): (r: seq<BlockRecord>)
    ensures |r| == if |recs| <= PageSize then |recs| else PageSize
    ensures r == recs[..|r|]
  {
    if |recs| <= PageSize then recs else recs[..PageSize]
  }

  /** `getPageBlocks(pageId)`: one info record per listed block, in order; a failed
      listing or any throwing block fails the whole call. */
  function GetPageBlocks(listing: Option<seq<BlockRecord>>): (r: Option<seq<BlockInfo>>)
    ensures listing.None? ==> r.None?
    ensures listing.Some? ==>
              (r.None? <==> exists i | 0 <= i < |FirstRecords(listing.value)| :: Throws(FirstRecords(listing.value)[i].block))
    ensures r.Some? ==>
              var recs := FirstRecords(listing.value);
              |r.value| == |recs|
              && forall i | 0 <= i < |recs| ::
                   && Info(recs[i]).Some? && r.value[i] == Info(recs[i]).value
                   && r.value[i].id == recs[i].id && r.value[i].kind == KindName(recs[i].block)
  {
    if listing.None? then None
    else
      var recs := FirstRecords(listing.value);
      var infos := seq(|recs|, i requires 0 <= i < |recs| => Info(recs[i]));
      assert forall i | 0 <= i < |recs| :: infos[i] == Info(recs[i]);
      AllSome(infos)
  }
}

=== FILE: slug.dfy ===
/** URL slug derivation of the ingestion script (`generateSlug`): lower-case the title,
    drop every character outside `[\w\s-]`, turn every run of `[\s_-]` into one hyphen,
    and strip leading and trailing hyphens. The regular expressions are written as
    character-class predicates. */
module Slug {
  import opened Text

  predicate IsUpper(c: char) { 'A' <= c <= 'Z' }

  /** ASCII letters and digits: what survives into a slug. */
  predicate IsAlnum(c: char) {
    'a' <= c <= 'z' || 'A' <= c <= 'Z' || '0' <= c <= '9'
  }

  /** `\w` */
  predicate IsWordChar(c: char) { IsAlnum(c) || c == '_' }

  /** `[\w\s-]`: the characters the first replacement keeps. */
  predicate Kept(c: char) { IsWordChar(c) || IsSpace(c) || c == '-' }

  /** `[\s_-]`: the characters the second replacement collapses. */
  predicate IsSep(c: char) { IsSpace(c) || c == '_' || c == '-' }

  predicate SlugChar(c: char) { 'a' <= c <= 'z' || '0' <= c <= '9' || c == '-' }

  predicate NoUpper(s: string) { forall i | 0 <= i < |s| :: !IsUpper(s[i]) }

  /** What the first replacement leaves of a lower-cased title. */
  predicate Cleaned(s: string) { forall i | 0 <= i < |s| :: Kept(s[i]) && !IsUpper(s[i]) }

  predicate SlugChars(s: string) { forall i | 0 <= i < |s| :: SlugChar(s[i]) }

  predicate NoDoubleHyphen(s: string) {
    forall i | 0 <= i < |s| - 1 :: !(s[i] == '-' && s[i + 1] == '-')
  }

  /** The shape of every derived slug: `[a-z0-9-]*`, no hyphen at either end, no two
      hyphens in a row. */
  predicate IsSlug(s: string) {
    && SlugChars(s)
    && (s == "" || (s[0] != '-' && s[|s| - 1] != '-'))
    && NoDoubleHyphen(s)
  }

  /** The letters and digits of `s`, in order. */
  function Alnums(s: string): string {
    if |s| == 0 then "" else (if IsAlnum(s[0]) then [s[0]] else "") + Alnums(s[1..])
  }

  lemma {:induction false} AlnumsConcat(a: string, b: string)
    ensures Alnums(a + b) == Alnums(a) + Alnums(b)
    decreases |a|
  {
    if |a| > 0 {
      assert (a + b)[1..] == a[1..] + b;
      AlnumsConcat(a[1..], b);
    } else {
      assert a + b == b;
    }
  }

  lemma {:induction false} AlnumsLower(s: string)
    ensures Alnums(Lower(s)) == Lower(Alnums(s))
    decreases |s|
  {
    if |s| > 0 {
      AlnumsLower(s[1..]);
      assert Lower(s)[1..] == Lower(s[1..]);
      LowerConcat(if IsAlnum(s[0]) then [s[0]] else "", Alnums(s[1..]));
    }
  }

  // ---------------------------------------------------------------- the three replacements

  /** `.replace(/[^\w\s-]/g, '')` */
  function KeepAllowed(s: string): (r: string)
    ensures |r| <= |s|
    ensures NoUpper(s) ==> Cleaned(r)
    ensures Alnums(r) == Alnums(s)
  {
    if |s| == 0 then ""
    else
      var rest := KeepAllowed(s[1..]);
      var head := if Kept(s[0]) then [s[0]] else "";
      AlnumsConcat(head, rest);
      head + rest
  }

  /** Only characters of `[\w\s-]` remain, and a string made of them alone is left as
      it is. */
  lemma KeepAllowedChars(s: string)
    ensures forall i | 0 <= i < |KeepAllowed(s)| :: Kept(KeepAllowed(s)[i])
    ensures (forall i | 0 <= i < |s| :: Kept(s[i])) ==> KeepAllowed(s) == s
  {
    KeepAllowedOnlyKept(s);
    if forall i | 0 <= i < |s| :: Kept(s[i]) {
      KeepAllowedAllKept(s);
    }
  }

  lemma {:induction false} KeepAllowedOnlyKept(s: string)
    ensures forall i | 0 <= i < |KeepAllowed(s)| :: Kept(KeepAllowed(s)[i])
    decreases |s|
  {
    if |s| > 0 {
      KeepAllowedOnlyKept(s[1..]);
      var rest := KeepAllowed(s[1..]);
      var head := if Kept(s[0]) then [s[0]] else "";
      var r := KeepAllowed(s);
      assert r == head + rest;
      forall i | 0 <= i < |r| ensures Kept(r[i]) {
        if i < |head| {
          assert r[i] == s[0];
        } else {
          assert r[i] == rest[i - |head|];
        }
      }
    }
  }

  lemma {:induction false} KeepAllowedAllKept(s: string)
    requires forall i | 0 <= i < |s| :: Kept(s[i])
    ensures KeepAllowed(s) == s
    decreases |s|
  {
    if |s| > 0 {
      var t := s[1..];
      assert forall i | 0 <= i < |t| :: t[i] == s[i + 1];
      KeepAllowedAllKept(t);
      assert Kept(s[0]);
      assert KeepAllowed(s) == [s[0]] + t;
      assert s == [s[0]] + t;
    }
  }

  /** The replacement works character by character: a character outside `[\w\s-]` is
      removed, any other is kept, so it distributes over concatenation. */
  lemma {:induction false} KeepAllowedConcat(a: string, b: string)
    ensures KeepAllowed(a + b) == KeepAllowed(a) + KeepAllowed(b)
    ensures |a| == 1 ==> KeepAllowed(a) == (if Kept(a[0]) then a else "")
    decreases |a|
  {
    if |a| == 0 {
      assert a + b == b;
    } else {
      assert (a + b)[0] == a[0] && (a + b)[1..] == a[1..] + b;
      KeepAllowedConcat(a[1..], b);
    }
  }

  /** Drops a leading run of separators. */
  function DropSeps(s: string): (r: string)
    ensures |r| <= |s| && r == s[|s| - |r|..]
    ensures r == "" || !IsSep(r[0])
    ensures Cleaned(s) ==> Cleaned(r)
    ensures Alnums(r) == Alnums(s)
  {
    if |s| > 0 && IsSep(s[0]) then
      assert Alnums(s) == Alnums(s[1..]);
      assert Cleaned(s) ==> Cleaned(s[1..]);
      var r := DropSeps(s[1..]);
      assert s[1..][|s| - 1 - |r|..] == s[|s| - |r|..];
      r
    else s
  }

  /** `.replace(/[\s_-]+/g, '-')`: each maximal separator run becomes one hyphen
      (`CollapseRun`), everything else passes through (`CollapseWord`). */
  function CollapseSeps(s: string): (r: string)
    ensures Cleaned(s) ==> SlugChars(r)
    ensures NoDoubleHyphen(r)
    ensures |r| > 0 && r[0] == '-' ==> |s| > 0 && IsSep(s[0])
    ensures Alnums(r) == Alnums(s)
    decreases |s|
  {
    if |s| == 0 then ""
    else if IsSep(s[0]) then
      var t := DropSeps(s[1..]);
      var rest := CollapseSeps(t);
      assert Cleaned(s) ==> Cleaned(s[1..]);
      AlnumsConcat("-", rest);
      ConsFacts('-', rest);
      "-" + rest
    else
      var rest := CollapseSeps(s[1..]);
      assert Cleaned(s) ==> Cleaned(s[1..]) && SlugChar(s[0]);
      AlnumsConcat([s[0]], rest);
      ConsFacts(s[0], rest);
      [s[0]] + rest
  }

  /** Putting one character in front keeps the slug character set and, unless a
      hyphen meets a hyphen, the absence of double hyphens. */
  lemma ConsFacts(c: char, rest: string)
    requires NoDoubleHyphen(rest)
    requires c == '-' ==> rest == "" || rest[0] != '-'
    ensures NoDoubleHyphen([c] + rest)
    ensures SlugChar(c) && SlugChars(rest) ==> SlugChars([c] + rest)
  {
    var r := [c] + rest;
    forall i | 0 <= i < |r| - 1
      ensures !(r[i] == '-' && r[i + 1] == '-')
    {
      if i > 0 {
        assert r[i] == rest[i - 1] && r[i + 1] == rest[i];
      }
    }
  }

  /** Characters other than separators pass through the collapse unchanged. */
  lemma {:induction false} CollapseWord(a: string, t: string)
    requires forall i | 0 <= i < |a| :: !IsSep(a[i])
    ensures CollapseSeps(a + t) == a + CollapseSeps(t)
    decreases |a|
  {
    if |a| == 0 {
      assert a + t == t;
    } else {
      var s := a + t;
      var b := a[1..];
      var x := CollapseSeps(t);
      assert s[0] == a[0] && s[1..] == b + t;
      assert !IsSep(s[0]);
      assert forall i | 0 <= i < |b| :: !IsSep(b[i]) by {
        assert forall i | 0 <= i < |b| :: b[i] == a[i + 1];
      }
      CollapseOtherHead(s);
      CollapseWord(b, t);
      ConsAppend(a, x);
    }
  }

  lemma ConsAppend(a: string, x: string)
    requires |a| > 0
    ensures [a[0]] + (a[1..] + x) == a + x
  {
    assert a == [a[0]] + a[1..];
  }

  /** A maximal run of separators, however long and however mixed, becomes one hyphen. */
  lemma CollapseRun(u: string, t: string)
    requires |u| > 0 && forall i | 0 <= i < |u| :: IsSep(u[i])
    requires t == "" || !IsSep(t[0])
    ensures CollapseSeps(u + t) == "-" + CollapseSeps(t)
  {
    var s := u + t;
    var v := u[1..];
    assert forall i | 0 <= i < |v| :: IsSep(v[i]) by {
      assert forall i | 0 <= i < |v| :: v[i] == u[i + 1];
    }
    TailAppend(u, t);
    DropSepRun(v, t);
    assert s[0] == u[0];
    CollapseSepStep(s);
  }

  lemma TailAppend(u: string, t: string)
    requires |u| > 0
    ensures (u + t)[1..] == u[1..] + t
  {
  }

  lemma CollapseSepStep(s: string)
    requires |s| > 0 && IsSep(s[0])
    ensures CollapseSeps(s) == "-" + CollapseSeps(DropSeps(s[1..]))
  {
  }

  lemma {:induction false} DropSepRun(u: string, t: string)
    requires forall i | 0 <= i < |u| :: IsSep(u[i])
    requires t == "" || !IsSep(t[0])
    ensures DropSeps(u + t) == t
    decreases |u|
  {
    if |u| == 0 {
      assert u + t == t;
    } else {
      assert (u + t)[0] == u[0] && (u + t)[1..] == u[1..] + t;
      DropSepRun(u[1..], t);
    }
  }

  function DropLeadingHyphens(s: string): (r: string)
    ensures |r| <= |s| && r == s[|s| - |r|..]
    ensures r == "" || r[0] != '-'
    ensures SlugChars(s) ==> SlugChars(r)
    ensures NoDoubleHyphen(s) ==> NoDoubleHyphen(r)
    ensures Alnums(r) == Alnums(s)
  {
    if |s| > 0 && s[0] == '-' then
      assert Alnums(s) == Alnums(s[1..]);
      NoDoubleInfix(s, 1, |s|);
      assert s[1..] == s[1..|s|];
      var r := DropLeadingHyphens(s[1..]);
      assert s[1..][|s| - 1 - |r|..] == s[|s| - |r|..];
      r
    else s
  }

  function DropTrailingHyphens(s: string): (r: string)
    ensures |r| <= |s| && r == s[..|r|]
    ensures r == "" || r[|r| - 1] != '-'
    ensures SlugChars(s) ==> SlugChars(r)
    ensures NoDoubleHyphen(s) ==> NoDoubleHyphen(r)
    ensures Alnums(r) == Alnums(s)
  {
    if |s| > 0 && s[|s| - 1] == '-' then
      var t := s[..|s| - 1];
      assert s == t + "-";
      AlnumsConcat(t, "-");
      DropTrailingHyphens(t)
    else s
  }

  /** `.replace(/^-+|-+$/g, '')` */
  function TrimHyphens(s: string): string {
    DropTrailingHyphens(DropLeadingHyphens(s))
  }

  /** `generateSlug(title)` */
  function GenerateSlug(title: string): string {
    TrimHyphens(CollapseSeps(KeepAllowed(Lower(title))))
  }

  // ---------------------------------------------------------------- what a slug is

  lemma NoDoubleInfix(s: string, i: int, j: int)
    requires 0 <= i <= j <= |s|
    ensures NoDoubleHyphen(s) ==> NoDoubleHyphen(s[i..j])
  {
    var t := s[i..j];
    if NoDoubleHyphen(s) {
      forall k | 0 <= k < |t| - 1
        ensures !(t[k] == '-' && t[k + 1] == '-')
      {
        assert t[k] == s[i + k] && t[k + 1] == s[i + k + 1];
      }
    }
  }

  /** Every derived slug has the slug shape, and keeps exactly the ASCII letters and
      digits of the title, lower-cased and in order. */
  lemma SlugShape(title: string)
    ensures IsSlug(GenerateSlug(title))
    ensures Alnums(GenerateSlug(title)) == Lower(Alnums(title))
  {
    var l := Lower(title);
    assert NoUpper(l);
    var k := KeepAllowed(l);
    var c := CollapseSeps(k);
    var d := DropLeadingHyphens(c);
    var e := DropTrailingHyphens(d);
    assert GenerateSlug(title) == e;
    assert SlugChars(c) && NoDoubleHyphen(c);
    assert SlugChars(e) && NoDoubleHyphen(e);
    if e != "" {
      assert e[0] == d[0];
    }
    AlnumsLower(title);
    assert Alnums(e) == Alnums(l);
  }

  /** A string that already has the slug shape is its own slug. */
  lemma SlugFixedPoint(s: string)
    requires IsSlug(s)
    ensures GenerateSlug(s) == s
  {
    LowerNoUpper(s);
    KeepAllKept(s);
    CollapseSlug(s);
  }

  lemma LowerNoUpper(s: string)
    requires SlugChars(s)
    ensures Lower(s) == s
  {
  }

  lemma KeepAllKept(s: string)
    requires SlugChars(s)
    ensures KeepAllowed(s) == s
  {
    assert forall i | 0 <= i < |s| :: SlugChar(s[i]) && Kept(s[i]);
    KeepAllowedChars(s);
  }

  lemma {:induction false} CollapseSlug(s: string)
    requires SlugChars(s)
    requires NoDoubleHyphen(s)
    ensures CollapseSeps(s) == s
    decreases |s|
  {
    if |s| > 0 {
      var t := s[1..];
      SlugTail(s);
      CollapseSlug(t);
      if s[0] == '-' {
        CollapseSepHead(s, t);
      } else {
        CollapseOtherHead(s);
      }
      assert s == [s[0]] + t;
    }
  }

  /** The tail of a slug-shaped string is slug-shaped, and a hyphen is followed by a
      letter or digit. */
  lemma SlugTail(s: string)
    requires SlugChars(s) && NoDoubleHyphen(s) && |s| > 0
    ensures SlugChars(s[1..]) && NoDoubleHyphen(s[1..])
    ensures s[0] == '-' ==> s[1..] == "" || !IsSep(s[1..][0])
    ensures s[0] != '-' ==> !IsSep(s[0])
  {
    NoDoubleInfix(s, 1, |s|);
    assert s[1..] == s[1..|s|];
    if s[0] == '-' && |s| > 1 {
      assert s[1] != '-' && SlugChar(s[1]);
    }
  }

  lemma CollapseSepHead(s: string, t: string)
    requires |s| > 0 && IsSep(s[0]) && t == s[1..]
    requires t == "" || !IsSep(t[0])
    ensures CollapseSeps(s) == "-" + CollapseSeps(t)
  {
    assert DropSeps(t) == t;
  }

  lemma CollapseOtherHead(s: string)
    requires |s| > 0 && !IsSep(s[0])
    ensures CollapseSeps(s) == [s[0]] + CollapseSeps(s[1..])
  {
  }

  /** Deriving a slug twice gives the same slug. */
  lemma SlugIdempotent(title: string)
    ensures GenerateSlug(GenerateSlug(title)) == GenerateSlug(title)
  {
    SlugShape(title);
    SlugFixedPoint(GenerateSlug(title));
  }

  /** The slug is empty exactly when the title holds no ASCII letter or digit, as for a
      title written only in CJK characters. */
  lemma SlugEmptyIff(title: string)
    ensures GenerateSlug(title) == "" <==> Alnums(title) == ""
  {
    SlugShape(title);
    var r := GenerateSlug(title);
    SlugHasAlnum(r);
    assert |Lower(Alnums(title))| == |Alnums(title)|;
  }

  /** A slug is empty exactly when it has no letter or digit. */
  lemma SlugHasAlnum(r: string)
    requires IsSlug(r)
    ensures r == "" <==> Alnums(r) == ""
  {
    if r != "" {
      assert SlugChar(r[0]) && r[0] != '-';
      assert IsAlnum(r[0]);
      assert r == [r[0]] + r[1..];
      AlnumsConcat([r[0]], r[1..]);
    }
  }

  /** "Hello World" becomes "hello-world". */
  lemma HelloWorldSlug(title: string, lowered: string)
    requires title == "Hello" + " " + "World"
    requires lowered == "hello" + " " + "world"
    ensures GenerateSlug(title) == "hello" + "-" + "world"
  {
    HelloLower(title, lowered);
    HelloKept(lowered);
    var c := "hello" + "-" + "world";
    HelloCollapse(lowered, c);
    assert c[0] == 'h' && c[|c| - 1] == 'd';
    NoEdgeHyphens(c);
  }

  lemma HelloLower(title: string, lowered: string)
    requires title == "Hello" + " " + "World"
    requires lowered == "hello" + " " + "world"
    ensures Lower(title) == lowered
  {
    LowerConcat("Hello" + " ", "World");
    LowerConcat("Hello", " ");
    assert Lower("Hello") == "hello";
    assert Lower(" ") == " ";
    assert Lower("World") == "world";
  }

  lemma HelloKept(lowered: string)
    requires lowered == "hello" + " " + "world"
    ensures KeepAllowed(lowered) == lowered
  {
    assert forall i | 0 <= i < |lowered| :: Kept(lowered[i]);
    KeepAllowedChars(lowered);
  }

  lemma HelloCollapse(lowered: string, c: string)
    requires lowered == "hello" + " " + "world"
    requires c == "hello" + "-" + "world"
    ensures CollapseSeps(lowered) == c
  {
    assert forall i | 0 <= i < |"hello"| :: !IsSep("hello"[i]);
    assert forall i | 0 <= i < |"world"| :: !IsSep("world"[i]);
    WordsAroundRun("hello", " ", "world");
  }

  /** Two words around one separator run collapse to the words joined by a hyphen. */
  lemma WordsAroundRun(a: string, u: string, b: string)
    requires forall i | 0 <= i < |a| :: !IsSep(a[i])
    requires |u| > 0 && forall i | 0 <= i < |u| :: IsSep(u[i])
    requires |b| > 0 && forall i | 0 <= i < |b| :: !IsSep(b[i])
    ensures CollapseSeps(a + u + b) == a + "-" + b
  {
    RunThenWord(u, b);
    CollapseWord(a, u + b);
    Assoc(a, u, b);
    Assoc(a, "-", b);
  }

  lemma Assoc(a: string, b: string, c: string)
    ensures a + b + c == a + (b + c)
  {
  }

  lemma RunThenWord(u: string, b: string)
    requires |u| > 0 && forall i | 0 <= i < |u| :: IsSep(u[i])
    requires |b| > 0 && forall i | 0 <= i < |b| :: !IsSep(b[i])
    ensures CollapseSeps(u + b) == "-" + b
  {
    CollapseRun(u, b);
    WordAlone(b);
  }

  lemma WordAlone(b: string)
    requires forall i | 0 <= i < |b| :: !IsSep(b[i])
    ensures CollapseSeps(b) == b
  {
    CollapseWord(b, "");
    assert b + "" == b;
  }

  /** Trimming hyphens leaves a string without edge hyphens alone. */
  lemma NoEdgeHyphens(c: string)
    requires c != "" && c[0] != '-' && c[|c| - 1] != '-'
    ensures TrimHyphens(c) == c
  {
  }

  /** Two posts titled 你好世界 both get the empty slug: collisions are not resolved. */
  lemma CjkTitlesCollide()
    ensures GenerateSlug("你好世界") == ""
  {
    assert Alnums("你好世界") == "";
    SlugEmptyIff("你好世界");
  }
}

=== FILE: text.dfy ===
/** String helpers standing in for the JavaScript string methods the blog relies on:
    `toLowerCase` (ASCII only), `trim`, `includes`, `split(' ')`/`join(' ')`, the
    default code-unit order of `.sort()`, `slice`, and de-duplication through a `Set`. */
module Text {

  // ---------------------------------------------------------------- lower case

  /** ASCII lower-casing of one character. */
  function LowerChar(c: char): char {
    if 'A' <= c <= 'Z' then (c as int + 32) as char else c
  }

  /** `s.toLowerCase()`, restricted to ASCII letters. */
  function Lower(s: string): (r: string)
    ensures |r| == |s|
    ensures forall i | 0 <= i < |s| :: r[i] == LowerChar(s[i])
  {
    if |s| == 0 then "" else [LowerChar(s[0])] + Lower(s[1..])
  }

  lemma LowerIdempotent(s: string)
    ensures Lower(Lower(s)) == Lower(s)
  {
  }

  lemma LowerConcat(a: string, b: string)
    ensures Lower(a + b) == Lower(a) + Lower(b)
  {
  }

  // ---------------------------------------------------------------- whitespace

  /** The characters JavaScript's `trim` and `\s` treat as white space
      (WhiteSpace and LineTerminator of the ECMAScript grammar). */
  predicate IsSpace(c: char) {
    var n := c as int;
    || 9 <= n <= 13 || n == 32 || n == 0xA0 || n == 0x1680
    || 0x2000 <= n <= 0x200A || n == 0x2028 || n == 0x2029
    || n == 0x202F || n == 0x205F || n == 0x3000 || n == 0xFEFF
  }

  /** Every character is white space (the empty string included). */
  predicate Blank(s: string) {
    forall i | 0 <= i < |s| :: IsSpace(s[i])
  }

  /** The string without its leading white space, as `parseInt` skips it. */
  function TrimStart(s: string): (r: string)
    ensures |r| <= |s| && r == s[|s| - |r|..]
    ensures forall k | 0 <= k < |s| - |r| :: IsSpace(s[k])
    ensures r == "" || !IsSpace(r[0])
  {
    if |s| > 0 && IsSpace(s[0]) then
      var r := TrimStart(s[1..]);
      assert forall k | 1 <= k < |s| - |r| :: s[k] == s[1..][k - 1];
      r
    else s
  }

  /** The first index at or after `i` that does not hold white space (`|s|` if none). */
  function SkipSpace(s: string, i: nat): (r: nat)
    requires i <= |s|
    ensures i <= r <= |s|
    ensures forall k | i <= k < r :: IsSpace(s[k])
    ensures r < |s| ==> !IsSpace(s[r])
    decreases |s| - i
  {
    if i < |s| && IsSpace(s[i]) then SkipSpace(s, i + 1) else i
  }

  /** The index just past the last character before `j` that is not white space,
      never going below `lo`. */
  function SkipSpaceBack(s: string, lo: nat, j: nat): (r: nat)
    requires lo <= j <= |s|
    ensures lo <= r <= j
    ensures forall k | r <= k < j :: IsSpace(s[k])
    ensures r > lo ==> !IsSpace(s[r - 1])
    decreases j
  {
    if j > lo && IsSpace(s[j - 1]) then SkipSpaceBack(s, lo, j - 1) else j
  }

  /** `s.trim()`: the infix left after removing leading and trailing white space. */
  function Trim(s: string): (r: string)
    ensures r == "" || (!IsSpace(r[0]) && !IsSpace(r[|r| - 1]))
    ensures exists i, j | 0 <= i <= j <= |s| :: r == s[i..j] && Blank(s[..i]) && Blank(s[j..])
    ensures r == "" <==> Blank(s)
  {
    var i := SkipSpace(s, 0);
    var j := SkipSpaceBack(s, i, |s|);
    TrimEnds(s, i, j);
    TrimPadding(s, i, j);
    TrimEmptyIff(s, i, j);
    s[i..j]
  }

  lemma TrimEnds(s: string, i: nat, j: nat)
    requires i <= j <= |s|
    requires i < |s| ==> !IsSpace(s[i])
    requires j > i ==> !IsSpace(s[j - 1])
    ensures s[i..j] == "" || (!IsSpace(s[i..j][0]) && !IsSpace(s[i..j][j - i - 1]))
  {
  }

  lemma TrimPadding(s: string, i: nat, j: nat)
    requires i <= j <= |s|
    requires forall k | 0 <= k < i :: IsSpace(s[k])
    requires forall k | j <= k < |s| :: IsSpace(s[k])
    ensures exists i', j' | 0 <= i' <= j' <= |s| :: s[i..j] == s[i'..j'] && Blank(s[..i']) && Blank(s[j'..])
  {
    assert forall k | 0 <= k < i :: s[..i][k] == s[k];
    assert forall k | 0 <= k < |s| - j :: s[j..][k] == s[j + k];
    assert Blank(s[..i]) && Blank(s[j..]);
  }

  lemma TrimEmptyIff(s: string, i: nat, j: nat)
    requires i <= j <= |s|
    requires forall k | 0 <= k < i :: IsSpace(s[k])
    requires forall k | j <= k < |s| :: IsSpace(s[k])
    requires i < |s| ==> !IsSpace(s[i])
    ensures s[i..j] == "" <==> Blank(s)
  {
  }

  /** `SkipSpace` stops at the first character that is not white space. */
  lemma SkipSpaceAt(s: string, i: nat, m: nat)
    requires i <= m < |s|
    requires forall k | i <= k < m :: IsSpace(s[k])
    requires !IsSpace(s[m])
    ensures SkipSpace(s, i) == m
  {
  }

  /** `SkipSpaceBack` stops after the last character that is not white space. */
  lemma SkipSpaceBackAt(s: string, lo: nat, j: nat, m: nat)
    requires lo < m <= j <= |s|
    requires forall k | m <= k < j :: IsSpace(s[k])
    requires !IsSpace(s[m - 1])
    ensures SkipSpaceBack(s, lo, j) == m
  {
  }

  /** `trim` removes exactly the blank padding around a string that neither starts nor
      ends with white space. */
  lemma TrimPadded(lead: string, core: string, tail: string)
    requires Blank(lead) && Blank(tail)
    requires core != "" && !IsSpace(core[0]) && !IsSpace(core[|core| - 1])
    ensures Trim(lead + core + tail) == core
  {
    var s := lead + core + tail;
    var i := |lead|;
    var j := |lead| + |core|;
    assert s[i] == core[0] && s[j - 1] == core[|core| - 1];
    assert forall k | 0 <= k < i :: s[k] == lead[k];
    assert forall k | j <= k < |s| :: s[k] == tail[k - j];
    SkipSpaceAt(s, 0, i);
    SkipSpaceBackAt(s, i, |s|, j);
    assert s[i..j] == core;
  }

  lemma LowerKeepsSpace(c: char)
    ensures IsSpace(LowerChar(c)) <==> IsSpace(c)
  {
  }

  /** Lower-casing does not change whether a string is blank. */
  lemma LowerBlank(s: string)
    ensures Blank(Lower(s)) <==> Blank(s)
  {
    forall i | 0 <= i < |s| {
      LowerKeepsSpace(s[i]);
    }
  }

  // ---------------------------------------------------------------- includes

  predicate OccursAt(s: string, sub: string, i: int)
    requires 0 <= i && i + |sub| <= |s|
  {
    s[i..i + |sub|] == sub
  }

  /** `s.includes(sub)`. */
  predicate Contains(s: string, sub: string) {
    exists i | 0 <= i && i + |sub| <= |s| :: OccursAt(s, sub, i)
  }

  lemma ContainsEmpty(s: string)
    ensures Contains(s, "")
  {
    assert OccursAt(s, "", 0);
  }

  lemma ContainsInfix(s: string, i: int, j: int)
    requires 0 <= i <= j <= |s|
    ensures Contains(s, s[i..j])
  {
    assert OccursAt(s, s[i..j], i);
  }

  lemma ContainsSelf(s: string)
    ensures Contains(s, s)
  {
    assert s[0..|s|] == s;
    ContainsInfix(s, 0, |s|);
  }

  // ---------------------------------------------------------------- split / join

  /** `s.split(sep)` for a one-character separator: the pieces between separators,
      empty pieces included, and always at least one piece. */
  function Split(s: string, sep: char): (r: seq<string>)
    ensures |r| >= 1
    ensures forall k | 0 <= k < |r| :: sep !in r[k]
    decreases |s|
  {
    if |s| == 0 then [""]
    else if s[0] == sep then [""] + Split(s[1..], sep)
    else
      var rest := Split(s[1..], sep);
      [[s[0]] + rest[0]] + rest[1..]
  }

  /** `xs.join(sep)`. */
  function Join(xs: seq<string>, sep: char): string {
    if |xs| == 0 then ""
    else if |xs| == 1 then xs[0]
    else xs[0] + [sep] + Join(xs[1..], sep)
  }

  /** Joining the pieces of a split gives the original string back. */
  lemma {:induction false} JoinSplit(s: string, sep: char)
    ensures Join(Split(s, sep), sep) == s
    decreases |s|
  {
    if |s| == 0 {
    } else if s[0] == sep {
      JoinSplit(s[1..], sep);
      assert s == [sep] + s[1..];
    } else {
      var rest := Split(s[1..], sep);
      JoinSplit(s[1..], sep);
      if |rest| == 1 {
        assert s == [s[0]] + s[1..];
      } else {
        assert rest == [rest[0]] + rest[1..];
        assert Join(rest, sep) == rest[0] + [sep] + Join(rest[1..], sep);
        assert s == [s[0]] + s[1..];
      }
    }
  }

  /** Splitting at a separator splits the two sides independently. */
  lemma {:induction false} SplitAround(a: string, b: string, sep: char)
    ensures Split(a + [sep] + b, sep) == Split(a, sep) + Split(b, sep)
    decreases |a|
  {
    if |a| == 0 {
      assert a + [sep] + b == [sep] + b;
      assert ([sep] + b)[1..] == b;
    } else {
      var s := a + [sep] + b;
      assert s[0] == a[0];
      assert s[1..] == a[1..] + [sep] + b;
      SplitAround(a[1..], b, sep);
    }
  }

  /** Splitting a join of separator-free pieces gives the pieces back. */
  lemma {:induction false} SplitJoin(xs: seq<string>, sep: char)
    requires |xs| >= 1
    requires forall k | 0 <= k < |xs| :: sep !in xs[k]
    ensures Split(Join(xs, sep), sep) == xs
    decreases |xs|
  {
    if |xs| == 1 {
      SplitNoSep(xs[0], sep);
    } else {
      SplitJoin(xs[1..], sep);
      SplitAround(xs[0], Join(xs[1..], sep), sep);
      SplitNoSep(xs[0], sep);
      assert xs == [xs[0]] + xs[1..];
    }
  }

  /** A string without the separator is one piece. */
  lemma {:induction false} SplitNoSep(s: string, sep: char)
    requires sep !in s
    ensures Split(s, sep) == [s]
    decreases |s|
  {
    if |s| > 0 {
      assert s[0] != sep;
      assert forall c | c in s[1..] :: c in s;
      SplitNoSep(s[1..], sep);
      assert s == [s[0]] + s[1..];
    }
  }

  /** Every piece of a split occurs in the original string. */
  lemma {:induction false} SplitPiecesOccur(s: string, sep: char, k: int)
    requires 0 <= k < |Split(s, sep)|
    ensures Contains(s, Split(s, sep)[k])
    decreases |s|
  {
    var r := Split(s, sep);
    if |s| == 0 {
      ContainsEmpty(s);
    } else if s[0] == sep {
      if k == 0 {
        ContainsEmpty(s);
      } else {
        SplitPiecesOccur(s[1..], sep, k - 1);
        ContainsShift(s, r[k]);
      }
    } else {
      var rest := Split(s[1..], sep);
      SplitPiecesOccur(s[1..], sep, k);
      if k == 0 {
        assert r[0] == [s[0]] + rest[0];
        PieceIsPrefix(s[1..], sep);
        assert s[1..][..|rest[0]|] == rest[0];
        assert s[..1 + |rest[0]|] == [s[0]] + rest[0];
        ContainsInfix(s, 0, 1 + |rest[0]|);
      } else {
        ContainsShift(s, r[k]);
      }
    }
  }

  lemma PieceIsPrefix(s: string, sep: char)
    ensures |Split(s, sep)[0]| <= |s| && s[..|Split(s, sep)[0]|] == Split(s, sep)[0]
    decreases |s|
  {
    if |s| > 0 && s[0] != sep {
      PieceIsPrefix(s[1..], sep);
    }
  }

  lemma ContainsShift(s: string, sub: string)
    requires |s| > 0 && Contains(s[1..], sub)
    ensures Contains(s, sub)
  {
    var i :| 0 <= i && i + |sub| <= |s[1..]| && OccursAt(s[1..], sub, i);
    assert s[1..][i..i + |sub|] == s[i + 1..i + 1 + |sub|];
    assert OccursAt(s, sub, i + 1);
  }

  // ---------------------------------------------------------------- ordering

  /** Lexicographic order on code points: the default order of `Array.prototype.sort`,
      also standing in for `localeCompare`. */
  predicate LexLe(a: string, b: string) {
    |a| == 0 || (|b| > 0 && (a[0] < b[0] || (a[0] == b[0] && LexLe(a[1..], b[1..]))))
  }

  predicate LexLt(a: string, b: string) {
    LexLe(a, b) && a != b
  }

  lemma LexLeTotal(a: string, b: string)
    ensures LexLe(a, b) || LexLe(b, a)
  {
  }

  lemma LexLeAntisymmetric(a: string, b: string)
    requires LexLe(a, b) && LexLe(b, a)
    ensures a == b
  {
    if |a| > 0 && |b| > 0 {
      LexLeAntisymmetric(a[1..], b[1..]);
      assert a == [a[0]] + a[1..] && b == [b[0]] + b[1..];
    }
  }

  lemma LexLeTransitive(a: string, b: string, c: string)
    requires LexLe(a, b) && LexLe(b, c)
    ensures LexLe(a, c)
  {
    if |a| > 0 && |b| > 0 && |c| > 0 && a[0] == b[0] && b[0] == c[0] {
      LexLeTransitive(a[1..], b[1..], c[1..]);
    }
  }

  predicate Ascending(s: seq<string>) {
    forall i, j | 0 <= i < j < |s| :: LexLe(s[i], s[j])
  }

  predicate StrictlyAscending(s: seq<string>) {
    forall i, j | 0 <= i < j < |s| :: LexLt(s[i], s[j])
  }

  lemma LexLeRefl(a: string)
    ensures LexLe(a, a)
  {
  }

  /** Inserts `x` in front of the first element it does not exceed. */
  function InsertString(x: string, s: seq<string>): (r: seq<string>)
    ensures multiset(r) == multiset(s) + multiset{x}
    ensures forall y :: y in r <==> y == x || y in s
    ensures Ascending(s) ==> Ascending(r)
    ensures NoDup(s) && x !in s ==> NoDup(r)
  {
    if |s| == 0 then [x]
    else if LexLe(x, s[0]) then
      InsertStringFront(x, s);
      [x] + s
    else
      var t := InsertString(x, s[1..]);
      assert s == [s[0]] + s[1..];
      LexLeRefl(x);
      InsertStringBehind(x, s, t);
      InsertStringNoDup(x, s, t);
      [s[0]] + t
  }

  lemma InsertStringFront(x: string, s: seq<string>)
    requires |s| > 0 && LexLe(x, s[0])
    ensures Ascending(s) ==> Ascending([x] + s)
  {
    if Ascending(s) {
      var r := [x] + s;
      forall i, j | 0 <= i < j < |r|
        ensures LexLe(r[i], r[j])
      {
        if i == 0 && j > 1 {
          LexLeTransitive(x, s[0], s[j - 1]);
        }
      }
    }
  }

  lemma InsertStringNoDup(x: string, s: seq<string>, t: seq<string>)
    requires |s| > 0 && x != s[0]
    requires forall y :: y in t <==> y == x || y in s[1..]
    requires NoDup(s[1..]) && x !in s[1..] ==> NoDup(t)
    ensures NoDup(s) && x !in s ==> NoDup([s[0]] + t)
  {
    if NoDup(s) && x !in s {
      assert NoDup(s[1..]) by {
        forall i, j | 0 <= i < j < |s[1..]| ensures s[1..][i] != s[1..][j] {
          assert s[1..][i] == s[i + 1] && s[1..][j] == s[j + 1];
        }
      }
      assert s[0] !in s[1..] by {
        forall k | 0 <= k < |s[1..]| ensures s[1..][k] != s[0] {
          assert s[1..][k] == s[k + 1];
        }
      }
      var r := [s[0]] + t;
      forall i, j | 0 <= i < j < |r| ensures r[i] != r[j] {
        if i == 0 {
          assert r[j] == t[j - 1] && t[j - 1] in t;
        } else {
          assert r[i] == t[i - 1] && r[j] == t[j - 1];
        }
      }
    }
  }

  lemma InsertStringBehind(x: string, s: seq<string>, t: seq<string>)
    requires |s| > 0 && !LexLe(x, s[0])
    requires forall y :: y in t <==> y == x || y in s[1..]
    requires Ascending(s[1..]) ==> Ascending(t)
    ensures Ascending(s) ==> Ascending([s[0]] + t)
  {
    if Ascending(s) {
      assert Ascending(s[1..]);
      LexLeTotal(x, s[0]);
      var r := [s[0]] + t;
      forall i, j | 0 <= i < j < |r|
        ensures LexLe(r[i], r[j])
      {
        if i == 0 {
          var y := t[j - 1];
          assert y in t;
          if y != x {
            var m :| 0 <= m < |s[1..]| && s[1..][m] == y;
            assert s[m + 1] == y;
          }
        }
      }
    }
  }

  /** `Array.prototype.sort()` with its default comparator, on strings. */
  function SortStrings(s: seq<string>): (r: seq<string>)
    ensures multiset(r) == multiset(s)
    ensures forall y :: y in r <==> y in s
    ensures Ascending(r)
    ensures NoDup(s) ==> NoDup(r)
  {
    if |s| == 0 then []
    else
      assert s == [s[0]] + s[1..];
      InsertString(s[0], SortStrings(s[1..]))
  }

  /** Ascending without duplicates is strictly ascending. */
  lemma AscendingNoDup(s: seq<string>)
    requires Ascending(s) && NoDup(s)
    ensures StrictlyAscending(s)
  {
  }

  // ---------------------------------------------------------------- slices

  /** One index argument of `Array.prototype.slice`, normalised into `0..n`. */
  function SliceIndex(x: int, n: nat): (r: nat)
    ensures r <= n
  {
    if x < 0 then (if n + x < 0 then 0 else n + x) else if x < n then x else n
  }

  /** `s.slice(start, end)`, negative indices counting from the end. */
  function JsSlice<T>(s: seq<T>, start: int, end: int): (r: seq<T>)
    ensures |r| <= |s|
  {
    var a := SliceIndex(start, |s|);
    var b := SliceIndex(end, |s|);
    if a < b then s[a..b] else []
  }

  /** `s.slice(0, k)` for a non-negative k. */
  lemma TakeSlice<T>(s: seq<T>, k: nat)
    ensures JsSlice(s, 0, k) == s[..if k < |s| then k else |s|]
  {
  }

  // ---------------------------------------------------------------- distinct values

  predicate NoDup<T(==)>(s: seq<T>) {
    forall i, j | 0 <= i < j < |s| :: s[i] != s[j]
  }

  /** `Array.from(new Set(s))`: first occurrences, in order (`DedupeOrder`). */
  function Dedupe<T(==,!new)>(s: seq<T>): (r: seq<T>)
    ensures NoDup(r)
    ensures forall x :: x in r <==> x in s
    ensures |r| <= |s|
  {
    if |s| == 0 then []
    else
      var d := Dedupe(s[..|s| - 1]);
      assert s == s[..|s| - 1] + [s[|s| - 1]];
      if s[|s| - 1] in d then d else d + [s[|s| - 1]]
  }

  /** The position of the first occurrence of `x` in `s`: `s.indexOf(x)`. */
  function IndexOf<T(==)>(s: seq<T>, x: T): (r: nat)
    requires x in s
    ensures r < |s| && s[r] == x
    ensures forall k | 0 <= k < r :: s[k] != x
  {
    if s[0] == x then 0 else 1 + IndexOf(s[1..], x)
  }

  /** Growing a sequence at the back moves no first occurrence of what it held. */
  lemma {:induction false} IndexOfSnoc<T>(s: seq<T>, y: T, x: T)
    requires x in s
    ensures x in s + [y] && IndexOf(s + [y], x) == IndexOf(s, x)
  {
    var i := IndexOf(s, x);
    var j := IndexOf(s + [y], x);
    assert (s + [y])[i] == x;
    assert s[j] == x;
  }

  /** `Dedupe` keeps the values in the order of their first occurrence in `s`. */
  lemma {:induction false} DedupeOrder<T(!new)>(s: seq<T>)
    ensures forall i, j | 0 <= i < j < |Dedupe(s)| :: IndexOf(s, Dedupe(s)[i]) < IndexOf(s, Dedupe(s)[j])
    decreases |s|
  {
    if |s| > 0 {
      var p := s[..|s| - 1];
      var y := s[|s| - 1];
      assert s == p + [y];
      DedupeOrder(p);
      var dp := Dedupe(p);
      forall x | x in dp ensures x in p && IndexOf(s, x) == IndexOf(p, x) {
        IndexOfSnoc(p, y, x);
      }
      if y !in dp {
        SnocOrder(s, p, y, dp);
      } else {
        assert Dedupe(s) == dp;
      }
    }
  }

  /** Appending a value not seen before, which first occurs last, keeps the order. */
  lemma SnocOrder<T>(s: seq<T>, p: seq<T>, y: T, dp: seq<T>)
    requires s == p + [y] && y !in p
    requires forall x | x in dp :: x in p && IndexOf(s, x) == IndexOf(p, x)
    requires forall i, j | 0 <= i < j < |dp| :: IndexOf(p, dp[i]) < IndexOf(p, dp[j])
    ensures var d := dp + [y];
            forall i, j | 0 <= i < j < |d| :: IndexOf(s, d[i]) < IndexOf(s, d[j])
  {
    var d := dp + [y];
    assert IndexOf(s, y) == |p|;
    forall i, j | 0 <= i < j < |d| ensures IndexOf(s, d[i]) < IndexOf(s, d[j]) {
      assert d[i] == dp[i];
      if j < |dp| {
        assert d[j] == dp[j];
      }
    }
  }
}

=== FILE: themes.dfy ===
/** The theme helpers of src/utils/themeLoader.ts: merging a theme with partial
    overrides, the required-field check, the fallback chain of `loadTheme` and the
    fixed list of theme names. A dynamic `import` is modelled by a function from theme
    names to what the module exports, `None` where the import throws. */
module Themes {
  import opened Wrappers
  import opened Text

  /** A leaf of a nested theme group: a CSS value or a font list. */
  datatype Leaf = Css(text: string) | Fonts(names: seq<string>)

  /** A nested group such as `typography.fontSize` or `animation.easing`. */
  type Group = map<string, Leaf>

  /** `ThemeConfig`: flat maps for colors, spacing and radius; maps of groups for
      typography and animation. */
  datatype ThemeConfig = ThemeConfig(
    name: string,
    displayName: string,
    description: string,
    isDark: bool,
    colors: map<string, string>,
    typography: map<string, Group>,
    spacing: map<string, string>,
    radius: map<string, string>,
    animation: map<string, Group>)

  /** `Partial<ThemeConfig>`: each top-level field present or absent. */
  datatype Overrides = Overrides(
    name: Option<string>,
    displayName: Option<string>,
    description: Option<string>,
    isDark: Option<bool>,
    colors: Option<map<string, string>>,
    typography: Option<map<string, Group>>,
    spacing: Option<map<string, string>>,
    radius: Option<map<string, string>>,
    animation: Option<map<string, Group>>)

  const NoOverrides := Overrides(None, None, None, None, None, None, None, None, None)

  // ---------------------------------------------------------------- merge

  /** `{ ...base, ...over }` for one map-valued field: keys of `over` win. */
  function Spread<V>(base: map<string, V>, over: Option<map<string, V>>): (r: map<string, V>)
    ensures r.Keys == base.Keys + (if over.Some? then over.value.Keys else {})
    ensures forall k | k in r :: r[k] == if over.Some? && k in over.value then over.value[k] else base[k]
  {
    if over.Some? then base + over.value else base
  }

  /** `mergeThemeConfig(baseTheme, overrides)`. The scalar fields come from the
      overrides when present; every map field is spread one level deep, so an
      overriding typography or animation group replaces the base group whole. */
  function MergeThemeConfig(base: ThemeConfig, o: Overrides): (r: ThemeConfig)
    ensures r.name == o.name.GetOr(base.name)
    ensures r.displayName == o.displayName.GetOr(base.displayName)
    ensures r.description == o.description.GetOr(base.description)
    ensures r.isDark == o.isDark.GetOr(base.isDark)
    ensures r.colors == Spread(base.colors, o.colors)
    ensures r.typography == Spread(base.typography, o.typography)
    ensures r.spacing == Spread(base.spacing, o.spacing)
    ensures r.radius == Spread(base.radius, o.radius)
    ensures r.animation == Spread(base.animation, o.animation)
  {
    ThemeConfig(
      o.name.GetOr(base.name),
      o.displayName.GetOr(base.displayName),
      o.description.GetOr(base.description),
      o.isDark.GetOr(base.isDark),
      Spread(base.colors, o.colors),
      Spread(base.typography, o.typography),
      Spread(base.spacing, o.spacing),
      Spread(base.radius, o.radius),
      Spread(base.animation, o.animation))
  }

  /** A colour, spacing or radius key keeps the base value unless the overrides name it. */
  lemma FlatKeysMerge(base: ThemeConfig, o: Overrides, k: string)
    ensures var r := MergeThemeConfig(base, o);
            (o.colors.Some? && k in o.colors.value ==> k in r.colors && r.colors[k] == o.colors.value[k])
            && (k in base.colors && (o.colors.None? || k !in o.colors.value) ==> k in r.colors && r.colors[k] == base.colors[k])
            && (k in r.colors <==> k in base.colors || (o.colors.Some? && k in o.colors.value))
  {
  }

  /** The merge is one level deep: overriding `typography[g]` drops every entry of the
      base group that the override does not repeat. */
  lemma NestedGroupReplaced(base: ThemeConfig, o: Overrides, g: string, k: string)
    requires o.typography.Some? && g in o.typography.value
    requires g in base.typography && k in base.typography[g] && k !in o.typography.value[g]
    ensures k !in MergeThemeConfig(base, o).typography[g]
  {
  }

  /** Merging nothing gives the base back. */
  lemma MergeNothing(base: ThemeConfig)
    ensures MergeThemeConfig(base, NoOverrides) == base
  {
  }

  /** Two partial overrides applied in turn, as one: later fields win, and map fields
      are spread into each other. */
  function Combine(o1: Overrides, o2: Overrides): Overrides {
    Overrides(
      if o2.name.Some? then o2.name else o1.name,
      if o2.displayName.Some? then o2.displayName else o1.displayName,
      if o2.description.Some? then o2.description else o1.description,
      if o2.isDark.Some? then o2.isDark else o1.isDark,
      CombineMaps(o1.colors, o2.colors),
      CombineMaps(o1.typography, o2.typography),
      CombineMaps(o1.spacing, o2.spacing),
      CombineMaps(o1.radius, o2.radius),
      CombineMaps(o1.animation, o2.animation))
  }

  function CombineMaps<V>(a: Option<map<string, V>>, b: Option<map<string, V>>): Option<map<string, V>> {
    if a.Some? && b.Some? then Some(a.value + b.value)
    else if b.Some? then b
    else a
  }

  /** Spreading twice is spreading the combined overrides once. */
  lemma SpreadTwice<V>(base: map<string, V>, a: Option<map<string, V>>, b: Option<map<string, V>>)
    ensures Spread(Spread(base, a), b) == Spread(base, CombineMaps(a, b))
  {
    var lhs, rhs := Spread(Spread(base, a), b), Spread(base, CombineMaps(a, b));
    assert lhs.Keys == rhs.Keys;
    forall k | k in lhs ensures lhs[k] == rhs[k] {
    }
  }

  /** Merging twice equals merging once with the combined overrides. */
  lemma MergeTwice(base: ThemeConfig, o1: Overrides, o2: Overrides)
    ensures MergeThemeConfig(MergeThemeConfig(base, o1), o2) == MergeThemeConfig(base, Combine(o1, o2))
  {
    var l, r := MergeThemeConfig(MergeThemeConfig(base, o1), o2), MergeThemeConfig(base, Combine(o1, o2));
    FlatTwice(base, o1, o2);
    NestedTwice(base, o1, o2);
    assert l.name == r.name && l.displayName == r.displayName;
    assert l.description == r.description && l.isDark == r.isDark;
  }

  lemma FlatTwice(base: ThemeConfig, o1: Overrides, o2: Overrides)
    ensures var l, r := MergeThemeConfig(MergeThemeConfig(base, o1), o2), MergeThemeConfig(base, Combine(o1, o2));
            l.colors == r.colors && l.spacing == r.spacing && l.radius == r.radius
  {
    SpreadTwice(base.colors, o1.colors, o2.colors);
    SpreadTwice(base.spacing, o1.spacing, o2.spacing);
    SpreadTwice(base.radius, o1.radius, o2.radius);
  }

  lemma NestedTwice(base: ThemeConfig, o1: Overrides, o2: Overrides)
    ensures var l, r := MergeThemeConfig(MergeThemeConfig(base, o1), o2), MergeThemeConfig(base, Combine(o1, o2));
            l.typography == r.typography && l.animation == r.animation
  {
    SpreadTwice(base.typography, o1.typography, o2.typography);
    SpreadTwice(base.animation, o1.animation, o2.animation);
  }

  /** Applying the same overrides again changes nothing. */
  lemma MergeIdempotent(base: ThemeConfig, o: Overrides)
    ensures MergeThemeConfig(MergeThemeConfig(base, o), o) == MergeThemeConfig(base, o)
  {
    MergeTwice(base, o, o);
    assert Combine(o, o) == o by {
      SelfCombine(o.colors);
      SelfCombine(o.typography);
      SelfCombine(o.spacing);
      SelfCombine(o.radius);
      SelfCombine(o.animation);
    }
  }

  lemma SelfCombine<V>(a: Option<map<string, V>>)
    ensures CombineMaps(a, a) == a
  {
    if a.Some? {
      assert a.value + a.value == a.value;
    }
  }

  // ---------------------------------------------------------------- validation

  const RequiredFields := ["name", "displayName", "description", "isDark",
                           "colors", "typography", "spacing", "radius", "animation"]

  /** What `validateThemeConfig` may be handed: an object, by the property names the
      `in` operator finds on it, or a primitive, on which `in` throws a TypeError. */
  datatype Candidate = Object(keys: set<string>) | Primitive

  /** `validateThemeConfig(theme)`: whether every required field name is present;
      `None` where the validation throws. */
  function ValidateThemeConfig(c: Candidate): (r: Option<bool>)
    ensures c.Primitive? <==> r.None?
    ensures c.Object? ==> (r == Some(true) <==> forall i | 0 <= i < |RequiredFields| :: RequiredFields[i] in c.keys)
  {
    match c
    case Primitive => None
    case Object(keys) => Some(AllIn(RequiredFields, keys))
  }

  /** `fields.every(field => field in keys)` */
  function AllIn(fields: seq<string>, keys: set<string>): (r: bool)
    ensures r <==> forall i | 0 <= i < |fields| :: fields[i] in keys
  {
    if fields == [] then true
    else fields[0] in keys && AllIn(fields[1..], keys)
  }

  /** The property names of a config object. The record type has every required field,
      so the set does not depend on `t`: a typed config always carries them all. */
  function KeysOf(t: ThemeConfig): set<string> {
    set f | f in RequiredFields
  }

  /** Every config, and in particular every merge result, passes validation; dropping
      any one required field fails it. The first two facts hold by the shape of the
      record type (`KeysOf`); the third is what `validateThemeConfig` decides for an
      untyped object. */
  lemma ValidationFacts(base: ThemeConfig, o: Overrides, keys: set<string>, f: string)
    requires f in RequiredFields && f !in keys
    ensures ValidateThemeConfig(Object(KeysOf(base))) == Some(true)
    ensures ValidateThemeConfig(Object(KeysOf(MergeThemeConfig(base, o)))) == Some(true)
    ensures ValidateThemeConfig(Object(keys)) == Some(false)
  {
    var i :| 0 <= i < |RequiredFields| && RequiredFields[i] == f;
  }

  // ---------------------------------------------------------------- loading

  /** What a theme module exports: `default`, a named `theme`, either or neither. */
  datatype ThemeModule = ThemeModule(defaultExport: Option<ThemeConfig>, namedExport: Option<ThemeConfig>)

  /** The value of `themeModule.default || themeModule.theme`; a module exporting
      neither yields `undefined`, which is returned as it is. */
  function Exported(m: ThemeModule): Option<ThemeConfig> {
    if m.defaultExport.Some? then m.defaultExport else m.namedExport
  }

  const DefaultTheme := "default"

  /** `getBasicTheme()`, the last resort. */
  const BasicTheme := ThemeConfig(
    "basic", "基础主题", "系统基础主题", false,
    map[
      "primary" := "#3b82f6", "primaryHover" := "#2563eb", "secondary" := "#6b7280",
      "accent" := "#8b5cf6", "background" := "#ffffff", "backgroundSecondary" := "#f9fafb",
      "backgroundTertiary" := "#f3f4f6", "textPrimary" := "#111827",
      "textSecondary" := "#374151", "textMuted" := "#6b7280", "border" := "#e5e7eb",
      "borderHover" := "#d1d5db", "success" := "#10b981", "warning" := "#f59e0b",
      "error" := "#ef4444", "glow" := "#3b82f6", "shadow" := "rgba(0, 0, 0, 0.1)"],
    map[
      "fontFamily" := map[
        "sans" := Fonts(["Inter", "system-ui", "sans-serif"]),
        "mono" := Fonts(["JetBrains Mono", "Monaco", "monospace"])],
      "fontSize" := map[
        "xs" := Css("0.75rem"), "sm" := Css("0.875rem"), "base" := Css("1rem"),
        "lg" := Css("1.125rem"), "xl" := Css("1.25rem"), "2xl" := Css("1.5rem"),
        "3xl" := Css("1.875rem"), "4xl" := Css("2.25rem")],
      "fontWeight" := map[
        "normal" := Css("400"), "medium" := Css("500"), "semibold" := Css("600"),
        "bold" := Css("700")],
      "lineHeight" := map[
        "tight" := Css("1.25"), "normal" := Css("1.5"), "relaxed" := Css("1.75")]],
    map[
      "xs" := "0.5rem", "sm" := "1rem", "md" := "1.5rem", "lg" := "2rem", "xl" := "3rem",
      "2xl" := "4rem", "3xl" := "6rem"],
    map[
      "none" := "0", "sm" := "0.25rem", "md" := "0.5rem", "lg" := "0.75rem", "xl" := "1rem",
      "full" := "9999px"],
    map[
      "duration" := map["fast" := Css("150ms"), "normal" := Css("300ms"), "slow" := Css("500ms")],
      "easing" := map[
        "linear" := Css("linear"), "easeIn" := Css("cubic-bezier(0.4, 0, 1, 1)"),
        "easeOut" := Css("cubic-bezier(0, 0, 0.2, 1)"),
        "easeInOut" := Css("cubic-bezier(0.4, 0, 0.2, 1)")]])

  /** The theme `loadTheme` resolves to, and how many imports it attempted. */
  datatype Loaded = Loaded(theme: Option<ThemeConfig>, attempts: nat)

  /** `loadTheme(name)`, where `load(n)` is the module `import` finds for theme `n`. */
  function LoadTheme(load: string -> Option<ThemeModule>, name: string): (r: Loaded)
    decreases if name == DefaultTheme then 0 else 1
    ensures 1 <= r.attempts <= 2
    ensures load(name).Some? ==> r == Loaded(Exported(load(name).value), 1)
  {
    match load(name)
    case Some(m) => Loaded(Exported(m), 1)
    case None =>
      if name != DefaultTheme then
        var d := LoadTheme(load, DefaultTheme);
        Loaded(d.theme, d.attempts + 1)
      else Loaded(Some(BasicTheme), 1)
  }

  /** The fallback chain: a theme that fails to import is replaced by the default
      theme, and the basic theme is used only when the default one fails too. The
      result is missing only when an imported module exports no theme. */
  lemma LoadFallback(load: string -> Option<ThemeModule>, name: string)
    ensures var r := LoadTheme(load, name);
            && (load(name).None? && name != DefaultTheme && load(DefaultTheme).Some? ==>
                  r == Loaded(Exported(load(DefaultTheme).value), 2))
            && (load(name).None? && load(DefaultTheme).None? ==>
                  r.theme == Some(BasicTheme) && r.attempts == (if name == DefaultTheme then 1 else 2))
            && (r.theme.None? ==> exists n | n in {name, DefaultTheme} :: load(n).Some? && Exported(load(n).value).None?)
  {
    if load(name).None? && name != DefaultTheme {
      assert LoadTheme(load, name).theme == LoadTheme(load, DefaultTheme).theme;
    }
  }

  /** `getAvailableThemes()` */
  function AvailableThemes(): (r: seq<string>)
    ensures |r| == 4 && r[0] == DefaultTheme && NoDup(r)
    ensures forall n | n in r :: n in {"default", "cyber-cool", "sunset-warm", "tech-blue"}
  {
    ["default", "cyber-cool", "sunset-warm", "tech-blue"]
  }

  /** An example about the constants, not a property of an operation: the last-resort
      theme is not one of the themes offered for selection. */
  lemma BasicIsNotOffered()
    ensures BasicTheme.name !in AvailableThemes()
  {
  }
}

=== FILE: wrappers.dfy ===
/** Option stands for JavaScript's `null`/`undefined` next to a present value. */
module Wrappers {

  datatype Option<+T> = None | Some(value: T) {

    /** The value, or `default` when absent. */
    function GetOr(default: T): T {
      match this
      case Some(v) => v
      case None => default
    }
  }

  /** JavaScript truthiness of an optional string: absent and '' are both falsy. */
  predicate Present(o: Option<string>) {
    o.Some? && o.value != ""
  }

  /** `o || d` for an optional string. */
  function OrElse(o: Option<string>, d: string): (r: string)
    ensures Present(o) ==> r == o.value
    ensures !Present(o) ==> r == d
  {
    if Present(o) then o.value else d
  }
}
